=== FILE: README.md ===
# A model of the site's search, translation and page-component logic

This project models the core of a Statamic site in Dafny: the PHP code that builds the
search index and the template helpers, and the JavaScript page components whose
behaviour has real logic in it.

**PHP side**
- The index command (`UpdateIndex`) flattens each entry into searchable text. It walks
  the entry's fields, its page elements and the Bard rich-text trees nested in them, then
  casts, filters and space-joins the fragments. For accordion items it also stores anchor
  records.
- Three template modifiers:
  - `highlight` builds a search-result snippet around a keyword.
  - `translated_slug` gives the URL of a page in another locale.
  - `accordion_for_content_type` finds the anchor of the first accordion item that holds
    a given content type.
- One template tag: `border_color` picks a border class from a five-colour cycle.

**JavaScript side**
- The search-highlight component: term selection, text-node filtering, `<mark>`
  rendering, regex escaping, and the wait for the accordion animation.
- The masonry layout: column count, greedy placement, and the instance registry.
- The sticky header's scroll state machine.
- The lightbox's caption and backdrop colour.

**Modules**

| file | module | models |
|---|---|---|
| `optional.dfy` | `Optional` | the "value or nothing" result |
| `php.dfy` | `Php` | PHP values: arrays as association lists, truthiness, string conversion, `isset` and `??` |
| `text.dfy` | `Text` | `implode`, `split`, decimal rendering, substring search |
| `entries.dfy` | `Entries` | content-store entries |
| `bard.dfy` | `Bard` | `processBardField` and `extractTextFromBardContent` |
| `update_index.dfy` | `UpdateIndex` | `getSearchableContent`, `getAccordionAnchors` and `getAccordionContent` |
| `highlight.dfy` | `Highlight` | the `highlight` modifier, including the PCRE match it relies on |
| `translation.dfy` | `Translation` | `getTargetEntry`, `buildUrl` and `translated_slug` |
| `accordion_for.dfy` | `AccordionFor` | `accordion_for_content_type` and its agreement with the stored anchors |
| `border_color.dfy` | `BorderColor` | the `border_color` tag |
| `search_highlight.dfy` | `SearchHighlight` | the search-highlight component |
| `masonry.dfy` | `Masonry` | the masonry layout library |
| `header_scroll.dfy` | `HeaderScroll` | the sticky header |
| `lightbox.dfy` | `Lightbox` | the lightbox callbacks |

**How the environment is represented**
- The content store (`Entry::query()`, `Entry::find`) is a sequence of entries. Its order
  is the order in which a query returns them.
- Functions the code calls but does not define are parameters:
  - `strip_tags`, `Str::slug` and `toLowerCase`;
  - the regex engine's caseless folding;
  - the height readings of the animation wait.
- The DOM becomes plain data: text nodes with their parent's tag, class lists, and the
  ids of a wrapper's descendants.
- A PHP fatal error is the outcome `Fails`.

## Model

| member | source | states |
|---|---|---|
| Php.Lookup | app/Console/Commands/UpdateIndex.php:96-99 | a non-null value read from a PHP array is one stored under the key, and a key that no entry carries reads as `null` |
| Php.Get | app/Console/Commands/UpdateIndex.php:96-99 | reading a key of a non-array gives `null`, as `isset`/`??` see it |
| Php.Elements | app/Console/Commands/UpdateIndex.php:89-91 | a `foreach` over an array visits as many values as it has entries; the source only reaches this loop with an array, and the model visits nothing of a non-array (see `Elements:` under "## Left out") |
| Php.ToStr | app/Console/Commands/UpdateIndex.php:209-211 | PHP's string conversion keeps strings, and a scalar converts to `''` or `'0'` exactly when it is falsy |
| Php.GetOrEmpty | app/Console/Commands/UpdateIndex.php:94 | `?? ''` never yields `null` |
| Php.GetIsNested | app/Console/Commands/UpdateIndex.php:96-99 | a set key lives in an array, among its entries |
| Text.Join | app/Console/Commands/UpdateIndex.php:214 | `implode` of no parts is `''`, and of one part is that part |
| Text.JoinAppend | app/Console/Commands/UpdateIndex.php:214 | joining two non-empty lists puts exactly one separator between their joins |
| Text.JoinHead | app/Console/Commands/UpdateIndex.php:214 | a join starts with its first part, followed by the separator when more parts follow |
| Text.Decimal | app/Console/Commands/UpdateIndex.php:209-211 | an integer's decimal form is never empty, and it is `"0"` exactly for zero |
| Text.NatDecimalRoundTrip | app/Console/Commands/UpdateIndex.php:209-211 | reading back the decimal digits of a natural number gives the number |
| Text.FindFrom | resources/js/modules/lightbox.js:33 | the search returns the first occurrence at or after the start, or -1 when there is none |
| Text.FindFromFirst | resources/js/modules/lightbox.js:33 | an occurrence with none before it is the one found |
| Text.Split | resources/js/modules/lightbox.js:33 | `split` on a literal gives at least one piece, and no piece contains the separator |
| Text.SplitJoin | resources/js/modules/lightbox.js:33 | splitting on a separator and joining with it restores the string |
| Bard.GetWithin | app/Console/Commands/UpdateIndex.php:257-320 | a set key's value is nested in its array |
| Bard.ExtractTextFromBardContent | app/Console/Commands/UpdateIndex.php:322-342 | the nested walk keeps the caller's fragments as a prefix, and every fragment it appends is a non-null value nested in the walked tree |
| Bard.ExtractItems | app/Console/Commands/UpdateIndex.php:328-341 | the `foreach` of the nested walk, from any item on, only appends values taken from the tree |
| Bard.ExtractItem | app/Console/Commands/UpdateIndex.php:329-340 | one item of the nested walk only appends values taken from that tree |
| Bard.NestedContent | app/Console/Commands/UpdateIndex.php:270-287 | a block's `content` walk only appends values nested in the block |
| Bard.LinkFragments | app/Console/Commands/UpdateIndex.php:288-296 | a link block only appends values nested in the block |
| Bard.SetFragments | app/Console/Commands/UpdateIndex.php:297-310 | a set block only appends values nested in the block |
| Bard.DefaultFragments | app/Console/Commands/UpdateIndex.php:311-317 | any other block only appends values nested in the block |
| Bard.ProcessBlock | app/Console/Commands/UpdateIndex.php:263-318 | one block only appends values nested in it |
| Bard.ProcessBlocks | app/Console/Commands/UpdateIndex.php:263-318 | every appended fragment is nested in one of the blocks |
| Bard.ProcessBardField | app/Console/Commands/UpdateIndex.php:257-320 | a non-array field leaves the list unchanged; otherwise the field only appends non-null values taken from the field |
| Bard.ExtractAppendOnly | app/Console/Commands/UpdateIndex.php:322-342 | the nested walk ignores the fragments already collected: its result is those fragments followed by what it would collect from nothing |
| Bard.ExtractItemsAppendOnly | app/Console/Commands/UpdateIndex.php:328-341 | the item loop of the nested walk is independent of the fragments already collected |
| Bard.ExtractItemAppendOnly | app/Console/Commands/UpdateIndex.php:329-340 | one nested item is independent of the fragments already collected |
| Bard.NestedContentAppendOnly | app/Console/Commands/UpdateIndex.php:270-287 | a container block's contribution is independent of the fragments already collected |
| Bard.LinkAppendOnly | app/Console/Commands/UpdateIndex.php:288-296 | a link block's contribution is independent of the fragments already collected |
| Bard.SetAppendOnly | app/Console/Commands/UpdateIndex.php:297-310 | a set block's contribution is independent of the fragments already collected |
| Bard.DefaultAppendOnly | app/Console/Commands/UpdateIndex.php:311-317 | any other block's contribution is independent of the fragments already collected |
| Bard.ProcessBlockAppendOnly | app/Console/Commands/UpdateIndex.php:263-318 | one block's contribution is independent of the fragments already collected |
| Bard.ProcessBlocksAppendOnly | app/Console/Commands/UpdateIndex.php:263-318 | the block loop is independent of the fragments already collected |
| Bard.ProcessBardFieldAppendOnly | app/Console/Commands/UpdateIndex.php:257-320 | `processBardField` only appends: the result is the caller's list followed by the field's own fragments |
| Bard.ProcessBlocksConcat | app/Console/Commands/UpdateIndex.php:263-318 | blocks contribute in document order: processing `a + b` is processing `a`, then `b` |
| Bard.ProcessBardFieldConcat | app/Console/Commands/UpdateIndex.php:257-320 | the fragments of a document made of two parts are those of the first part followed by those of the second |
| Bard.ExtractConcat | app/Console/Commands/UpdateIndex.php:322-342 | in the nested walk, the fragments of two concatenated item lists are those of the first followed by those of the second |
| Bard.ScalarBlocksSkipped | app/Console/Commands/UpdateIndex.php:264-266 | top-level blocks that are not arrays contribute nothing |
| Bard.ContainerBlock | app/Console/Commands/UpdateIndex.php:270-287 | paragraph, heading, text and list blocks contribute exactly the nested walk of their `content` |
| Bard.TextBlockWithoutContent | app/Console/Commands/UpdateIndex.php:270-287 | a top-level `text` block with a `text` but no `content` contributes nothing |
| Bard.LinkBlock | app/Console/Commands/UpdateIndex.php:288-296 | a link contributes its label fragments and then its `attrs.href` when set |
| Bard.SetBlock | app/Console/Commands/UpdateIndex.php:297-310 | a set block contributes `attrs.values.link_text` and then `attrs.values.link`, each only when set |
| Bard.OtherBlock | app/Console/Commands/UpdateIndex.php:311-317 | any other block contributes its `text` when set, and otherwise the nested walk of its `content` |
| Bard.NestedArrayItem | app/Console/Commands/UpdateIndex.php:329-336 | in the nested walk an array item contributes its `text` (when set) and then its `content` |
| Bard.NestedScalarItem | app/Console/Commands/UpdateIndex.php:337-340 | in the nested walk a string item is appended as it is, and any other scalar is skipped |
| UpdateIndex.AppendIfSet | app/Console/Commands/UpdateIndex.php:120-127 | the list is unchanged, or, when the key is set, extended by exactly its value |
| UpdateIndex.AppendIfTruthy | app/Console/Commands/UpdateIndex.php:64-71 | a value is appended exactly when it is truthy |
| UpdateIndex.TagLabel | app/Console/Commands/UpdateIndex.php:78 | a tag's label is never `null`: a string tag, or else the tag's `title` |
| UpdateIndex.TagLabels | app/Console/Commands/UpdateIndex.php:74-82 | one label per tag, in the tags' order |
| UpdateIndex.BardOrValue | app/Console/Commands/UpdateIndex.php:179-191 | a falsy field adds nothing, and a truthy non-array field adds itself; the fragments already collected stay in front |
| UpdateIndex.EditorFields | app/Console/Commands/UpdateIndex.php:110-114 | the editor loop keeps the fragments already collected in front, and adds nothing when no content block has an `editor` |
| UpdateIndex.ItemEditors | app/Console/Commands/UpdateIndex.php:109-115 | an item's editors keep the fragments already collected in front, and add nothing without an `accordion_element_contents` array |
| UpdateIndex.AccordionItem | app/Console/Commands/UpdateIndex.php:105-115 | a titled item adds its title right after the fragments already collected, before its editors; an item with neither title nor contents array adds nothing |
| UpdateIndex.AccordionItems | app/Console/Commands/UpdateIndex.php:104-116 | the item loop keeps the fragments already collected in front |
| UpdateIndex.AccordionItemsConcat | app/Console/Commands/UpdateIndex.php:104-116 | the items of `a + b` contribute those of `a` followed by those of `b` |
| UpdateIndex.GalleryImages | app/Console/Commands/UpdateIndex.php:131-140 | the image loop keeps the fragments already collected in front, and adds at most two per image |
| UpdateIndex.SingleImageFragments | app/Console/Commands/UpdateIndex.php:132-139 | one gallery image contributes its caption, then its alt text, each when set |
| UpdateIndex.GalleryImagesConcat | app/Console/Commands/UpdateIndex.php:131-140 | the images of `a + b` contribute those of `a` followed by those of `b` |
| UpdateIndex.TypeOf | app/Console/Commands/UpdateIndex.php:94 | the value the `switch` compares is never `null` |
| UpdateIndex.PageElement | app/Console/Commands/UpdateIndex.php:94-149 | one element keeps the fragments already collected in front, and an element whose type matches none of the five cases adds nothing |
| UpdateIndex.PageElementEditorCase | app/Console/Commands/UpdateIndex.php:95-101 | an `editor` element adds its `editor` field's fragments, or else its `content` field's, or nothing |
| UpdateIndex.PageElementAccordionCase | app/Console/Commands/UpdateIndex.php:102-118 | an `accordion` element adds the fragments of its `accordion_elements` array, and nothing without one |
| UpdateIndex.PageElementImageCase | app/Console/Commands/UpdateIndex.php:119-128 | a `single_image` element adds its caption, then its alt text, each when set |
| UpdateIndex.PageElementGalleryCase | app/Console/Commands/UpdateIndex.php:129-142 | an `image_gallery` element adds the fragments of its `images` array, and nothing without one |
| UpdateIndex.PageElementContactCase | app/Console/Commands/UpdateIndex.php:143-148 | a `contact_information` element adds its contact text when set |
| UpdateIndex.PageElementLooseTrue | app/Console/Commands/UpdateIndex.php:94-101 | the `switch` compares loosely: a type `true` matches every case name and takes the `editor` case |
| UpdateIndex.EditorAppendOnly | app/Console/Commands/UpdateIndex.php:95-101 | an `editor` element only appends to the collected fragments |
| UpdateIndex.AccordionAppendOnly | app/Console/Commands/UpdateIndex.php:102-118 | an `accordion` element only appends to the collected fragments |
| UpdateIndex.ImageAppendOnly | app/Console/Commands/UpdateIndex.php:119-128 | a `single_image` element only appends to the collected fragments |
| UpdateIndex.GalleryAppendOnly | app/Console/Commands/UpdateIndex.php:129-142 | an `image_gallery` element only appends to the collected fragments |
| UpdateIndex.ContactAppendOnly | app/Console/Commands/UpdateIndex.php:143-148 | a `contact_information` element only appends to the collected fragments |
| UpdateIndex.PageElements | app/Console/Commands/UpdateIndex.php:91-150 | the element loop keeps the fragments already collected in front |
| UpdateIndex.PageElementsConcat | app/Console/Commands/UpdateIndex.php:91-150 | the elements of `a + b` contribute those of `a` followed by those of `b` |
| UpdateIndex.SearchableFragments | app/Console/Commands/UpdateIndex.php:57-206 | the title is always the first fragment |
| UpdateIndex.PostPass | app/Console/Commands/UpdateIndex.php:209-214 | the joined text is empty exactly when no fragment casts to a string other than `''` and `'0'` |
| UpdateIndex.GetSearchableContent | app/Console/Commands/UpdateIndex.php:55-218 | the searchable text is empty exactly when no fragment survives the cast and filter, and a string title other than `''` and `'0'` leads it |
| UpdateIndex.Cast | app/Console/Commands/UpdateIndex.php:209-211 | an array fragment becomes `''`, and anything else its PHP string form |
| UpdateIndex.Survivors | app/Console/Commands/UpdateIndex.php:214 | `array_filter` keeps exactly the strings other than `''` and `'0'` |
| UpdateIndex.CastAll | app/Console/Commands/UpdateIndex.php:209-211 | the cast is applied to every fragment, position by position |
| UpdateIndex.CastAllConcat | app/Console/Commands/UpdateIndex.php:209-211 | the cast distributes over concatenation |
| UpdateIndex.TruthyValues | app/Console/Commands/UpdateIndex.php:389 | `array_filter` without a callback keeps exactly the truthy values, and a single value exactly when it is truthy |
| UpdateIndex.TruthyValuesConcat | app/Console/Commands/UpdateIndex.php:389 | `array_filter` keeps order and multiplicity: the kept values of `a + b` are those of `a` followed by those of `b` |
| UpdateIndex.TruthyStringsKept | app/Console/Commands/UpdateIndex.php:389 | a truthy value never converts to `''` or `'0'` |
| UpdateIndex.ImplodeTruthy | app/Console/Commands/UpdateIndex.php:389 | the imploded text is empty exactly when no value is truthy |
| UpdateIndex.GetAccordionContent | app/Console/Commands/UpdateIndex.php:377-390 | an item without an `accordion_element_contents` array has empty accordion content |
| UpdateIndex.AnchorOf | app/Console/Commands/UpdateIndex.php:357-364 | the stored record carries the item's `accordion_title` and an anchor starting with `item-`, and empty content for an item without a contents array |
| UpdateIndex.StrAll | app/Console/Commands/UpdateIndex.php:389 | `implode` converts every value, position by position |
| UpdateIndex.AnchorFor | app/Console/Commands/UpdateIndex.php:359-362 | every stored anchor starts with `item-` |
| UpdateIndex.ItemAnchors | app/Console/Commands/UpdateIndex.php:356-367 | at most one anchor per item, each with a non-null title and the anchor `item-` followed by the slug of that title |
| UpdateIndex.ItemAnchorsConcat | app/Console/Commands/UpdateIndex.php:356-367 | the anchors of `a + b` are those of `a` followed by those of `b`; with `SingleItemAnchors` this gives one anchor per titled item, in item order |
| UpdateIndex.SingleItemAnchors | app/Console/Commands/UpdateIndex.php:357-366 | one item gives its anchor record when its title is set, and nothing otherwise |
| UpdateIndex.ElementItemAnchors | app/Console/Commands/UpdateIndex.php:354-369 | an element that is not an accordion (type exactly `accordion` with an `accordion_elements` array) yields no anchors, and an accordion yields exactly the anchors of its items, in order; every anchor belongs to a titled item of the element, carrying its title and anchor; every titled item of an accordion has its anchor |
| UpdateIndex.ElementAnchors | app/Console/Commands/UpdateIndex.php:352-371 | page elements none of which is an accordion yield no anchors, a single element yields its own anchors, and every anchor carries a title and the anchor made from it |
| UpdateIndex.ElementAnchorsConcat | app/Console/Commands/UpdateIndex.php:352-371 | the anchors of the elements `a + b` are those of `a` followed by those of `b`: accordions contribute in page order |
| UpdateIndex.AccordionAnchorsInOrder | app/Console/Commands/UpdateIndex.php:344-375 | for a `pages` entry whose page elements are `a` then `b`, the stored anchors are those of `a` followed by those of `b` |
| UpdateIndex.ElementAnchorsComplete | app/Console/Commands/UpdateIndex.php:352-371 | an anchor is listed exactly when it belongs to a titled item of one of the accordion elements |
| UpdateIndex.GetAccordionAnchors | app/Console/Commands/UpdateIndex.php:344-375 | entries outside `pages`, or without a page-elements array, have no anchors; every anchor has a title and starts with `item-`; for a `pages` entry an anchor is stored exactly when it belongs to a titled item of one of its accordion elements |
| UpdateIndex.EditorFieldsAppendOnly | app/Console/Commands/UpdateIndex.php:110-114 | an item's editor loop only appends to the collected fragments |
| UpdateIndex.ItemEditorsAppendOnly | app/Console/Commands/UpdateIndex.php:109-115 | an item's editors only append to the collected fragments |
| UpdateIndex.AccordionItemAppendOnly | app/Console/Commands/UpdateIndex.php:105-115 | one accordion item only appends to the collected fragments |
| UpdateIndex.AccordionItemsAppendOnly | app/Console/Commands/UpdateIndex.php:103-117 | an accordion element only appends to the collected fragments |
| UpdateIndex.GalleryImagesAppendOnly | app/Console/Commands/UpdateIndex.php:129-142 | a gallery only appends to the collected fragments |
| UpdateIndex.PageElementAppendOnly | app/Console/Commands/UpdateIndex.php:94-149 | one page element only appends to the collected fragments |
| UpdateIndex.PageElementsAppendOnly | app/Console/Commands/UpdateIndex.php:85-152 | the page-element loop only appends to the collected fragments |
| UpdateIndex.BardOrValueAppendOnly | app/Console/Commands/UpdateIndex.php:155-206 | a content-or-Bard field only appends to the collected fragments |
| UpdateIndex.SearchableSections | app/Console/Commands/UpdateIndex.php:55-207 | the fragments are the sections, each computed on its own, in the source's order: title, SEO, tags, page elements, agenda, content, description |
| UpdateIndex.SurvivorsConcat | app/Console/Commands/UpdateIndex.php:214 | `array_filter` distributes over concatenation |
| UpdateIndex.JoinKeptEmpty | app/Console/Commands/UpdateIndex.php:214 | a join of filtered strings is empty exactly when nothing survived the filter |
| UpdateIndex.PostPassConcat | app/Console/Commands/UpdateIndex.php:209-214 | the searchable text of two fragment lists is their texts joined by one space, or whichever is non-empty |
| UpdateIndex.TitleLeads | app/Console/Commands/UpdateIndex.php:55-218 | a string title other than `''` and `'0'` leads the searchable text, followed by a space when more text follows |
| UpdateIndex.LeadingFragment | app/Console/Commands/UpdateIndex.php:209-214 | a leading kept string fragment leads the searchable text |
| UpdateIndex.PostPassSingle | app/Console/Commands/UpdateIndex.php:209-214 | a single kept string fragment is the whole searchable text |
| UpdateIndex.SpaceJoinLeads | app/Console/Commands/UpdateIndex.php:214 | a non-empty string leads its space-join with anything |
| UpdateIndex.TitleFirst | app/Console/Commands/UpdateIndex.php:60 | the title is always the first fragment, even when it is `null` |
| UpdateIndex.PostPassesAgree | app/Console/Commands/UpdateIndex.php:389 | for fragments without arrays, the searchable-text post-pass and the accordion-content `implode` produce the same text |
| UpdateIndex.CastFilterCommutes | app/Console/Commands/UpdateIndex.php:389 | without arrays, casting then dropping `''` and `'0'` equals dropping falsy values then converting |
| UpdateIndex.AccordionItemContribution | app/Console/Commands/UpdateIndex.php:102-118 | an item's editors feed the searchable text whether or not the item has a title, while only a titled item gets an anchor |
| UpdateIndex.ItemAnchorsComplete | app/Console/Commands/UpdateIndex.php:356-367 | every anchor belongs to a titled item, and every titled item has its anchor |
| UpdateIndex.ItemAnchorsSound | app/Console/Commands/UpdateIndex.php:356-367 | every anchor belongs to a titled item |
| UpdateIndex.ItemAnchorsCover | app/Console/Commands/UpdateIndex.php:356-367 | every titled item has its anchor |
| UpdateIndex.AnchoredInHead | app/Console/Commands/UpdateIndex.php:357-364 | a titled first item's anchor belongs to the list |
| UpdateIndex.AnchoredInTail | app/Console/Commands/UpdateIndex.php:356 | an anchor of a later item belongs to the whole list |
| UpdateIndex.SingleItemFragments | app/Console/Commands/UpdateIndex.php:105-115 | one accordion item contributes its title when set, then its editors |
| Highlight.DotRun | app/Modifiers/Highlight.php:28 | `.{0,50}` greedily takes code points up to the width, the end of the text or a line feed |
| Highlight.DotRunLongest | app/Modifiers/Highlight.php:28 | `.{0,50}` can match exactly the lengths up to the greedy run |
| Highlight.BestPrefix | app/Modifiers/Highlight.php:28 | backtracking finds the longest prefix capture at a start that lets the keyword match, or reports that none does |
| Highlight.BestPrefixAtStart | app/Modifiers/Highlight.php:28 | at a given start, the backtracked prefix is the longest one with which the whole pattern matches |
| Highlight.SearchFrom | app/Modifiers/Highlight.php:28 | the scan returns the leftmost start from the given one at which the pattern matches, with the longest prefix there, and fails exactly when it matches at no later start |
| Highlight.FindMatch | app/Modifiers/Highlight.php:28 | `preg_match` finds the leftmost match with the longest prefix capture, and fails exactly when the pattern matches nowhere |
| Highlight.MatchIffOccurs | app/Modifiers/Highlight.php:28 | the pattern matches exactly when the keyword occurs somewhere, caselessly |
| Highlight.LastEarlyOccurrenceChosen | app/Modifiers/Highlight.php:28 | when the keyword occurs within the first line's first 50 code points, the match starts at 0 and picks the last such occurrence |
| Highlight.MatchedKeyword | app/Modifiers/Highlight.php:28 | the keyword occurs, caselessly, right after the prefix capture of a match |
| Highlight.LastSpace | app/Modifiers/Highlight.php:41 | the index found holds whitespace with none after it, and none is found exactly when there is no whitespace |
| Highlight.FirstSpace | app/Modifiers/Highlight.php:34 | the index found holds whitespace with none before it, and none is found exactly when there is no whitespace |
| Highlight.CutAtLastSpace | app/Modifiers/Highlight.php:41 | the replacement only removes a tail |
| Highlight.CutAtLastSpaceCuts | app/Modifiers/Highlight.php:41 | the replacement leaves a string without whitespace alone, and otherwise cuts exactly at its last whitespace |
| Highlight.TrimSuffix | app/Modifiers/Highlight.php:38-42 | the suffix trim never lengthens the capture |
| Highlight.TrimSuffixCuts | app/Modifiers/Highlight.php:38-42 | the trim keeps a prefix of the suffix, shortening it exactly when it is non-empty, does not end in whitespace and contains whitespace, and then cutting at the last whitespace |
| Highlight.TrimPrefix | app/Modifiers/Highlight.php:31-35 | the prefix trim keeps a suffix of the prefix capture, dropping nothing or exactly up to and including the first whitespace |
| Highlight.StartContext | app/Modifiers/Highlight.php:31-45 | the trimmed prefix is the tail of the prefix capture, and the start ellipsis appears exactly when the trim removed something |
| Highlight.SuffixKept | app/Modifiers/Highlight.php:38-42 | the snippet keeps at most the suffix capture |
| Highlight.TrimSuffixShortens | app/Modifiers/Highlight.php:39-41 | the suffix capture is shortened exactly when it is non-empty, its last code point is not whitespace, and it contains whitespace |
| Highlight.TrimSuffixCut | app/Modifiers/Highlight.php:41 | a shortened suffix capture ends just before a whitespace code point of the capture, with no whitespace after it in the capture |
| Highlight.Snippet | app/Modifiers/Highlight.php:38-60 | the snippet starts with the matched text as written and is at most 53 code points longer than it |
| Highlight.SnippetKeeps | app/Modifiers/Highlight.php:38-60 | the snippet is the matched text and the kept part of the suffix, followed by `"..."` exactly when the trim removed part of the capture |
| Highlight.CleanTail | app/Modifiers/Highlight.php:65 | the fallback trim only removes a tail |
| Highlight.CleanTailCuts | app/Modifiers/Highlight.php:65 | the fallback trim also removes a final line feed, keeps a string without whitespace whole, and otherwise cuts at the last whitespace |
| Highlight.FirstPart | app/Modifiers/Highlight.php:64 | `mb_substr($text, 0, 100)` is the whole of a text of at most 100 code points, and exactly the first 100 of a longer one |
| Highlight.Fallback | app/Modifiers/Highlight.php:63-66 | the no-match result is a prefix of the first 100 code points of the text, followed by `"..."` |
| Highlight.FallbackCuts | app/Modifiers/Highlight.php:63-66 | for a text of any length, the fallback keeps the first 100 code points whole when they hold no whitespace, and otherwise cuts them before their last whitespace (a final line feed aside), then appends `"..."` |
| Highlight.SnippetOrFallback | app/Modifiers/Highlight.php:28-66 | with a match, the snippet around the keyword found, which occurs caselessly at the match; without one, the fallback |
| Highlight.Highlight | app/Modifiers/Highlight.php:17-67 | no keyword or a PHP-empty value returns the value unchanged; otherwise the tag-stripped text gives the snippet at the leftmost match, whose keyword occurs caselessly there, or the fallback when nothing matches |
| Highlight.SuffixTrimAtEndOfText | app/Modifiers/Highlight.php:38-46 | `"foo bar baz"` highlighted for `"foo"` gives `"foo bar..."`: the last word is dropped although the capture reached the end of the text |
| Highlight.SnippetCorrected | app/Modifiers/Highlight.php:38-46 | the corrected snippet still starts with the matched text and stays within 53 code points of its length |
| Highlight.SuffixKeptCorrected | app/Modifiers/Highlight.php:38-46 | the corrected trim keeps at most the suffix capture, and all of it when the capture ends at the end of the text or before whitespace |
| Highlight.SnippetCorrectedKeepsWhole | app/Modifiers/Highlight.php:38-46 | with the correction, a capture that ends at the end of the text or before whitespace is kept whole, without `"..."` |
| Highlight.SnippetCorrectedDropsOnlyCutWords | app/Modifiers/Highlight.php:38-46 | with the correction, code points are dropped only when the capture stopped inside a word |
| Highlight.FallbackOnShortText | app/Modifiers/Highlight.php:63-66 | `"The quick brown fox jumps"` without a match gives `"The quick brown fox..."`: a short text still loses its last word |
| Highlight.FallbackCutsLastWord | app/Modifiers/Highlight.php:63-66 | whenever the first 100 code points hold whitespace and do not end in a line feed, the fallback is the text up to their last whitespace followed by `"..."`, whatever the length of the text |
| Highlight.FallbackCorrected | app/Modifiers/Highlight.php:63-66 | the corrected fallback returns a text of at most 100 code points whole, and trims only longer texts |
| Highlight.HighlightCorrected | app/Modifiers/Highlight.php:17-67 | `highlight` with both corrections keeps the matched text first and returns a short unmatched text whole |
| Translation.FirstFrom | app/Modifiers/TranslatedSlug.php:19-28 | a query's `first()` gives the first matching entry, and nothing exactly when no entry matches |
| Translation.First | app/Modifiers/TranslatedSlug.php:19-28 | the entry returned satisfies the query, and none is returned exactly when no entry does |
| Translation.FindPage | app/Modifiers/TranslatedSlug.php:19-22 | the entry found is a `pages` entry with the slug, and none is found exactly when the store has no such entry |
| Translation.FindById | app/Modifiers/AccordionForContentType.php:70-71 | the origin found carries the id, and none is found exactly when no entry carries it |
| Translation.FindTranslation | app/Modifiers/AccordionForContentType.php:85-94 | the first `pages` entry whose origin is the root and whose locale is the target, and none exactly when there is no such entry |
| Translation.TargetEntry | app/Modifiers/AccordionForContentType.php:62-95 | a source already in the target locale is returned as is; a resolved entry is in the target locale and is the source, its origin, or the root's first translation into the locale; the call fails exactly on a dangling origin, and finds nothing exactly when no candidate is in the locale |
| Translation.OriginPreferred | app/Modifiers/AccordionForContentType.php:70-84 | for a translation, an origin in the target locale wins over any translation in that locale |
| Translation.BuildUrl | app/Modifiers/TranslatedSlug.php:70-77 | the default locale `de` gives the bare slug, and every other locale gives `locale/slug` |
| Translation.BuildUrlInjective | app/Modifiers/TranslatedSlug.php:70-77 | for one locale, equal URLs mean equal slugs |
| Translation.TranslatedSlug | app/Modifiers/TranslatedSlug.php:10-68 | an empty value, no parameter or an unknown slug gives `null`; for a found page, a resolved target entry gives its URL, an unresolved one `null`, and a dangling origin fails; a page already in the locale gives its own URL |
| Translation.TranslatedSlugFollowsTranslation | app/Modifiers/TranslatedSlug.php:54-64 | an origin page outside the target locale gives the URL of its first translation into that locale |
| AccordionFor.ContainsType | app/Modifiers/AccordionForContentType.php:46-49 | true exactly when some content block's type is the requested type |
| AccordionFor.FirstItem | app/Modifiers/AccordionForContentType.php:43-57 | an anchor found in an element's items starts with `item-` |
| AccordionFor.FirstItemNone | app/Modifiers/AccordionForContentType.php:43-57 | no anchor is found in the items exactly when no item qualifies |
| AccordionFor.FirstItemIsFirst | app/Modifiers/AccordionForContentType.php:43-57 | a found anchor belongs to a qualifying item with no qualifying item before it |
| AccordionFor.ElementMatch | app/Modifiers/AccordionForContentType.php:43-57 | an anchor found in one element starts with `item-` |
| AccordionFor.FirstInElements | app/Modifiers/AccordionForContentType.php:43-57 | an anchor found over the page elements starts with `item-` |
| AccordionFor.FirstInElementsNone | app/Modifiers/AccordionForContentType.php:43-59 | nothing is found exactly when no element has a qualifying item |
| AccordionFor.FirstInElementsIsFirst | app/Modifiers/AccordionForContentType.php:43-57 | a found anchor comes from the first element that has a qualifying item |
| AccordionFor.TargetLocale | app/Modifiers/AccordionForContentType.php:19 | the second parameter, or `de` when it is absent |
| AccordionFor.AccordionForContentType | app/Modifiers/AccordionForContentType.php:11-60 | an empty value, no parameters or an unknown slug gives `null`; for a found page, a resolved target entry gives the anchor found over its page elements, an unresolved one `null`, and a dangling origin fails; any anchor returned starts with `item-` |
| AccordionFor.FirstItemStored | app/Modifiers/AccordionForContentType.php:43-57 | the anchor found among items is one the index command stores for them |
| AccordionFor.ElementMatchStored | app/Modifiers/AccordionForContentType.php:43-57 | the anchor found in an element is one the index command stores for that element |
| AccordionFor.FirstInElementsStored | app/Modifiers/AccordionForContentType.php:43-57 | the anchor found over the page elements is one the index command stores for them |
| AccordionFor.AnchorIsIndexed | app/Modifiers/AccordionForContentType.php:11-60 | for a resolved `pages` entry the modifier does not fail, and any anchor it returns is stored by the index command for that entry |
| AccordionFor.AccordionForFindsFirst | app/Modifiers/AccordionForContentType.php:43-59 | for a resolved target the modifier returns the anchor of the first element holding a qualifying item, and `null` exactly when no element holds one |
| BorderColor.PhpRem5 | app/Tags/BorderColor.php:24 | PHP's `% 5` takes the dividend's sign, and it differs from the dividend by a multiple of 5 |
| BorderColor.Border | app/Tags/BorderColor.php:15-25 | a missing index gives the first colour, and a non-negative index gives the colour at its remainder; a negative multiple of 5 gives the first colour, since PHP's remainder is then 0; any colour given is the one at PHP's remainder and one of the five classes, and there is none exactly for a negative index that is not a multiple of 5, where the source reads an undefined key |
| BorderColor.FirstFive | app/Tags/BorderColor.php:15-24 | indices 0 to 4 give the five colours in order |
| BorderColor.Periodic | app/Tags/BorderColor.php:24 | non-negative indices five apart give the same colour |
| BorderColor.NegativeIndexHasNoColor | app/Tags/BorderColor.php:24 | index -1 selects no colour, since the source reads the undefined key -1 |
| BorderColor.BorderCorrected | app/Tags/BorderColor.php:15-25 | the corrected tag always gives one of the five classes, and agrees with the tag on non-negative indices |
| BorderColor.CorrectedPeriodic | app/Tags/BorderColor.php:24 | with the correction, indices five apart give the same colour across zero |
| SearchHighlight.TrimStart | resources/js/modules/search-highlight.js:16 | the result is a suffix of the input that starts with non-whitespace, and only whitespace was removed |
| SearchHighlight.TrimEnd | resources/js/modules/search-highlight.js:16 | the result is a prefix of the input that ends with non-whitespace, and only whitespace was removed |
| SearchHighlight.Trim | resources/js/modules/search-highlight.js:16-22 | the trimmed term is the piece of the input between its leading and trailing whitespace |
| SearchHighlight.TrimIdempotent | resources/js/modules/search-highlight.js:16-22 | trimming twice trims nothing more |
| SearchHighlight.TermFromParam | resources/js/modules/search-highlight.js:11-26 | a term is highlighted exactly when the parameter is present and not blank, and the term is the trimmed parameter |
| SearchHighlight.FindTextNodes | resources/js/modules/search-highlight.js:91-122 | the collected nodes are, in document order, exactly those outside `SCRIPT`/`STYLE` whose lower-cased text contains the lower-cased term |
| SearchHighlight.DropSeparators | resources/js/modules/search-highlight.js:66 | the result is a suffix of the input that does not start with a separator |
| SearchHighlight.TakeWord | resources/js/modules/search-highlight.js:66 | the word is the longest separator-free prefix |
| SearchHighlight.WordsAreWords | resources/js/modules/search-highlight.js:66 | after the split and the filter, every word is non-empty and free of white space and `+` |
| SearchHighlight.WordsAfterSeparator | resources/js/modules/search-highlight.js:66 | leading separators do not change the words |
| SearchHighlight.TakeWholeWord | resources/js/modules/search-highlight.js:66 | a word followed by a separator, or by nothing, is taken whole |
| SearchHighlight.WordsCons | resources/js/modules/search-highlight.js:66 | a word followed by a separator, or by nothing, is the first word |
| SearchHighlight.WordsOfJoin | resources/js/modules/search-highlight.js:66 | splitting words joined by single spaces gives the words back |
| SearchHighlight.WordsOfWord | resources/js/modules/search-highlight.js:66 | a single word splits into itself alone |
| SearchHighlight.FirstFoundWord | resources/js/modules/search-highlight.js:70-74 | the first word with candidate nodes from a position on, and none exactly when no later word has any |
| SearchHighlight.WordChoice | resources/js/modules/search-highlight.js:66-85 | a chosen word has candidate nodes |
| SearchHighlight.WordChoiceIsFirst | resources/js/modules/search-highlight.js:70-74 | the chosen word has candidates, and no word before it has any |
| SearchHighlight.WordChoiceNone | resources/js/modules/search-highlight.js:66-85 | no word is chosen exactly when no word has candidates |
| SearchHighlight.SelectTerm | resources/js/modules/search-highlight.js:55-89 | a term with candidates is highlighted itself, and whatever is chosen has candidates |
| SearchHighlight.SelectTermFallsBack | resources/js/modules/search-highlight.js:68-85 | a choice other than the whole term is the first word with candidates of a term with more than one word |
| SearchHighlight.SelectTermNone | resources/js/modules/search-highlight.js:55-89 | nothing is highlighted exactly when neither the term nor, for a term of several words, any of its words has candidates |
| SearchHighlight.SingleWordUnmatched | resources/js/modules/search-highlight.js:68 | a term that splits into a single word and has no candidates highlights nothing, even when that word alone would have some (a trailing `+`, say) |
| SearchHighlight.MatchPositions | resources/js/modules/search-highlight.js:129-134 | every position found starts a caseless match, in increasing order, and no two marks overlap |
| SearchHighlight.MatchPositionsComplete | resources/js/modules/search-highlight.js:129-134 | no match is skipped: every occurrence is marked or lies inside an earlier mark |
| SearchHighlight.Render | resources/js/modules/search-highlight.js:129-134 | the rendered segments spell the original text, every mark holds a match of the term, and the marks start exactly at the given positions |
| SearchHighlight.HighlightInText | resources/js/modules/search-highlight.js:124-144 | the segments spell the node's text, every mark holds a caseless match of the term, and the marks start exactly at the positions of the global replace |
| SearchHighlight.HighlightMarksEveryOccurrence | resources/js/modules/search-highlight.js:129-134 | every caseless occurrence of the term starts a mark or lies inside an earlier one |
| SearchHighlight.InsertedHtml | resources/js/modules/search-highlight.js:134 | a plain segment is written as its text and a mark as its text between the mark tags; segments that are all plain give the text they spell |
| SearchHighlight.InsertedHtmlConcat | resources/js/modules/search-highlight.js:134 | the markup of segments one after the other is their markups one after the other |
| SearchHighlight.MarkUp | resources/js/modules/search-highlight.js:134 | the replacement adds the two mark tags per match and nothing else: its length is the text's plus both tags' per match |
| SearchHighlight.RenderMarkup | resources/js/modules/search-highlight.js:129-134 | the marked segments, written as markup, are the replacement string built directly on the text |
| SearchHighlight.HighlightHtml | resources/js/modules/search-highlight.js:124-143 | nothing is assigned, and the node stays as it is, exactly when the regex finds no match; otherwise the string assigned to `innerHTML` is the node's text with the mark tags around every match, at the positions of the global replace |
| SearchHighlight.ReparseLosesText | resources/js/modules/search-highlight.js:134 | a node showing `<b>hi</b>` as text, searched for `hi`, shows only `hi` after the re-parse: its own `<b>` and `</b>` become tags |
| SearchHighlight.ShownEscaped | resources/js/modules/search-highlight.js:134 | escaped text shows exactly itself in front of whatever follows |
| SearchHighlight.EscapedShowsText | resources/js/modules/search-highlight.js:134 | segments inserted with their text escaped show exactly the text they spell |
| SearchHighlight.HighlightHtmlCorrected | resources/js/modules/search-highlight.js:124-144 | with the text escaped before the marks are inserted, the node shows its text unchanged |
| SearchHighlight.EscapeRegExp | resources/js/modules/search-highlight.js:146-148 | escaping never shortens the term; a single special character becomes a backslash and itself, and any other single character stays |
| SearchHighlight.EscapeConcat | resources/js/modules/search-highlight.js:146-148 | escaping works character by character: the escape of `a + b` is the escape of `a` followed by that of `b` |
| SearchHighlight.EscapeRoundTrip | resources/js/modules/search-highlight.js:146-148 | escaping loses nothing: reading the escaped pattern back gives the term |
| SearchHighlight.EscapePlain | resources/js/modules/search-highlight.js:146-148 | a term without special characters is left as it is |
| SearchHighlight.ItemsBefore | resources/js/modules/search-highlight.js:41-48 | the count of `item-` ids before a position is at most that position |
| SearchHighlight.AccordionToOpen | resources/js/modules/search-highlight.js:28-53 | only a hash starting with `#item-` whose target has a parent opens an accordion item, and that target's id starts with `item-` |
| SearchHighlight.HashTargetIsIndexed | resources/js/modules/search-highlight.js:28-53 | a hash `#item-…` whose target has a parent always opens an item: the one counted by the `item-` ids before the target |
| SearchHighlight.StableRun | resources/js/modules/search-highlight.js:206-214 | the run of stable checks ending at an attempt is at most the number of attempts |
| SearchHighlight.WaitForAnimation | resources/js/modules/search-highlight.js:195-228 | the page scrolls once, at attempt 1 to 20: at the first attempt that completes three consecutive checks with a height change under 5 pixels, or at attempt 20 |
| Masonry.ColumnCount | resources/js/vendor/masonry-layout.js:20-23 | at least one column and at most the maximum; two or more columns fit the width with their gutters, and one more would not fit unless the maximum stops it |
| Masonry.ShortestColumn | resources/js/vendor/masonry-layout.js:31 | the chosen column is the leftmost of the shortest |
| Masonry.Tallest | resources/js/vendor/masonry-layout.js:40 | the tallest height is one of the heights and no column is taller |
| Masonry.SumUpdate | resources/js/vendor/masonry-layout.js:37 | updating one column changes the total by the difference |
| Masonry.Place | resources/js/vendor/masonry-layout.js:31-37 | an item goes on top of the leftmost shortest column, which alone grows, by the item and a gutter |
| Masonry.PlaceAll | resources/js/vendor/masonry-layout.js:28-38 | every item is placed; columns only grow; the total grows by the items and their gutters; every item ends inside its column; nothing goes above the top |
| Masonry.LayoutMasonry | resources/js/vendor/masonry-layout.js:9-41 | one height per column; the container is as tall as the tallest column; every item lies inside the container; the columns together are exactly as tall as the items with their gutters |
| Masonry.PlaceBalanced | resources/js/vendor/masonry-layout.js:31-37 | placing an item no taller than a bound keeps the columns within that bound of each other |
| Masonry.PlaceAllBalanced | resources/js/vendor/masonry-layout.js:28-38 | when every item with its gutter is within a bound, the greedy rule keeps the columns within that bound of each other |
| Masonry.LayoutBalanced | resources/js/vendor/masonry-layout.js:9-41 | the container is at most one item, with its gutter, taller than any column |
| Masonry.TallestWithin | resources/js/vendor/masonry-layout.js:40 | in balanced columns the tallest is within the bound of every column |
| Masonry.Configure | resources/js/vendor/masonry-layout.js:63-71 | every given option overrides its default, and every absent one keeps it |
| Masonry.ConfigureMerges | resources/js/vendor/masonry-layout.js:63-71 | no options give the defaults, and a full set of options gives exactly that configuration |
| Masonry.Init | resources/js/vendor/masonry-layout.js:54-114 | no container gives `null` and changes nothing; otherwise the container's instance is registered, replacing an earlier one, and the listener is attached when it is the only instance and asks for resizing |
| Masonry.Destroy | resources/js/vendor/masonry-layout.js:87-92 | the container's instance is removed, and the listener stays exactly when it was attached and an instance remains |
| Masonry.InitTidy | resources/js/vendor/masonry-layout.js:54-114 | `init` never leaves a listener attached without an instance |
| Masonry.DestroyTidy | resources/js/vendor/masonry-layout.js:87-92 | `destroy` never leaves a listener attached without an instance |
| Masonry.InitThenDestroy | resources/js/vendor/masonry-layout.js:87-103 | destroying a freshly registered container restores the registry's instances, and on an empty page the empty registry |
| Masonry.LaterInitDoesNotListen | resources/js/vendor/masonry-layout.js:101-103 | on a page that already has another container and no listener, `init` attaches none |
| HeaderScroll.Start | resources/js/modules/header-scroll.js:5-19 | the header starts visible at the page's position, with nothing accumulated |
| HeaderScroll.OnScroll | resources/js/modules/header-scroll.js:21-56 | an open menu or a position near the top shows the header and clears both runs; scrolling down extends the downward run, ends the upward one and hides once the run reaches 30; scrolling up does the opposite with 100; not moving changes nothing; the accumulators stay well-formed |
| HeaderScroll.DownwardRun | resources/js/modules/header-scroll.js:41-46 | over a run of downward events below the offset, the downward accumulator grows by the distance travelled and the upward one is cleared |
| HeaderScroll.HidesAfterDownwardRun | resources/js/modules/header-scroll.js:41-46 | scrolling down at least 30 pixels in steps below the offset hides the header |
| HeaderScroll.UpwardRun | resources/js/modules/header-scroll.js:47-53 | over a run of upward events below the offset, the upward accumulator grows by the distance travelled and the downward one is cleared |
| HeaderScroll.StaysHiddenOnShortUpwardRun | resources/js/modules/header-scroll.js:47-53 | a hidden header stays hidden through an upward run shorter than 100 pixels |
| HeaderScroll.Toggle | resources/js/modules/header-scroll.js:74 | toggling flips the menu state |
| HeaderScroll.ToggleTwice | resources/js/modules/header-scroll.js:74 | toggling twice restores the menu |
| Lightbox.TotalSlides | resources/js/modules/lightbox.js:21 | the carousel's slide count when there is a carousel, else the number of items, and 0 when there are neither |
| Lightbox.SrcCaption | resources/js/modules/lightbox.js:31-33 | the caption from a slide's source holds no quote, and is empty when the source does not mention `data-caption` |
| Lightbox.OriginalCaption | resources/js/modules/lightbox.js:24-34 | the slide's own caption first; then, with a trigger, its `data-caption` or empty; then, without one, the caption extracted from the source, or empty when there is no source |
| Lightbox.Caption | resources/js/modules/lightbox.js:19-41 | the counter comes first, and it is followed by a caption block exactly when a caption was found, holding that caption |
| Lightbox.CaptionDeterminesText | resources/js/modules/lightbox.js:37-40 | two slides at the same position get the same caption text exactly when they show the same caption |
| Lightbox.SrcCaptionExtracts | resources/js/modules/lightbox.js:33 | a source whose first `data-caption="` is followed by `c` and a quote gives back `c`, when `c` holds no quote and does not end in `data-caption=` |
| Lightbox.FirstMarker | resources/js/modules/lightbox.js:33 | `split` cuts at the first `data-caption="`, which cannot overlap another one |
| Lightbox.BgColorFromClasses | resources/js/modules/lightbox.js:74-79 | the first class starting with `bg-`, and none exactly when no class does |
| Lightbox.BackdropColor | resources/js/modules/lightbox.js:67 | a non-empty `data-bg-color` wins; otherwise the trigger's first class starting with `bg-`; none means no class starts with `bg-` |
| Lightbox.WordEnd | resources/js/modules/lightbox.js:64 | `\w+` runs to the first non-word character |
| Lightbox.StripFrom | resources/js/modules/lightbox.js:64 | the replacement never lengthens the attribute |
| Lightbox.StripFromKeeps | resources/js/modules/lightbox.js:64 | text in which no match starts is kept as it is, in order, before what is kept after it |
| Lightbox.StripFromDrops | resources/js/modules/lightbox.js:64 | a match is dropped together with its whole run of word characters, and the replacement goes on right after that run |
| Lightbox.StripBgClasses | resources/js/modules/lightbox.js:64 | the replacement never lengthens the attribute, leaves an attribute without a `bg-` colour class unchanged, and leaves no `bg-` colour class behind |
| Lightbox.StripFromClean | resources/js/modules/lightbox.js:64 | nothing the pattern would remove survives the replacement |
| Lightbox.StripBgClassesClean | resources/js/modules/lightbox.js:64 | after the replacement no `bg-` colour class is left to match |
| Lightbox.StripUnchangedIff | resources/js/modules/lightbox.js:64 | the replacement changes the attribute exactly when it holds a `bg-` colour class |
| Lightbox.UpdateBackdrop | resources/js/modules/lightbox.js:52-71 | without a backdrop, a current slide or a trigger element nothing changes; otherwise the class attribute becomes the attribute with its `bg-` colour classes removed, and the trigger's colour is the class added |

## Left out

- I/O and side effects are not modelled: reading entries, saving fields, logging, rebuilding the search index, the console output of the index command, and DOM mutation other than what is described above.
- Timers are not modelled: `setTimeout`, `requestAnimationFrame` throttling, the 100 ms resize debounce of `handleResize`, and the 10 ms initial layout delay. `refreshAll` and `handleResize` only re-run `layout` on every instance; that re-run is `LayoutMasonry`.
- The Alpine.js wiring of the header and the search component, and the Fancybox configuration options, are declarative and have no logic to model.
- Floating-point geometry is not modelled: the masonry column width and the `x` offset. Item heights and scroll positions are whole pixels.
- `processContentBlock` (app/Console/Commands/UpdateIndex.php:220-255) is never called, so it is not modelled.
- `strip_tags`, `Str::slug`, `toLowerCase` and the regex engine's caseless folding are parameters; their own behaviour is not modelled.
- Text is a sequence of code points. JavaScript's UTF-16 code units and PHP's byte offsets outside the `u` patterns are not distinguished.
- `scrollToFirstHighlight` and `scrollToElementWithHeaderOffset` only compute scroll offsets from layout measurements, so they are not modelled.
- `WaitForAnimation` reads the heights from a function of the attempt number instead of the DOM.
- The start context of `highlight` (`$prefix` and `$startEllipsis`) is computed but not returned by the source; the model computes it (`Highlight.StartContext`) but does not include it in the result.
- `querySelector` throwing on a malformed hash is not modelled.
- The re-serialisation of `classList.add` is not modelled: the backdrop result records the remaining attribute text and the added class.
- `Masonry.ColumnCount` requires a positive `minColumnWidth + gutter`. The source would then divide by zero and compute with `Infinity` or `NaN`.
- `Masonry.LayoutMasonry` requires a `maxColumns` of at least 1. The source would otherwise build a zero-length height array and a `-Infinity` container height.
- `Translation.TargetEntry`: PHP's fatal error on a dangling origin (calling `locale()` on `null`) is the outcome `DanglingOrigin`, not a crash.
- `resources/js/modules/accordion.js`, `resources/js/modules/masonry.js`, `app/Modifiers/Slugifier.php` and `config/statamic/bard_texstyle.php` are not part of this model: the first two only wire the models above to the page, the Slugifier is a one-line wrapper around `Str::slug`, and the configuration is data.
- `Highlight.TrimPrefix` models `preg_replace('/^[^\s]*\s/u', ...)` on a prefix capture, which never holds a line feed, so line-feed handling of `^` is not needed there.

- NestedArrayItem: an item whose `text` is itself an array is appended and the walk goes on. In PHP 8, `substr($item['text'], 0, 50)` (app/Console/Commands/UpdateIndex.php:332) throws a `TypeError` on such a value, so the source stops the whole command there. The model has no failure outcome in the Bard walk.
- PHP warnings are not failures in the model. Under Laravel's error handler, each of them becomes an `ErrorException` that stops the request. They are:
  - "Array to string conversion" when an array is concatenated or converted: the accordion title at app/Console/Commands/UpdateIndex.php:107, `link_text` at :303, and array values imploded at :389;
  - "Array to string conversion" for an array `title`, interpolated into the log line at app/Console/Commands/UpdateIndex.php:51 and concatenated at :61, and for an array `type`, concatenated at :93;
  - "Undefined array key" when an element without a `type` key is read at app/Modifiers/AccordionForContentType.php:44;
  - "foreach() argument must be of type array|object" for a present value that is not an array: `page_elements` at app/Modifiers/AccordionForContentType.php:43, `accordion_elements` at :45 and `accordion_element_contents` at :48.
  The model reads a missing key as `null` and skips the element. It converts an array to the string `Array`. It iterates nothing of a non-array.
- `Php.Value` has no floating-point case. A float field would be converted to its decimal text by the cast at app/Console/Commands/UpdateIndex.php:209-211; the model has only `null`, booleans, integers, strings and arrays.
- Elements: a `foreach` over a present value that is not an array iterates nothing in the model. PHP warns there, and Laravel turns the warning into an `ErrorException`; the places are listed in the previous line. The index command guards its own loops with `is_array`.
- Border: index -1, or any negative index that is not a multiple of 5, reads an undefined key at app/Tags/BorderColor.php:24. PHP warns "Undefined array key", which Laravel turns into an `ErrorException`; the model returns no colour (`None`) instead of failing.
- Border: the tag parameter `index` (app/Tags/BorderColor.php:23) is taken as an optional integer. It may arrive as a string: a numeric string behaves as its integer, while a non-numeric one makes `%` throw a `TypeError`. That failure is not modelled.
- Render and HighlightInText describe the segments `text.replace` produces. The source assigns that string to `innerHTML` (resources/js/modules/search-highlight.js:134), so the browser re-parses the node's own text as markup. The segments spell the text, but the page shows it only when the text holds no `<` and no `&`. `HighlightHtml` gives that string, or nothing when the regex finds no match and the node is left alone; `ShownText` models the re-parse in a simple reading: tags shown as nothing, `&lt;` and `&amp;` as their characters. Other entities, comments and elements that run scripts are not modelled.
- UpdateBackdrop: a `data-bg-color` holding whitespace makes `classList.add` throw (resources/js/modules/lightbox.js:69). The model adds the value as one class and has no failure outcome.
- UpdateBackdrop: the current slide is a parameter. The lookup `fancybox.carousel.slides[fancybox.carousel.page]` (resources/js/modules/lightbox.js:57-60) is not modelled; a missing carousel or slide is `None`.
- ItemAnchors, ElementAnchors: their own ensures do not fix the order of the anchors. `ItemAnchorsConcat`, `SingleItemAnchors`, `ElementAnchorsConcat` and `ElementAnchors`' single-element clause do.
- GetAccordionAnchors: its own ensures state which anchors are stored, not their order or repetitions. `AccordionAnchorsInOrder` with the two lemmas above states those.
- TruthyValues: its own ensures state which values are kept and the one-value case; `TruthyValuesConcat` states order and repetitions.
- StripFrom: its own ensures only bound the length. What it keeps and what it drops is stated by `StripFromKeeps`, `StripFromDrops` and `StripFromClean`.

## Findings

| source | as written | input that shows it | evidently intended | confidence | as-written member | corrected member |
|---|---|---|---|---|---|---|
| app/Modifiers/Highlight.php:38-46 | the suffix capture loses its last word whenever it does not end in whitespace, even when it stopped at the end of the text | text `"foo bar baz"`, keyword `"foo"` gives `"foo bar..."` | drop only a word that the 50-code-point capture cut in two; keep a capture that reached the end of the text whole and without `"..."`, giving `"foo bar baz"` | medium, not executed | Highlight.SuffixTrimAtEndOfText | Highlight.SnippetCorrectedKeepsWhole |
| app/Modifiers/Highlight.php:63-66 | the no-match fallback drops the last word and appends `"..."` even when the text is shorter than 100 code points | text `"The quick brown fox jumps"` without the keyword gives `"The quick brown fox..."` | return a text of at most 100 code points whole | medium, not executed | Highlight.FallbackOnShortText | Highlight.FallbackCorrected |
| app/Tags/BorderColor.php:24 | PHP's `%` keeps the dividend's sign, so a negative index reads a colour offset that does not exist | index `-1` reads the undefined key `-1`: a warning, which Laravel turns into an `ErrorException` | every index picks one of the five colours, in a cycle | low, not executed | BorderColor.NegativeIndexHasNoColor | BorderColor.CorrectedPeriodic |
| resources/js/modules/search-highlight.js:134 | the text node's own text, with the marks inserted, is assigned to `innerHTML`, so a `<` or `&` in the text is parsed as markup | a node showing `<b>hi</b>` as text, searched for `hi`, afterwards shows only `hi` inside a bold element; a node showing `<img src=x onerror=…>` would become an image element that runs its handler | escape the text (`&lt;`, `&amp;`) before inserting the marks, so the page shows the node's text unchanged | high, not executed | SearchHighlight.ReparseLosesText | SearchHighlight.HighlightHtmlCorrected |

=== FILE: accordion_for.dfy ===
/** The `accordion_for_content_type` template modifier: the anchor of the first accordion
    item, on the target-locale version of a page, that holds a content block of a given
    type. */
module AccordionFor {
  import opened Optional
  import opened Text
  import opened Php
  import opened Entries
  import opened Translation
  import opened UpdateIndex

  /** `isset($content['type']) && $content['type'] === $contentType`. */
  predicate HasType(content: Value, contentType: string) {
    IsSet(content, "type") && Get(content, "type") == Str(contentType)
  }

  /** Whether some block of an item's contents has the requested type. */
  function ContainsType(contents: seq<Value>, contentType: string): (r: bool)
    ensures r <==> exists k :: 0 <= k < |contents| && HasType(contents[k], contentType)
  {
    if contents == [] then false
    else HasType(contents[0], contentType) || ContainsType(contents[1..], contentType)
  }

  /** An item qualifies when it has both a title and contents and one of its contents has
      the requested type. Contents that are set but not an array make PHP warn (an error
      under Laravel); the model iterates them as empty. */
  predicate Qualifies(item: Value, contentType: string) {
    IsSet(item, "accordion_title") && IsSet(item, "accordion_element_contents")
    && ContainsType(Elements(Get(item, "accordion_element_contents")), contentType)
  }

  /** The anchor of the first qualifying item. */
  function FirstItem(items: seq<Value>, contentType: string, slug: Value -> string): (r: Option<string>)
    ensures r.Some? ==> StartsWith(r.value, "item-")
  {
    if items == [] then None
    else if Qualifies(items[0], contentType) then Some(AnchorFor(Get(items[0], "accordion_title"), slug))
    else FirstItem(items[1..], contentType, slug)
  }

  /** Nothing is found exactly when no item qualifies. */
  lemma {:induction false} FirstItemNone(items: seq<Value>, contentType: string, slug: Value -> string)
    ensures FirstItem(items, contentType, slug).None? <==>
              forall j :: 0 <= j < |items| ==> !Qualifies(items[j], contentType)
  {
    if items != [] && !Qualifies(items[0], contentType) {
      var tail := items[1..];
      assert FirstItem(items, contentType, slug) == FirstItem(tail, contentType, slug);
      FirstItemNone(tail, contentType, slug);
      if forall k :: 0 <= k < |tail| ==> !Qualifies(tail[k], contentType) {
        NoneQualifiesShift(items, contentType, |tail|);
      }
      if forall k :: 0 <= k < |items| ==> !Qualifies(items[k], contentType) {
        NoneQualifiesTail(items, contentType);
      }
    }
  }

  /** With the head not qualifying, no item qualifies among the first `n + 1` when none
      qualifies among the first `n` of the tail. */
  lemma NoneQualifiesShift(items: seq<Value>, contentType: string, n: nat)
    requires items != [] && !Qualifies(items[0], contentType) && n < |items|
    requires forall k :: 0 <= k < n ==> !Qualifies(items[1..][k], contentType)
    ensures forall k :: 0 <= k < n + 1 ==> !Qualifies(items[k], contentType)
  {
    forall k | 0 <= k < n + 1 ensures !Qualifies(items[k], contentType) {
      if k > 0 {
        assert items[k] == items[1..][k - 1];
      }
    }
  }

  /** When no item qualifies, none of the tail does. */
  lemma NoneQualifiesTail(items: seq<Value>, contentType: string)
    requires items != [] && forall k :: 0 <= k < |items| ==> !Qualifies(items[k], contentType)
    ensures forall k :: 0 <= k < |items| - 1 ==> !Qualifies(items[1..][k], contentType)
  {
    assert forall k :: 0 <= k < |items| - 1 ==> items[1..][k] == items[k + 1];
  }

  /** A found anchor is that of a qualifying item with no qualifying item before it. */
  lemma {:induction false} FirstItemIsFirst(items: seq<Value>, contentType: string, slug: Value -> string)
    requires FirstItem(items, contentType, slug).Some?
    ensures exists j :: 0 <= j < |items| && Qualifies(items[j], contentType)
                        && FirstItem(items, contentType, slug).value == AnchorFor(Get(items[j], "accordion_title"), slug)
                        && forall k :: 0 <= k < j ==> !Qualifies(items[k], contentType)
  {
    if !Qualifies(items[0], contentType) {
      var tail := items[1..];
      var r := FirstItem(tail, contentType, slug);
      assert FirstItem(items, contentType, slug) == r;
      FirstItemIsFirst(tail, contentType, slug);
      var j :| 0 <= j < |tail| && Qualifies(tail[j], contentType)
               && r.value == AnchorFor(Get(tail[j], "accordion_title"), slug)
               && forall k :: 0 <= k < j ==> !Qualifies(tail[k], contentType);
      assert items[j + 1] == tail[j];
      NoneQualifiesShift(items, contentType, j);
    }
  }

  /** The items of an element of type exactly `'accordion'` whose `accordion_elements` is
      set; anything else contributes no items. A set non-array `accordion_elements` makes
      PHP warn (an error under Laravel); the model iterates it as empty. */
  function AccordionItemsOf(element: Value): seq<Value> {
    if Get(element, "type") == Str("accordion") && IsSet(element, "accordion_elements")
    then Elements(Get(element, "accordion_elements"))
    else []
  }

  /** The anchor of the first qualifying item of one element. */
  function ElementMatch(element: Value, contentType: string, slug: Value -> string): (r: Option<string>)
    ensures r.Some? ==> StartsWith(r.value, "item-")
  {
    FirstItem(AccordionItemsOf(element), contentType, slug)
  }

  /** The anchor of the first qualifying item, elements in order and items in order. */
  function FirstInElements(elements: seq<Value>, contentType: string, slug: Value -> string): (r: Option<string>)
    ensures r.Some? ==> StartsWith(r.value, "item-")
  {
    if elements == [] then None
    else
      var here := ElementMatch(elements[0], contentType, slug);
      if here.Some? then here else FirstInElements(elements[1..], contentType, slug)
  }

  /** Nothing is found exactly when no element has a qualifying item. */
  lemma {:induction false} FirstInElementsNone(elements: seq<Value>, contentType: string, slug: Value -> string)
    ensures FirstInElements(elements, contentType, slug).None? <==>
              forall k :: 0 <= k < |elements| ==> ElementMatch(elements[k], contentType, slug).None?
  {
    if elements != [] && ElementMatch(elements[0], contentType, slug).None? {
      var tail := elements[1..];
      assert FirstInElements(elements, contentType, slug) == FirstInElements(tail, contentType, slug);
      FirstInElementsNone(tail, contentType, slug);
      if forall m :: 0 <= m < |tail| ==> ElementMatch(tail[m], contentType, slug).None? {
        NoMatchShift(elements, contentType, slug, |tail|);
      }
      if forall m :: 0 <= m < |elements| ==> ElementMatch(elements[m], contentType, slug).None? {
        NoMatchTail(elements, contentType, slug);
      }
    }
  }

  /** With the head element matching nothing, no element matches among the first `n + 1`
      when none matches among the first `n` of the tail. */
  lemma NoMatchShift(elements: seq<Value>, contentType: string, slug: Value -> string, n: nat)
    requires elements != [] && ElementMatch(elements[0], contentType, slug).None? && n < |elements|
    requires forall m :: 0 <= m < n ==> ElementMatch(elements[1..][m], contentType, slug).None?
    ensures forall m :: 0 <= m < n + 1 ==> ElementMatch(elements[m], contentType, slug).None?
  {
    forall m | 0 <= m < n + 1 ensures ElementMatch(elements[m], contentType, slug).None? {
      if m > 0 {
        assert elements[m] == elements[1..][m - 1];
      }
    }
  }

  /** When no element matches, none of the tail does. */
  lemma NoMatchTail(elements: seq<Value>, contentType: string, slug: Value -> string)
    requires elements != [] && forall m :: 0 <= m < |elements| ==> ElementMatch(elements[m], contentType, slug).None?
    ensures forall m :: 0 <= m < |elements| - 1 ==> ElementMatch(elements[1..][m], contentType, slug).None?
  {
    assert forall m :: 0 <= m < |elements| - 1 ==> elements[1..][m] == elements[m + 1];
  }

  /** A found anchor is that of the first element with a qualifying item. */
  lemma {:induction false} FirstInElementsIsFirst(elements: seq<Value>, contentType: string, slug: Value -> string)
    requires FirstInElements(elements, contentType, slug).Some?
    ensures exists k :: 0 <= k < |elements|
                        && ElementMatch(elements[k], contentType, slug) == FirstInElements(elements, contentType, slug)
                        && forall m :: 0 <= m < k ==> ElementMatch(elements[m], contentType, slug).None?
  {
    if ElementMatch(elements[0], contentType, slug).None? {
      var tail := elements[1..];
      var r := FirstInElements(tail, contentType, slug);
      assert FirstInElements(elements, contentType, slug) == r;
      FirstInElementsIsFirst(tail, contentType, slug);
      var k :| 0 <= k < |tail| && ElementMatch(tail[k], contentType, slug) == r
               && forall m :: 0 <= m < k ==> ElementMatch(tail[m], contentType, slug).None?;
      assert tail[k] == elements[k + 1];
      NoMatchShift(elements, contentType, slug, k);
    }
  }

  /** `$targetEntry->get('page_elements', [])`, iterated by `foreach`: a missing field
      defaults to the empty array. A present non-array field makes PHP warn, which Laravel
      raises as an error; the model iterates nothing there. */
  function PageElementsOf(e: Entry): seq<Value> {
    var elements := Field(e, "page_elements");
    if elements.Arr? then Elements(elements) else []
  }

  /** `$params[1] ?? 'de'`. */
  function TargetLocale(params: seq<string>): (r: string)
    ensures |params| >= 2 ==> r == params[1]
    ensures |params| < 2 ==> r == "de"
  {
    if |params| >= 2 then params[1] else "de"
  }

  /** `accordion_for_content_type`: for page slug `value`, content type `params[0]` and
      target locale `params[1]` (default `'de'`), the anchor `"item-" + slug(title)` of the
      first qualifying accordion item of the target-locale page. */
  function AccordionForContentType(value: string, params: seq<string>, store: seq<Entry>, slug: Value -> string): (r: Outcome)
    ensures EmptyString(value) || params == [] ==> r == Returns(None)
    ensures r.Returns? && r.value.Some? ==> StartsWith(r.value.value, "item-")
    ensures r.Fails? ==> exists e :: e in store && TargetEntry(store, e, TargetLocale(params)).DanglingOrigin?
    ensures !EmptyString(value) && params != [] && FindPage(store, value).None? ==> r == Returns(None)
    ensures !EmptyString(value) && params != [] && FindPage(store, value).Some? ==>
              match TargetEntry(store, FindPage(store, value).value, TargetLocale(params))
              case Resolved(t) => r == Returns(FirstInElements(PageElementsOf(t), params[0], slug))
              case Unresolved => r == Returns(None)
              case DanglingOrigin => r == Fails
  {
    if EmptyString(value) || params == [] then Returns(None)
    else
      match FindPage(store, value)
      case None => Returns(None)
      case Some(source) =>
        match TargetEntry(store, source, TargetLocale(params))
        case Resolved(t) => Returns(FirstInElements(PageElementsOf(t), params[0], slug))
        case Unresolved => Returns(None)
        case DanglingOrigin => Fails
  }

  // ---------------------------------------------------------------------------
  // Agreement with the index command

  /** The anchor found for a qualifying item is among the anchors the index command stores
      for that element list. */
  lemma {:induction false} FirstItemStored(items: seq<Value>, contentType: string, slug: Value -> string)
    requires FirstItem(items, contentType, slug).Some?
    ensures exists x :: x in ItemAnchors(items, slug) && x.anchor == FirstItem(items, contentType, slug).value
  {
    FirstItemIsFirst(items, contentType, slug);
    var j :| 0 <= j < |items| && Qualifies(items[j], contentType)
             && FirstItem(items, contentType, slug).value == AnchorFor(Get(items[j], "accordion_title"), slug);
    ItemAnchorsComplete(items, slug);
    assert AnchorOf(items[j], slug) in ItemAnchors(items, slug);
  }

  /** The anchor found in one element is among the anchors stored for that element. */
  lemma ElementMatchStored(element: Value, contentType: string, slug: Value -> string)
    requires ElementMatch(element, contentType, slug).Some?
    ensures exists x :: x in ElementItemAnchors(element, slug) && x.anchor == ElementMatch(element, contentType, slug).value
  {
    var items := AccordionItemsOf(element);
    assert FirstItem(items, contentType, slug) == ElementMatch(element, contentType, slug);
    assert items != [];
    var v := Get(element, "accordion_elements");
    assert Get(element, "type") == Str("accordion") && IsSet(element, "accordion_elements");
    assert GetOrEmpty(element, "type") == Str("accordion") && v.Arr?;
    assert ElementItemAnchors(element, slug) == ItemAnchors(items, slug);
    FirstItemStored(items, contentType, slug);
  }

  /** Every anchor found over an element list is stored by the index command for it. */
  lemma {:induction false} FirstInElementsStored(elements: seq<Value>, contentType: string, slug: Value -> string)
    requires FirstInElements(elements, contentType, slug).Some?
    ensures exists x :: x in ElementAnchors(elements, slug) && x.anchor == FirstInElements(elements, contentType, slug).value
  {
    var here := ElementItemAnchors(elements[0], slug);
    var rest := ElementAnchors(elements[1..], slug);
    assert ElementAnchors(elements, slug) == here + rest;
    if ElementMatch(elements[0], contentType, slug).Some? {
      ElementMatchStored(elements[0], contentType, slug);
      var x :| x in here && x.anchor == ElementMatch(elements[0], contentType, slug).value;
      assert x in here + rest;
    } else {
      FirstInElementsStored(elements[1..], contentType, slug);
      var x :| x in rest && x.anchor == FirstInElements(elements[1..], contentType, slug).value;
      assert x in here + rest;
    }
  }

  /** A non-null result of `accordion_for_content_type` is exactly an anchor that the
      index command stores for the resolved page, so a link to it lands on an item the
      search index knows. */
  lemma AnchorIsIndexed(value: string, params: seq<string>, store: seq<Entry>, slug: Value -> string, t: Entry)
    requires !EmptyString(value) && params != [] && FindPage(store, value).Some?
    requires TargetEntry(store, FindPage(store, value).value, TargetLocale(params)) == Resolved(t)
    requires t.collection == "pages"
    ensures var r := AccordionForContentType(value, params, store, slug);
            r.Returns? && (r.value.Some? ==> exists x :: x in GetAccordionAnchors(t, slug) && x.anchor == r.value.value)
  {
    var r := AccordionForContentType(value, params, store, slug);
    assert r == Returns(FirstInElements(PageElementsOf(t), params[0], slug));
    if r.value.Some? {
      FirstInElementsStored(PageElementsOf(t), params[0], slug);
    }
  }

  /** For a page resolved in the target locale the modifier finds the first qualifying
      item in page order: nothing exactly when no element has a qualifying item, and
      otherwise the anchor of the first element that has one. */
  lemma AccordionForFindsFirst(value: string, params: seq<string>, store: seq<Entry>, slug: Value -> string, t: Entry)
    requires !EmptyString(value) && params != [] && FindPage(store, value).Some?
    requires TargetEntry(store, FindPage(store, value).value, TargetLocale(params)) == Resolved(t)
    ensures var r := AccordionForContentType(value, params, store, slug);
            var elements := PageElementsOf(t);
            r.Returns?
            && (r.value.None? <==> forall k :: 0 <= k < |elements| ==> ElementMatch(elements[k], params[0], slug).None?)
            && (r.value.Some? ==>
                  exists k :: 0 <= k < |elements| && ElementMatch(elements[k], params[0], slug) == r.value
                              && forall m :: 0 <= m < k ==> ElementMatch(elements[m], params[0], slug).None?)
  {
    var elements := PageElementsOf(t);
    FirstInElementsNone(elements, params[0], slug);
    if FirstInElements(elements, params[0], slug).Some? {
      FirstInElementsIsFirst(elements, params[0], slug);
    }
  }
}

=== FILE: bard.dfy ===
/** The Bard (ProseMirror-style) text flattener of the index command:
    `processBardField` dispatches on the type of each top-level block, and
    `extractTextFromBardContent` walks nested content without any type dispatch.
    Both append to the caller's fragment list, which PHP passes by reference; here
    they take the list and return it extended. */
module Bard {
  import opened Php

  /** `f` is `v` itself or is nested at some depth inside `v`. */
  ghost predicate Within(f: Value, v: Value)
    decreases v
  {
    f == v || (v.Arr? && exists i :: 0 <= i < |v.entries| && Within(f, v.entries[i].1))
  }

  /** Every fragment appended after the first `from` is a non-null value taken from `v`:
      the flattener never invents text. */
  ghost predicate FragmentsFrom(r: seq<Value>, from: nat, v: Value) {
    forall k :: from <= k < |r| ==> r[k] != Null && Within(r[k], v)
  }

  /** A set key's value lies within the array. */
  lemma GetWithin(v: Value, key: string)
    requires IsSet(v, key)
    ensures Within(Get(v, key), v)
  {
    var i :| 0 <= i < |v.entries| && v.entries[i] == (key, Get(v, key));
    assert Within(Get(v, key), v.entries[i].1);
  }

  /** Nesting is transitive. */
  lemma WithinTransitive(f: Value, m: Value, v: Value)
    requires Within(f, m) && Within(m, v)
    ensures Within(f, v)
    decreases v
  {
    if m != v {
      var i :| 0 <= i < |v.entries| && Within(m, v.entries[i].1);
      WithinTransitive(f, m, v.entries[i].1);
    }
  }

  /** Fragments taken from a nested value are taken from its container. */
  lemma FragmentsWiden(r: seq<Value>, from: nat, m: Value, v: Value)
    requires FragmentsFrom(r, from, m) && Within(m, v)
    ensures FragmentsFrom(r, from, v)
  {
    forall k | from <= k < |r| ensures Within(r[k], v) {
      WithinTransitive(r[k], m, v);
    }
  }

  /** `extractTextFromBardContent($bardContent, $content)`: for a non-array input,
      nothing; otherwise every item in order, where an array item contributes its
      `text` (when set) and then, recursively, its `content` (when set), a string item
      is appended as it is, and any other item is ignored. */
  function ExtractTextFromBardContent(bard: Value, content: seq<Value>): (r: seq<Value>)
    ensures content <= r
    ensures FragmentsFrom(r, |content|, bard)
    decreases bard, if bard.Arr? then |bard.entries| + 1 else 0
  {
    if bard.Arr? then ExtractItems(bard, 0, content) else content
  }

  /** The `foreach` of `extractTextFromBardContent` from the `i`-th item on. */
  function ExtractItems(bard: Value, i: nat, content: seq<Value>): (r: seq<Value>)
    requires bard.Arr? && i <= |bard.entries|
    ensures content <= r
    ensures FragmentsFrom(r, |content|, bard)
    decreases bard, |bard.entries| - i
  {
    if i == |bard.entries| then content
    else ExtractItems(bard, i + 1, ExtractItem(bard, i, content))
  }

  /** One item of the `foreach` of `extractTextFromBardContent`. */
  function ExtractItem(bard: Value, i: nat, content: seq<Value>): (r: seq<Value>)
    requires bard.Arr? && i < |bard.entries|
    ensures content <= r
    ensures FragmentsFrom(r, |content|, bard)
    decreases bard, 0
  {
    var item := bard.entries[i].1;
    assert Within(item, bard) by { assert Within(item, bard.entries[i].1); }
    if item.Arr? then
      var withText := if IsSet(item, "text") then content + [Get(item, "text")] else content;
      assert FragmentsFrom(withText, |content|, bard) by {
        if IsSet(item, "text") {
          GetWithin(item, "text");
          WithinTransitive(Get(item, "text"), item, bard);
        }
      }
      if IsSet(item, "content") then
        var nested := Get(item, "content");
        var r := ExtractTextFromBardContent(nested, withText);
        assert FragmentsFrom(r, |content|, bard) by {
          GetWithin(item, "content");
          WithinTransitive(nested, item, bard);
          FragmentsWiden(r, |withText|, nested, bard);
        }
        r
      else withText
    else if item.Str? then content + [item]
    else content
  }

  /** The block types whose only contribution is their `content`. */
  predicate IsContainerType(t: Value) {
    || SwitchMatches(t, "paragraph") || SwitchMatches(t, "heading") || SwitchMatches(t, "text")
    || SwitchMatches(t, "bulletList") || SwitchMatches(t, "orderedList")
    || SwitchMatches(t, "listItem")
  }

  /** `$block['content']` through the nested walk, when it is set. */
  function NestedContent(block: Value, content: seq<Value>): (r: seq<Value>)
    ensures content <= r
    ensures FragmentsFrom(r, |content|, block)
  {
    if IsSet(block, "content") then
      var nested := Get(block, "content");
      var r := ExtractTextFromBardContent(nested, content);
      assert FragmentsFrom(r, |content|, block) by {
        GetWithin(block, "content");
        FragmentsWiden(r, |content|, nested, block);
      }
      r
    else content
  }

  /** A `link` block: its label through the nested walk, then `attrs.href` when set. */
  function LinkFragments(block: Value, content: seq<Value>): (r: seq<Value>)
    ensures content <= r
    ensures FragmentsFrom(r, |content|, block)
  {
    var withLabel := NestedContent(block, content);
    var attrs := Get(block, "attrs");
    if IsSet(attrs, "href") then
      assert Within(Get(attrs, "href"), block) by {
        GetWithin(block, "attrs");
        GetWithin(attrs, "href");
        WithinTransitive(Get(attrs, "href"), attrs, block);
      }
      withLabel + [Get(attrs, "href")]
    else withLabel
  }

  /** A `set` block: `attrs.values.link_text` then `attrs.values.link`, each when set. */
  function SetFragments(block: Value, content: seq<Value>): (r: seq<Value>)
    ensures content <= r
    ensures FragmentsFrom(r, |content|, block)
  {
    var attrs := Get(block, "attrs");
    if IsSet(attrs, "values") then
      var values := Get(attrs, "values");
      assert Within(values, block) by {
        GetWithin(block, "attrs");
        GetWithin(attrs, "values");
        WithinTransitive(values, attrs, block);
      }
      var withText := if IsSet(values, "link_text") then content + [Get(values, "link_text")] else content;
      assert FragmentsFrom(withText, |content|, block) by {
        if IsSet(values, "link_text") {
          GetWithin(values, "link_text");
          WithinTransitive(Get(values, "link_text"), values, block);
        }
      }
      if IsSet(values, "link") then
        assert Within(Get(values, "link"), block) by {
          GetWithin(values, "link");
          WithinTransitive(Get(values, "link"), values, block);
        }
        withText + [Get(values, "link")]
      else withText
    else content
  }

  /** Any other block type: its `text` when set, otherwise its nested `content`. */
  function DefaultFragments(block: Value, content: seq<Value>): (r: seq<Value>)
    ensures content <= r
    ensures FragmentsFrom(r, |content|, block)
  {
    if IsSet(block, "text") then
      assert Within(Get(block, "text"), block) by { GetWithin(block, "text"); }
      content + [Get(block, "text")]
    else NestedContent(block, content)
  }

  /** One block of `processBardField`: non-array blocks are skipped; otherwise the
      `switch` on `$block['type'] ?? ''`. */
  function ProcessBlock(block: Value, content: seq<Value>): (r: seq<Value>)
    ensures content <= r
    ensures FragmentsFrom(r, |content|, block)
  {
    if !block.Arr? then content
    else
      var t := GetOrEmpty(block, "type");
      if IsContainerType(t) then NestedContent(block, content)
      else if SwitchMatches(t, "link") then LinkFragments(block, content)
      else if SwitchMatches(t, "set") then SetFragments(block, content)
      else DefaultFragments(block, content)
  }

  /** The `foreach` of `processBardField` over a list of blocks. */
  function ProcessBlocks(blocks: seq<Value>, content: seq<Value>): (r: seq<Value>)
    ensures content <= r
    ensures forall k :: |content| <= k < |r| ==>
              r[k] != Null && exists j :: 0 <= j < |blocks| && Within(r[k], blocks[j])
  {
    if blocks == [] then content
    else
      var first := ProcessBlock(blocks[0], content);
      var r := ProcessBlocks(blocks[1..], first);
      assert forall k :: |first| <= k < |r| ==>
               exists j :: 0 <= j < |blocks| && Within(r[k], blocks[j]) by {
        forall k | |first| <= k < |r|
          ensures exists j :: 0 <= j < |blocks| && Within(r[k], blocks[j])
        {
          var j :| 0 <= j < |blocks[1..]| && Within(r[k], blocks[1..][j]);
          assert blocks[1..][j] == blocks[j + 1];
        }
      }
      r
  }

  /** `processBardField($bardContent, $content)`: nothing for a non-array field,
      otherwise every block in order. */
  function ProcessBardField(bard: Value, content: seq<Value>): (r: seq<Value>)
    ensures !bard.Arr? ==> r == content
    ensures content <= r
    ensures FragmentsFrom(r, |content|, bard)
  {
    if !bard.Arr? then content
    else
      var r := ProcessBlocks(Elements(bard), content);
      assert FragmentsFrom(r, |content|, bard) by {
        forall k | |content| <= k < |r| ensures Within(r[k], bard) {
          var j :| 0 <= j < |Elements(bard)| && Within(r[k], Elements(bard)[j]);
          assert Elements(bard)[j] == bard.entries[j].1;
        }
      }
      r
  }

  // ---------------------------------------------------------------------------
  // Properties

  /** A document holding one block (or one nested item). */
  function Single(v: Value): Value {
    Arr([("0", v)])
  }

  /** The nested walk only appends: running it on a list that already holds fragments
      gives those fragments followed by exactly what it produces from an empty list. */
  lemma {:induction false} ExtractAppendOnly(bard: Value, content: seq<Value>)
    ensures ExtractTextFromBardContent(bard, content) == content + ExtractTextFromBardContent(bard, [])
    decreases bard, if bard.Arr? then |bard.entries| + 1 else 0
  {
    if bard.Arr? {
      ExtractItemsAppendOnly(bard, 0, content);
    }
  }

  lemma {:induction false} ExtractItemsAppendOnly(bard: Value, i: nat, content: seq<Value>)
    requires bard.Arr? && i <= |bard.entries|
    ensures ExtractItems(bard, i, content) == content + ExtractItems(bard, i, [])
    decreases bard, |bard.entries| - i
  {
    if i < |bard.entries| {
      ExtractItemAppendOnly(bard, i, content);
      var one := ExtractItem(bard, i, []);
      ExtractItemsAppendOnly(bard, i + 1, content + one);
      ExtractItemsAppendOnly(bard, i + 1, one);
    }
  }

  lemma {:induction false} ExtractItemAppendOnly(bard: Value, i: nat, content: seq<Value>)
    requires bard.Arr? && i < |bard.entries|
    ensures ExtractItem(bard, i, content) == content + ExtractItem(bard, i, [])
    decreases bard, 0
  {
    var item := bard.entries[i].1;
    if item.Arr? && IsSet(item, "content") {
      var nested := Get(item, "content");
      assert Within(nested, bard) by {
        GetWithin(item, "content");
        assert Within(item, bard.entries[i].1);
        WithinTransitive(nested, item, bard);
      }
      var withText := if IsSet(item, "text") then [Get(item, "text")] else [];
      var withTextAfter := if IsSet(item, "text") then content + [Get(item, "text")] else content;
      assert withTextAfter == content + withText;
      assert withText == (if IsSet(item, "text") then [] + [Get(item, "text")] else []);
      assert ExtractItem(bard, i, content) == ExtractTextFromBardContent(nested, withTextAfter);
      assert ExtractItem(bard, i, []) == ExtractTextFromBardContent(nested, withText);
      ExtractAppendOnly(nested, withTextAfter);
      ExtractAppendOnly(nested, withText);
    }
  }

  /** A single block only appends, as in `ExtractAppendOnly`. */
  lemma NestedContentAppendOnly(block: Value, content: seq<Value>)
    ensures NestedContent(block, content) == content + NestedContent(block, [])
  {
    if IsSet(block, "content") {
      ExtractAppendOnly(Get(block, "content"), content);
    }
  }

  lemma LinkAppendOnly(block: Value, content: seq<Value>)
    ensures LinkFragments(block, content) == content + LinkFragments(block, [])
  {
    NestedContentAppendOnly(block, content);
  }

  lemma SetAppendOnly(block: Value, content: seq<Value>)
    ensures SetFragments(block, content) == content + SetFragments(block, [])
  {
  }

  lemma DefaultAppendOnly(block: Value, content: seq<Value>)
    ensures DefaultFragments(block, content) == content + DefaultFragments(block, [])
  {
    NestedContentAppendOnly(block, content);
  }

  lemma ProcessBlockAppendOnly(block: Value, content: seq<Value>)
    ensures ProcessBlock(block, content) == content + ProcessBlock(block, [])
  {
    if block.Arr? {
      var t := GetOrEmpty(block, "type");
      if IsContainerType(t) {
        NestedContentAppendOnly(block, content);
      } else if SwitchMatches(t, "link") {
        LinkAppendOnly(block, content);
      } else if SwitchMatches(t, "set") {
        SetAppendOnly(block, content);
      } else {
        DefaultAppendOnly(block, content);
      }
    }
  }

  /** `processBardField` only appends to the caller's list: the fragments already there
      are kept unchanged and in place, followed by exactly what the field produces on
      its own. */
  lemma {:induction false} ProcessBlocksAppendOnly(blocks: seq<Value>, content: seq<Value>)
    ensures ProcessBlocks(blocks, content) == content + ProcessBlocks(blocks, [])
  {
    if blocks != [] {
      ProcessBlockAppendOnly(blocks[0], content);
      var one := ProcessBlock(blocks[0], []);
      ProcessBlocksAppendOnly(blocks[1..], content + one);
      ProcessBlocksAppendOnly(blocks[1..], one);
    }
  }

  lemma ProcessBardFieldAppendOnly(bard: Value, content: seq<Value>)
    ensures ProcessBardField(bard, content) == content + ProcessBardField(bard, [])
  {
    if bard.Arr? {
      ProcessBlocksAppendOnly(Elements(bard), content);
    }
  }

  /** Blocks contribute in document order: the fragments of `a + b` are those of `a`
      followed by those of `b`. */
  lemma {:induction false} ProcessBlocksConcat(a: seq<Value>, b: seq<Value>, content: seq<Value>)
    ensures ProcessBlocks(a + b, content) == ProcessBlocks(b, ProcessBlocks(a, content))
  {
    if a != [] {
      assert (a + b)[0] == a[0];
      assert (a + b)[1..] == a[1..] + b;
      ProcessBlocksConcat(a[1..], b, ProcessBlock(a[0], content));
    } else {
      assert a + b == b;
    }
  }

  lemma ProcessBardFieldConcat(a: seq<(string, Value)>, b: seq<(string, Value)>)
    ensures ProcessBardField(Arr(a + b), []) == ProcessBardField(Arr(a), []) + ProcessBardField(Arr(b), [])
  {
    assert Elements(Arr(a + b)) == Elements(Arr(a)) + Elements(Arr(b));
    ProcessBlocksConcat(Elements(Arr(a)), Elements(Arr(b)), []);
    ProcessBlocksAppendOnly(Elements(Arr(b)), ProcessBardField(Arr(a), []));
  }

  /** Non-array blocks contribute nothing. */
  lemma {:induction false} ScalarBlocksSkipped(blocks: seq<Value>, content: seq<Value>)
    requires forall k :: 0 <= k < |blocks| ==> !blocks[k].Arr?
    ensures ProcessBlocks(blocks, content) == content
  {
    if blocks != [] {
      ScalarBlocksSkipped(blocks[1..], content);
    }
  }

  /** A one-block document is that block's contribution. */
  lemma SingleBlock(block: Value)
    ensures ProcessBardField(Single(block), []) == ProcessBlock(block, [])
  {
    assert Elements(Single(block)) == [block];
    assert [block][1..] == [];
    assert ProcessBardField(Single(block), []) == ProcessBlocks([block], []);
    assert ProcessBlocks([block], []) == ProcessBlocks([], ProcessBlock(block, []));
  }

  /** paragraph, heading, text, bulletList, orderedList and listItem blocks contribute
      exactly the nested walk of their `content`, never their own `text`. */
  lemma ContainerBlock(block: Value)
    requires block.Arr? && IsContainerType(GetOrEmpty(block, "type"))
    ensures ProcessBardField(Single(block), []) ==
              (if IsSet(block, "content") then ExtractTextFromBardContent(Get(block, "content"), []) else [])
  {
    SingleBlock(block);
  }

  /** A top-level `text` block that carries only its `text` contributes nothing. */
  lemma TextBlockWithoutContent(text: string)
    ensures ProcessBardField(Single(Arr([("type", Str("text")), ("text", Str(text))])), []) == []
  {
    var block := Arr([("type", Str("text")), ("text", Str(text))]);
    assert GetOrEmpty(block, "type") == Str("text");
    assert !IsSet(block, "content");
    ContainerBlock(block);
  }

  /** A link contributes its label fragments first and then its `attrs.href`. */
  lemma LinkBlock(block: Value)
    requires block.Arr? && GetOrEmpty(block, "type") == Str("link")
    ensures ProcessBardField(Single(block), []) ==
              (if IsSet(block, "content") then ExtractTextFromBardContent(Get(block, "content"), []) else [])
              + (if IsSet(Get(block, "attrs"), "href") then [Get(Get(block, "attrs"), "href")] else [])
  {
    SingleBlock(block);
  }

  /** A `set` block contributes `attrs.values.link_text` and then `attrs.values.link`,
      and nothing from its own `content`. */
  lemma SetBlock(block: Value)
    requires block.Arr? && GetOrEmpty(block, "type") == Str("set")
    ensures var values := Get(Get(block, "attrs"), "values");
            ProcessBardField(Single(block), []) ==
              (if IsSet(values, "link_text") then [Get(values, "link_text")] else [])
              + (if IsSet(values, "link") then [Get(values, "link")] else [])
  {
    SingleBlock(block);
    var t := GetOrEmpty(block, "type");
    assert !IsContainerType(t) && !SwitchMatches(t, "link") && SwitchMatches(t, "set");
    assert ProcessBlock(block, []) == SetFragments(block, []);
    SetFragmentsFromEmpty(block);
  }

  /** The fragments of a `set` block's `attrs.values`, starting from nothing. */
  lemma SetFragmentsFromEmpty(block: Value)
    ensures var values := Get(Get(block, "attrs"), "values");
            SetFragments(block, []) ==
              (if IsSet(values, "link_text") then [Get(values, "link_text")] else [])
              + (if IsSet(values, "link") then [Get(values, "link")] else [])
  {
    var values := Get(Get(block, "attrs"), "values");
    if !IsSet(Get(block, "attrs"), "values") {
      assert values == Null;
    }
  }

  /** A block of any other type contributes its `text` when set, and otherwise the
      nested walk of its `content`; never both. */
  lemma OtherBlock(block: Value)
    requires block.Arr?
    requires var t := GetOrEmpty(block, "type");
             !IsContainerType(t) && !SwitchMatches(t, "link") && !SwitchMatches(t, "set")
    ensures ProcessBardField(Single(block), []) ==
              if IsSet(block, "text") then [Get(block, "text")]
              else if IsSet(block, "content") then ExtractTextFromBardContent(Get(block, "content"), [])
              else []
  {
    SingleBlock(block);
  }

  /** A one-item list is that item's contribution to the nested walk. */
  lemma SingleItem(item: Value)
    ensures ExtractTextFromBardContent(Single(item), []) == ExtractItem(Single(item), 0, [])
  {
    assert ExtractTextFromBardContent(Single(item), []) == ExtractItems(Single(item), 0, []);
    assert ExtractItems(Single(item), 0, []) == ExtractItems(Single(item), 1, ExtractItem(Single(item), 0, []));
  }

  /** In the nested walk an array item contributes its `text` and then its `content`,
      whatever its `type` and `attrs` say. */
  lemma NestedArrayItem(item: Value)
    requires item.Arr?
    ensures ExtractTextFromBardContent(Single(item), []) ==
              (if IsSet(item, "text") then [Get(item, "text")] else [])
              + (if IsSet(item, "content") then ExtractTextFromBardContent(Get(item, "content"), []) else [])
  {
    SingleItem(item);
    assert Single(item).entries[0].1 == item;
    if IsSet(item, "content") {
      var withText := if IsSet(item, "text") then [Get(item, "text")] else [];
      assert withText == (if IsSet(item, "text") then [] + [Get(item, "text")] else []);
      assert ExtractItem(Single(item), 0, []) == ExtractTextFromBardContent(Get(item, "content"), withText);
      ExtractAppendOnly(Get(item, "content"), withText);
    }
  }

  /** In the nested walk a string item is appended as it is, and any other scalar is
      ignored. */
  lemma NestedScalarItem(item: Value)
    requires !item.Arr?
    ensures ExtractTextFromBardContent(Single(item), []) == if item.Str? then [item] else []
  {
    SingleItem(item);
  }

  /** Nested items contribute in order: the walk over `a + b` is the walk over `a`
      followed by the walk over `b`. */
  lemma {:induction false} ExtractItemsShift(a: seq<(string, Value)>, b: seq<(string, Value)>, i: nat, content: seq<Value>)
    requires i <= |a|
    ensures ExtractItems(Arr(a + b), i, content) == ExtractItems(Arr(b), 0, ExtractItems(Arr(a), i, content))
    decreases |a| - i
  {
    if i < |a| {
      assert Arr(a + b).entries[i] == Arr(a).entries[i];
      assert ExtractItem(Arr(a + b), i, content) == ExtractItem(Arr(a), i, content);
      ExtractItemsShift(a, b, i + 1, ExtractItem(Arr(a), i, content));
    } else {
      ExtractItemsTail(a, b, 0, content);
    }
  }

  lemma {:induction false} ExtractItemsTail(a: seq<(string, Value)>, b: seq<(string, Value)>, j: nat, content: seq<Value>)
    requires j <= |b|
    ensures ExtractItems(Arr(a + b), |a| + j, content) == ExtractItems(Arr(b), j, content)
    decreases |b| - j
  {
    if j < |b| {
      assert Arr(a + b).entries[|a| + j] == Arr(b).entries[j];
      assert ExtractItem(Arr(a + b), |a| + j, content) == ExtractItem(Arr(b), j, content);
      ExtractItemsTail(a, b, j + 1, ExtractItem(Arr(b), j, content));
    }
  }

  lemma ExtractConcat(a: seq<(string, Value)>, b: seq<(string, Value)>)
    ensures ExtractTextFromBardContent(Arr(a + b), []) ==
              ExtractTextFromBardContent(Arr(a), []) + ExtractTextFromBardContent(Arr(b), [])
  {
    ExtractItemsShift(a, b, 0, []);
    ExtractItemsAppendOnly(Arr(b), 0, ExtractItems(Arr(a), 0, []));
  }
}

=== FILE: border_color.dfy ===
/** The `border_color` tag: a border class chosen cyclically from five brand colours by
    an integer index. */
module BorderColor {
  import opened Optional

  /** The five border classes, in cycle order. */
  const Colors: seq<string> := ["border-mystiris", "border-verdique", "border-flareon", "border-sunella", "border-blushra"]

  /** PHP's `$a % 5`: the remainder of division truncated toward zero, so it takes the
      sign of the dividend; it differs from the non-negative remainder by a multiple of 5. */
  function PhpRem5(a: int): (r: int)
    ensures a >= 0 ==> 0 <= r < 5 && r == a % 5
    ensures a < 0 ==> -5 < r <= 0 && (r == 0 <==> a % 5 == 0)
    ensures (a - r) % 5 == 0
  {
    if a >= 0 then a % 5 else -((-a) % 5)
  }

  /** `index`: the colour at `index % 5`, the index defaulting to 0. A negative index whose
      remainder is not 0 reads a negative key that the list does not have; PHP answers with
      an "Undefined array key" warning, which Laravel raises as an error. The model gives
      no colour there. */
  function Border(index: Option<int>): (r: Option<string>)
    ensures index.None? ==> r == Some("border-mystiris")
    ensures index.Some? && index.value >= 0 ==> r == Some(Colors[index.value % 5])
    ensures r.Some? ==> r.value in Colors
    ensures r.None? <==> index.Some? && index.value < 0 && index.value % 5 != 0
    ensures index.Some? && index.value < 0 && index.value % 5 == 0 ==> r == Some(Colors[0])
    ensures r.Some? ==> r.value == Colors[PhpRem5(index.GetOr(0))]
  {
    var i := index.GetOr(0);
    var k := PhpRem5(i);
    if 0 <= k then Some(Colors[k]) else None
  }

  /** The first five indices give the five colours in order. */
  lemma FirstFive(k: nat)
    requires k < 5
    ensures Border(Some(k)) == Some(Colors[k])
  {
  }

  /** Indices five apart give the same colour. */
  lemma Periodic(i: int)
    requires i >= 0
    ensures Border(Some(i + 5)) == Border(Some(i))
  {
  }

  /** Index -1 selects no colour: the source reads the undefined key -1. */
  lemma NegativeIndexHasNoColor(index: int)
    requires index == -1
    ensures Border(Some(index)) == None
  {
  }

  /** The cycle extended to every integer: the colour at the index's non-negative
      remainder, so that indices five apart always agree. */
  function BorderCorrected(index: Option<int>): (r: string)
    ensures r in Colors
    ensures index.None? ==> r == "border-mystiris"
    ensures index.Some? && index.value >= 0 ==> Some(r) == Border(index)
  {
    Colors[index.GetOr(0) % 5]
  }

  /** With the corrected rule every index has a colour and the cycle has period five
      across zero. */
  lemma {:induction false} CorrectedPeriodic(i: int)
    ensures BorderCorrected(Some(i + 5)) == BorderCorrected(Some(i))
  {
    assert (i + 5) % 5 == i % 5;
  }
}

=== FILE: entries.dfy ===
/** Content-store entries as the index command and the template modifiers see them. The
    store itself (Statamic's `Entry::query()`) is an input sequence whose order is the
    order in which a query returns its results. */
module Entries {
  import opened Optional
  import opened Php

  /** One entry: its id, slug, locale, the id of the entry it translates (`origin`, absent
      for an origin entry), its collection handle, and its field data as a PHP array. */
  datatype Entry = Entry(
    id: string,
    slug: string,
    locale: string,
    origin: Option<string>,
    collection: string,
    data: Value)

  /** `$entry->get($key)`: the field's value, `null` when the field is absent. */
  function Field(e: Entry, key: string): Value {
    Get(e.data, key)
  }
}

=== FILE: header_scroll.dfy ===
/** The sticky header: it hides after the page has been scrolled down far enough and
    reappears after it has been scrolled back up far enough, always showing near the top
    of the page and while the menu is open. Scroll positions are whole pixels. */
module HeaderScroll {

  /** Near the top (at or above this scroll position) the header always shows. */
  const Offset: int := 300
  /** Upward scrolling needed, in one run, to show the header again. */
  const UpThreshold: int := 100
  /** Downward scrolling needed, in one run, to hide the header. */
  const DownThreshold: int := 30

  /** The component's state: the current and previous scroll positions, whether the
      header shows, and how far the page has moved up and down in the current run. */
  datatype Header = Header(scrollY: int, lastScrollY: int, visible: bool, upAccum: int, downAccum: int)

  /** `init`: both positions at the page's current scroll position, the header visible,
      nothing accumulated. */
  function Start(pageY: int): (r: Header)
    ensures r.visible && Accumulating(r)
    ensures r.scrollY == pageY && r.lastScrollY == pageY
    ensures r.upAccum == 0 && r.downAccum == 0
  {
    Header(pageY, pageY, true, 0, 0)
  }

  /** The accumulators are never negative, and only the current direction's is non-zero. */
  predicate Accumulating(h: Header) {
    h.upAccum >= 0 && h.downAccum >= 0 && (h.upAccum == 0 || h.downAccum == 0)
  }

  /** `onScroll` with the page at `pageY` and the menu open or not. Every step records
      the new position; an open menu or a position near the top shows the header and
      clears both runs; otherwise scrolling down extends the downward run and ends the
      upward one (hiding once the run reaches its threshold), scrolling up does the
      opposite, and not moving changes nothing. The accumulators stay well-formed. */
  function OnScroll(h: Header, pageY: int, menuOpen: bool): (r: Header)
    ensures r.scrollY == pageY && r.lastScrollY == pageY
    ensures menuOpen || pageY <= Offset ==> r.visible && r.upAccum == 0 && r.downAccum == 0
    ensures !menuOpen && pageY > Offset && pageY == h.lastScrollY ==>
              r.visible == h.visible && r.upAccum == h.upAccum && r.downAccum == h.downAccum
    ensures !menuOpen && pageY > Offset && pageY > h.lastScrollY ==>
              r.upAccum == 0 && r.downAccum == h.downAccum + (pageY - h.lastScrollY)
              && (r.visible <==> h.visible && r.downAccum < DownThreshold)
    ensures !menuOpen && pageY > Offset && pageY < h.lastScrollY ==>
              r.downAccum == 0 && r.upAccum == h.upAccum + (h.lastScrollY - pageY)
              && (r.visible <==> h.visible || r.upAccum >= UpThreshold)
    ensures Accumulating(h) ==> Accumulating(r)
  {
    var delta := pageY - h.lastScrollY;
    if menuOpen then Header(pageY, pageY, true, 0, 0)
    else if pageY <= Offset then Header(pageY, pageY, true, 0, 0)
    else if delta > 0 then
      var down := h.downAccum + delta;
      Header(pageY, pageY, if down >= DownThreshold then false else h.visible, 0, down)
    else if delta < 0 then
      var up := h.upAccum + -delta;
      Header(pageY, pageY, if up >= UpThreshold then true else h.visible, up, 0)
    else Header(pageY, pageY, h.visible, h.upAccum, h.downAccum)
  }

  /** The header after a sequence of scroll events with the menu closed. */
  function Run(h: Header, positions: seq<int>): Header
    decreases |positions|
  {
    if positions == [] then h else Run(OnScroll(h, positions[0], false), positions[1..])
  }

  /** The positions keep moving down the page, below the offset, starting from `from`. */
  predicate Descending(from: int, positions: seq<int>) {
    (forall k :: 0 <= k < |positions| ==> positions[k] > Offset)
    && (positions != [] ==> from < positions[0])
    && (forall k :: 1 <= k < |positions| ==> positions[k - 1] < positions[k])
  }

  /** The positions keep moving up the page, below the offset, starting from `from`. */
  predicate Ascending(from: int, positions: seq<int>) {
    (forall k :: 0 <= k < |positions| ==> positions[k] > Offset)
    && (positions != [] ==> from > positions[0])
    && (forall k :: 1 <= k < |positions| ==> positions[k - 1] > positions[k])
  }

  /** Over a run of downward events below the offset, the downward accumulator grows by the
      total distance and the upward one is cleared. */
  lemma {:induction false} DownwardRun(h: Header, positions: seq<int>)
    requires positions != [] && Descending(h.lastScrollY, positions)
    ensures var r := Run(h, positions);
            r.downAccum == h.downAccum + (positions[|positions| - 1] - h.lastScrollY) && r.upAccum == 0
            && r.lastScrollY == positions[|positions| - 1]
            && (!r.visible <==> !h.visible || r.downAccum >= DownThreshold)
    ensures positions[|positions| - 1] >= positions[0]
    decreases |positions|
  {
    var next := OnScroll(h, positions[0], false);
    assert positions[0] > Offset && positions[0] > h.lastScrollY;
    if |positions| > 1 {
      var rest := positions[1..];
      assert forall k :: 0 <= k < |rest| ==> rest[k] == positions[k + 1];
      assert Descending(next.lastScrollY, rest) by {
        assert forall k :: 1 <= k < |rest| ==> rest[k - 1] == positions[k];
      }
      DownwardRun(next, rest);
      assert rest[|rest| - 1] == positions[|positions| - 1];
      if !next.visible {
        assert next.downAccum >= DownThreshold || !h.visible;
      }
    } else {
      assert Run(h, positions) == Run(next, []);
    }
  }

  /** Scrolling down by at least the threshold, in steps below the offset, hides the
      header, wherever the downward run started. */
  lemma HidesAfterDownwardRun(h: Header, positions: seq<int>)
    requires Accumulating(h)
    requires positions != [] && Descending(h.lastScrollY, positions)
    requires positions[|positions| - 1] - h.lastScrollY >= DownThreshold
    ensures !Run(h, positions).visible
  {
    DownwardRun(h, positions);
  }

  /** Over a run of upward events below the offset, the upward accumulator grows by the
      total distance and the downward one is cleared. */
  lemma {:induction false} UpwardRun(h: Header, positions: seq<int>)
    requires positions != [] && Ascending(h.lastScrollY, positions)
    ensures var r := Run(h, positions);
            r.upAccum == h.upAccum + (h.lastScrollY - positions[|positions| - 1]) && r.downAccum == 0
            && r.lastScrollY == positions[|positions| - 1]
            && (r.visible <==> h.visible || r.upAccum >= UpThreshold)
    ensures positions[|positions| - 1] <= positions[0]
    decreases |positions|
  {
    var next := OnScroll(h, positions[0], false);
    assert positions[0] > Offset && positions[0] < h.lastScrollY;
    if |positions| > 1 {
      var rest := positions[1..];
      assert forall k :: 0 <= k < |rest| ==> rest[k] == positions[k + 1];
      assert Ascending(next.lastScrollY, rest) by {
        assert forall k :: 1 <= k < |rest| ==> rest[k - 1] == positions[k];
      }
      UpwardRun(next, rest);
      assert rest[|rest| - 1] == positions[|positions| - 1];
      if next.visible {
        assert next.upAccum >= UpThreshold || h.visible;
      }
    } else {
      assert Run(h, positions) == Run(next, []);
    }
  }

  /** A hidden header stays hidden through an upward run shorter than the threshold that
      began after scrolling down. */
  lemma StaysHiddenOnShortUpwardRun(h: Header, positions: seq<int>)
    requires !h.visible && h.upAccum == 0
    requires positions != [] && Ascending(h.lastScrollY, positions)
    requires h.lastScrollY - positions[|positions| - 1] < UpThreshold
    ensures !Run(h, positions).visible
  {
    UpwardRun(h, positions);
  }

  /** `menuToggle.toggle`: opens a closed menu and closes an open one. */
  function Toggle(isOpen: bool): (r: bool)
    ensures r != isOpen
  {
    !isOpen
  }

  /** Toggling twice restores the menu. */
  lemma ToggleTwice(isOpen: bool)
    ensures Toggle(Toggle(isOpen)) == isOpen
  {
  }
}

=== FILE: highlight.dfy ===
/** The `highlight` template modifier: a search-result snippet around the first regex
    match of a keyword. The match is that of the PCRE pattern `(.{0,50})(kw)(.{0,50})`
    with the `i` and `u` flags, the keyword quoted literally; the text is a sequence of
    code points. Case-insensitive comparison goes through `fold` (PCRE's caseless
    matching of one code point against another), and `strip` is PHP's `strip_tags`. */
module Highlight {
  import opened Optional
  import opened Text

  /** The width of each context capture `.{0,50}`. */
  const Window: nat := 50

  /** The number of code points the fallback keeps before trimming. */
  const FallbackLength: nat := 100

  /** The appended ellipsis. */
  const Ellipsis: string := "..."

  /** PCRE's `\s` in UTF mode with Unicode properties (PHP's `u` flag): the separators of
      Unicode category Z together with `\h` and `\v`. */
  predicate IsSpace(c: char) {
    ('\U{9}' <= c <= '\U{D}') || c == ' ' || c == '\U{85}' || c == '\U{A0}'
    || c == '\U{1680}' || c == '\U{180E}' || ('\U{2000}' <= c <= '\U{200A}')
    || c == '\U{2028}' || c == '\U{2029}' || c == '\U{202F}' || c == '\U{205F}' || c == '\U{3000}'
  }

  /** PHP's `empty()` on a string. */
  predicate EmptyString(s: string) {
    s == "" || s == "0"
  }

  // ---------------------------------------------------------------------------
  // The regex match

  /** `.{0,50}` can match the `n` code points at `i`: they exist, are at most 50, and
      none is a line feed (`.` without the `s` flag). */
  predicate Dots(text: string, i: nat, n: nat) {
    i + n <= |text| && n <= Window && forall k :: i <= k < i + n ==> text[k] != '\n'
  }

  /** The greedy length of `.{0,50}` at `i`, counting up from `n`. */
  function DotRunFrom(text: string, i: nat, n: nat): (r: nat)
    requires Dots(text, i, n)
    ensures n <= r && Dots(text, i, r)
    ensures r == Window || i + r == |text| || text[i + r] == '\n'
    decreases Window - n
  {
    if n == Window || i + n == |text| || text[i + n] == '\n' then n
    else DotRunFrom(text, i, n + 1)
  }

  /** The greedy length of `.{0,50}` at `i`: a run it can match that stops at the width,
      at the end of the text or before a line feed, hence the longest. */
  function DotRun(text: string, i: nat): (r: nat)
    requires i <= |text|
    ensures i + r <= |text| && Dots(text, i, r)
    ensures r == Window || i + r == |text| || text[i + r] == '\n'
  {
    DotRunFrom(text, i, 0)
  }

  /** `.{0,50}` matches at `i` exactly the lengths up to the greedy run. */
  lemma DotRunLongest(text: string, i: nat, m: nat)
    requires i <= |text|
    ensures Dots(text, i, m) <==> m <= DotRun(text, i)
  {
  }

  /** The quoted keyword matches caselessly at index `i`. */
  predicate FoldedAt(text: string, i: nat, kw: string, fold: char -> char) {
    i + |kw| <= |text| && forall j :: 0 <= j < |kw| ==> fold(text[i + j]) == fold(kw[j])
  }

  /** The whole pattern can match starting at `s` with a prefix capture of length `p`
      (the suffix capture `.{0,50}` can always match, at worst empty). */
  predicate MatchAt(text: string, kw: string, fold: char -> char, s: nat, p: nat) {
    Dots(text, s, p) && FoldedAt(text, s + p, kw, fold)
  }

  /** Where the match starts and how long its prefix capture is. */
  datatype Match = Match(start: nat, prefixLen: nat)

  /** Backtracking of the greedy prefix at start `s`: the longest prefix of at most `p`
      code points after which the keyword matches. */
  function BestPrefix(text: string, kw: string, fold: char -> char, s: nat, p: nat): (r: Option<nat>)
    requires Dots(text, s, p)
    ensures r.Some? ==> r.value <= p && MatchAt(text, kw, fold, s, r.value)
                        && forall q: nat :: r.value < q <= p ==> !MatchAt(text, kw, fold, s, q)
    ensures r.None? <==> forall q: nat :: q <= p ==> !MatchAt(text, kw, fold, s, q)
    decreases p
  {
    if FoldedAt(text, s + p, kw, fold) then Some(p)
    else if p == 0 then None
    else BestPrefix(text, kw, fold, s, p - 1)
  }

  /** At start `s`, the backtracking from the greedy run finds the longest prefix capture
      with which the pattern matches, and finds none exactly when there is none. */
  lemma BestPrefixAtStart(text: string, kw: string, fold: char -> char, s: nat)
    requires s <= |text|
    ensures var b := BestPrefix(text, kw, fold, s, DotRun(text, s));
            (b.None? <==> forall p: nat :: !MatchAt(text, kw, fold, s, p))
            && (b.Some? ==> MatchAt(text, kw, fold, s, b.value)
                            && forall p: nat :: b.value < p ==> !MatchAt(text, kw, fold, s, p))
  {
    var q := DotRun(text, s);
    forall p: nat | MatchAt(text, kw, fold, s, p)
      ensures p <= q
    {
      DotRunLongest(text, s, p);
    }
    forall p: nat | p <= q
      ensures Dots(text, s, p)
    {
      DotRunLongest(text, s, p);
    }
  }

  /** `m` is a match at or after `s`, no start before it from `s` on matches, and at its
      start no longer prefix capture matches. */
  ghost predicate LeftmostFrom(text: string, kw: string, fold: char -> char, s: nat, m: Match) {
    s <= m.start && MatchAt(text, kw, fold, m.start, m.prefixLen)
    && (forall t: nat, p: nat :: s <= t < m.start ==> !MatchAt(text, kw, fold, t, p))
    && (forall p: nat :: m.prefixLen < p ==> !MatchAt(text, kw, fold, m.start, p))
  }

  /** The pattern matches at no start from `s` on. */
  ghost predicate NowhereFrom(text: string, kw: string, fold: char -> char, s: nat) {
    forall t: nat, p: nat :: s <= t ==> !MatchAt(text, kw, fold, t, p)
  }

  /** The regex engine's scan of start positions from `s` on. */
  function SearchFrom(text: string, kw: string, fold: char -> char, s: nat): (r: Option<Match>)
    ensures r.Some? ==> LeftmostFrom(text, kw, fold, s, r.value)
    ensures r.None? <==> NowhereFrom(text, kw, fold, s)
    decreases |text| + 1 - s
  {
    if s > |text| then None
    else
      BestPrefixAtStart(text, kw, fold, s);
      match BestPrefix(text, kw, fold, s, DotRun(text, s))
      case Some(p) => Some(Match(s, p))
      case None => SearchFrom(text, kw, fold, s + 1)
  }

  /** `preg_match`: the leftmost start at which the pattern matches, and there the longest
      prefix capture, since `.{0,50}` is greedy and gives back one code point at a time. */
  function FindMatch(text: string, kw: string, fold: char -> char): (r: Option<Match>)
    ensures r.Some? ==> LeftmostFrom(text, kw, fold, 0, r.value)
    ensures r.None? <==> NowhereFrom(text, kw, fold, 0)
  {
    SearchFrom(text, kw, fold, 0)
  }

  /** The pattern matches somewhere exactly when the keyword occurs somewhere. */
  lemma MatchIffOccurs(text: string, kw: string, fold: char -> char)
    ensures FindMatch(text, kw, fold).Some? <==> exists i: nat :: FoldedAt(text, i, kw, fold)
  {
    if i: nat :| FoldedAt(text, i, kw, fold) {
      assert Dots(text, i, 0);
      assert MatchAt(text, kw, fold, i, 0);
    }
  }

  /** Among the occurrences that start within the first line's first 50 code points, the
      LAST one is chosen: the greedy prefix backtracks from the longest run. */
  lemma {:induction false} LastEarlyOccurrenceChosen(text: string, kw: string, fold: char -> char, i: nat)
    requires Dots(text, 0, i) && FoldedAt(text, i, kw, fold)
    ensures FindMatch(text, kw, fold).Some?
    ensures var m := FindMatch(text, kw, fold).value;
            m.start == 0 && i <= m.prefixLen
            && forall j: nat :: m.prefixLen < j && Dots(text, 0, j) ==> !FoldedAt(text, j, kw, fold)
  {
    assert MatchAt(text, kw, fold, 0, i);
    var m := FindMatch(text, kw, fold).value;
    forall j: nat | m.prefixLen < j && Dots(text, 0, j)
      ensures !FoldedAt(text, j, kw, fold)
    {
      if m.start == 0 {
        assert !MatchAt(text, kw, fold, 0, j);
      }
    }
  }

  // ---------------------------------------------------------------------------
  // Trimming the captures

  /** The index of the last whitespace code point, if any. */
  function LastSpace(s: string): (r: Option<nat>)
    ensures r.Some? ==> r.value < |s| && IsSpace(s[r.value])
                        && forall k :: r.value < k < |s| ==> !IsSpace(s[k])
    ensures r.None? <==> forall k :: 0 <= k < |s| ==> !IsSpace(s[k])
  {
    if s == [] then None
    else if IsSpace(s[|s| - 1]) then Some(|s| - 1)
    else LastSpace(s[..|s| - 1])
  }

  /** The index of the first whitespace code point, if any. */
  function FirstSpace(s: string): (r: Option<nat>)
    ensures r.Some? ==> r.value < |s| && IsSpace(s[r.value])
                        && forall k :: 0 <= k < r.value ==> !IsSpace(s[k])
    ensures r.None? <==> forall k :: 0 <= k < |s| ==> !IsSpace(s[k])
  {
    if s == [] then None
    else if IsSpace(s[0]) then Some(0)
    else match FirstSpace(s[1..])
      case Some(k) => Some(k + 1)
      case None => None
  }

  /** `preg_replace('/\s[^\s]*$/u', '', $s)` on a string without a line feed: the pattern
      can only match at the last whitespace, so the last whitespace and everything after
      it go; a string without whitespace is left alone. */
  function CutAtLastSpace(s: string): (r: string)
    ensures r <= s
  {
    match LastSpace(s)
    case Some(w) => s[..w]
    case None => s
  }

  /** The cut leaves a string without whitespace alone, and otherwise stops at a
      whitespace after which there is none. */
  lemma CutAtLastSpaceCuts(s: string)
    ensures var r := CutAtLastSpace(s);
            (r == s <==> forall k :: 0 <= k < |s| ==> !IsSpace(s[k]))
            && (r != s ==> IsSpace(s[|r|]) && forall k :: |r| < k < |s| ==> !IsSpace(s[k]))
  {
  }

  /** The suffix trim: a non-empty suffix that does not end in whitespace loses its last
      whitespace and everything after it. */
  function TrimSuffix(s: string): (r: string)
    ensures |r| <= |s|
  {
    if s != [] && !IsSpace(s[|s| - 1]) then CutAtLastSpace(s) else s
  }

  /** The suffix trim keeps a prefix of the suffix; it is shorter exactly when the suffix
      is non-empty, does not end in whitespace and contains whitespace, and then the cut is
      at the LAST whitespace. */
  lemma TrimSuffixCuts(s: string)
    ensures var r := TrimSuffix(s);
            r <= s
            && (|r| < |s| <==> s != [] && !IsSpace(s[|s| - 1]) && exists k :: 0 <= k < |s| && IsSpace(s[k]))
            && (|r| < |s| ==> IsSpace(s[|r|]) && forall k :: |r| < k < |s| ==> !IsSpace(s[k]))
  {
    CutAtLastSpaceCuts(s);
  }

  /** Dropping the first `d` code points of `s` is what the prefix trim does: nothing, or,
      when `s` is non-empty, does not start with whitespace and contains whitespace,
      everything up to and including its FIRST whitespace. */
  predicate PrefixCut(s: string, d: nat)
    requires d <= |s|
  {
    (d > 0 <==> s != [] && !IsSpace(s[0]) && exists k :: 0 <= k < |s| && IsSpace(s[k]))
    && (d > 0 ==> IsSpace(s[d - 1]) && forall k :: 0 <= k < d - 1 ==> !IsSpace(s[k]))
  }

  /** The prefix trim that does not start with whitespace loses its
      leading run of non-whitespace and the first whitespace (`preg_replace('/^[^\s]*\s/u',
      '', $prefix)`). The result is a suffix of the prefix; it is shorter exactly when the
      prefix is non-empty, does not start with whitespace and contains whitespace, and then
      everything up to and including the FIRST whitespace is gone. */
  function TrimPrefix(s: string): (r: string)
    ensures |r| <= |s| && r == s[|s| - |r|..]
    ensures PrefixCut(s, |s| - |r|)
  {
    if s != [] && !IsSpace(s[0]) then
      match FirstSpace(s)
      case Some(w) => s[w + 1..]
      case None => s
    else s
  }

  /** The start context: the trimmed prefix capture and the start ellipsis, which is
      `"..."` exactly when the trim shortened the prefix. The snippet computes both and
      emits neither. */
  datatype Context = Context(prefix: string, startEllipsis: string)

  function StartContext(text: string, m: Match): (r: Context)
    requires Dots(text, m.start, m.prefixLen)
    ensures |r.prefix| <= m.prefixLen
    ensures r.startEllipsis == (if |r.prefix| < m.prefixLen then Ellipsis else "")
    ensures r.prefix == text[m.start + m.prefixLen - |r.prefix|..m.start + m.prefixLen]
  {
    var captured := text[m.start..m.start + m.prefixLen];
    var prefix := TrimPrefix(captured);
    SliceSuffix(text, m.start, m.start + m.prefixLen, prefix);
    Context(prefix, if |captured| > |prefix| then Ellipsis else "")
  }

  /** A suffix of the piece `text[lo..hi]` is the piece of `text` ending at `hi`. */
  lemma SliceSuffix(text: string, lo: nat, hi: nat, t: string)
    requires lo <= hi <= |text| && |t| <= hi - lo && t == text[lo..hi][hi - lo - |t|..]
    ensures t == text[hi - |t|..hi]
  {
    assert forall k :: 0 <= k < |t| ==> t[k] == text[hi - |t| + k];
  }

  // ---------------------------------------------------------------------------
  // The snippet

  /** Some code point in `text[lo..hi]` is whitespace. */
  predicate HasSpace(text: string, lo: nat, hi: nat)
    requires lo <= hi <= |text|
  {
    exists k :: lo <= k < hi && IsSpace(text[k])
  }

  /** How many code points of the suffix capture at `e` the snippet keeps. */
  function SuffixKept(text: string, e: nat): (n: nat)
    requires e <= |text|
    ensures n <= DotRun(text, e)
  {
    var q := DotRun(text, e);
    |TrimSuffix(text[e..e + q])|
  }

  /** The trim of `text[e..e + q]` drops something exactly when the piece is non-empty,
      does not end in whitespace and holds whitespace. */
  lemma TrimSuffixShortens(text: string, e: nat, q: nat)
    requires e + q <= |text|
    ensures |TrimSuffix(text[e..e + q])| < q <==> q > 0 && !IsSpace(text[e + q - 1]) && HasSpace(text, e, e + q)
  {
    var suffix := text[e..e + q];
    TrimSuffixCuts(suffix);
    if |TrimSuffix(suffix)| < q {
      var k :| 0 <= k < |suffix| && IsSpace(suffix[k]);
      assert suffix[k] == text[e + k];
    }
    if q > 0 && !IsSpace(text[e + q - 1]) && HasSpace(text, e, e + q) {
      var k :| e <= k < e + q && IsSpace(text[k]);
      assert suffix[k - e] == text[k];
      assert suffix[q - 1] == text[e + q - 1];
    }
  }

  /** When the trim of `text[e..e + q]` drops something, it cuts at a whitespace after
      which the piece holds none. */
  lemma TrimSuffixCut(text: string, e: nat, q: nat)
    requires e + q <= |text| && |TrimSuffix(text[e..e + q])| < q
    ensures var n := |TrimSuffix(text[e..e + q])|;
            IsSpace(text[e + n]) && forall k :: e + n < k < e + q ==> !IsSpace(text[k])
  {
    var suffix := text[e..e + q];
    var n := |TrimSuffix(suffix)|;
    TrimSuffixCuts(suffix);
    assert suffix[n] == text[e + n];
    forall m | e + n < m < e + q ensures !IsSpace(text[m]) {
      assert text[m] == suffix[m - e];
    }
  }

  /** The snippet for a keyword match of length `len` at `at`: the matched text as written,
      then the kept part of the suffix capture, then `"..."` exactly when part of the
      capture was dropped. The whole snippet is a verbatim piece of the text starting at
      the match, possibly followed by the ellipsis. */
  function Snippet(text: string, at: nat, len: nat): (r: string)
    requires at + len <= |text|
    ensures text[at..at + len] <= r
    ensures |r| <= len + Window + |Ellipsis|
  {
    var e := at + len;
    var q := DotRun(text, e);
    var n := SuffixKept(text, e);
    var tail := if n < q then Ellipsis else "";
    SnippetShape(text, at, e, n, q, tail);
    text[at..e + n] + tail
  }

  /** The snippet is the matched text and the kept part of the suffix capture, followed
      by `"..."` exactly when part of the capture was dropped. */
  lemma SnippetKeeps(text: string, at: nat, len: nat)
    requires at + len <= |text|
    ensures var e := at + len;
            var n := SuffixKept(text, e);
            var r := Snippet(text, at, len);
            text[at..e + n] <= r && (|r| > len + n <==> n < DotRun(text, e))
            && (n < DotRun(text, e) ==> r == text[at..e + n] + Ellipsis)
            && (n == DotRun(text, e) ==> r == text[at..e + n])
  {
    var e := at + len;
    var q := DotRun(text, e);
    var n := SuffixKept(text, e);
    SnippetShape(text, at, e, n, q, if n < q then Ellipsis else "");
  }

  /** The snippet's shape from plain numbers: the kept piece from `at` to `e + n`, then the
      ellipsis exactly when `n` falls short of the capture length `q`. */
  lemma SnippetShape(text: string, at: nat, e: nat, n: nat, q: nat, tail: string)
    requires at <= e && e + n <= |text| && n <= q <= Window
    requires tail == if n < q then Ellipsis else ""
    ensures text[at..e] <= text[at..e + n] + tail && text[at..e + n] <= text[at..e + n] + tail
    ensures |text[at..e + n] + tail| <= e - at + Window + |Ellipsis|
    ensures |text[at..e + n] + tail| > e - at + n <==> n < q
  {
  }

  /** The no-match fallback's trim of the first 100 code points: `$` also matches before a
      final line feed, so a trailing line feed goes, and then the last whitespace and
      everything after it. The result is a prefix of its input; it equals it exactly when
      there is no whitespace at all; otherwise the cut is at a whitespace after which only
      non-whitespace follows, apart from a final line feed. */
  function CleanTail(s: string): (r: string)
    ensures r <= s
  {
    if s != [] && s[|s| - 1] == '\n' then CutAtLastSpace(s[..|s| - 1]) else CutAtLastSpace(s)
  }

  /** The fallback trim keeps a string without whitespace whole; otherwise it stops at a
      whitespace after which only non-whitespace follows, apart from a final line feed. */
  lemma CleanTailCuts(s: string)
    ensures var r := CleanTail(s);
            (r == s <==> forall k :: 0 <= k < |s| ==> !IsSpace(s[k]))
            && (r != s ==> IsSpace(s[|r|])
                           && forall k :: |r| < k < |s| && !(k == |s| - 1 && s[k] == '\n') ==> !IsSpace(s[k]))
  {
    if s != [] && s[|s| - 1] == '\n' {
      CutAtLastSpaceCuts(s[..|s| - 1]);
    } else {
      CutAtLastSpaceCuts(s);
    }
  }

  /** `mb_substr($text, 0, 100)`: the first 100 code points, or the whole of a shorter
      text. */
  function FirstPart(text: string): (r: string)
    ensures r <= text
    ensures |text| <= FallbackLength ==> r == text
    ensures |text| > FallbackLength ==> |r| == FallbackLength
  {
    if |text| <= FallbackLength then text else text[..FallbackLength]
  }

  /** The no-match result: the first 100 code points, trimmed, and `"..."`, whatever the
      length of the text. */
  function Fallback(text: string): (r: string)
    ensures |Ellipsis| <= |r| <= FallbackLength + |Ellipsis|
    ensures r[..|r| - |Ellipsis|] <= FirstPart(text) && r[|r| - |Ellipsis|..] == Ellipsis
  {
    CleanTail(FirstPart(text)) + Ellipsis
  }

  /** What the fallback keeps of the first 100 code points: all of them when they hold no
      whitespace; otherwise everything before a whitespace after which only
      non-whitespace follows, apart from a final line feed. `"..."` always follows. */
  lemma FallbackCuts(text: string)
    ensures var first := FirstPart(text);
            var r := Fallback(text);
            var kept := r[..|r| - |Ellipsis|];
            r == kept + Ellipsis && kept <= first
            && (kept == first <==> forall k :: 0 <= k < |first| ==> !IsSpace(first[k]))
            && (kept != first ==>
                  IsSpace(first[|kept|])
                  && forall k :: |kept| < k < |first| && !(k == |first| - 1 && first[k] == '\n') ==> !IsSpace(first[k]))
  {
    var first := FirstPart(text);
    CleanTailCuts(first);
    assert Fallback(text)[..|Fallback(text)| - |Ellipsis|] == CleanTail(first);
  }

  /** The result for a keyword in a tag-stripped text: the snippet at the keyword that
      the regex match found, or the fallback when the keyword does not occur. */
  function SnippetOrFallback(text: string, kw: string, fold: char -> char): (r: string)
    ensures match FindMatch(text, kw, fold)
            case Some(m) =>
              var at := m.start + m.prefixLen;
              FoldedAt(text, at, kw, fold) && r == Snippet(text, at, |kw|)
            case None => r == Fallback(text)
  {
    match FindMatch(text, kw, fold)
    case Some(m) =>
      assert FoldedAt(text, m.start + m.prefixLen, kw, fold) by {
        MatchedKeyword(text, kw, fold);
      }
      Snippet(text, m.start + m.prefixLen, |kw|)
    case None => Fallback(text)
  }

  /** `highlight`: the value unchanged when there is no keyword parameter or the value is
      PHP-empty; otherwise the snippet at the regex match in the tag-stripped text, or the
      fallback when the keyword does not occur. */
  function Highlight(value: string, params: seq<string>, strip: string -> string, fold: char -> char): (r: string)
    ensures params == [] || EmptyString(value) ==> r == value
    ensures params != [] && !EmptyString(value) ==>
              var text := strip(value);
              var kw := params[0];
              match FindMatch(text, kw, fold)
              case Some(m) =>
                var at := m.start + m.prefixLen;
                FoldedAt(text, at, kw, fold) && r == Snippet(text, at, |kw|)
              case None => r == Fallback(text)
  {
    if params == [] || EmptyString(value) then value
    else SnippetOrFallback(strip(value), params[0], fold)
  }

  /** The keyword occurs, caselessly, right after the prefix capture of a match. */
  lemma MatchedKeyword(text: string, kw: string, fold: char -> char)
    requires FindMatch(text, kw, fold).Some?
    ensures var m := FindMatch(text, kw, fold).value;
            var at := m.start + m.prefixLen;
            at + |kw| <= |text| && FoldedAt(text, at, kw, fold)
  {
  }

  // ---------------------------------------------------------------------------
  // Findings

  /** Caseless comparison of ASCII letters; the example texts below are ASCII, where PCRE's
      caseless matching agrees with it. */
  function AsciiFold(c: char): (r: char)
    ensures 'A' <= c <= 'Z' ==> r == c - 'A' + 'a'
    ensures !('A' <= c <= 'Z') ==> r == c
  {
    if 'A' <= c <= 'Z' then c - 'A' + 'a' else c
  }

  /** The suffix trim drops the last word even when the suffix capture reached the end of
      the text, so nothing was cut: `"foo bar baz"` with keyword `"foo"` gives
      `"foo bar..."`. */
  lemma SuffixTrimAtEndOfText(text: string, kw: string)
    requires text == "foo bar baz" && kw == "foo"
    ensures Highlight(text, [kw], s => s, AsciiFold) == "foo bar..."
  {
    ExampleMatch(text, kw);
    ExampleSnippet(text);
  }

  /** In `"foo bar baz"` the keyword `"foo"` matches at the start with an empty prefix. */
  lemma ExampleMatch(text: string, kw: string)
    requires text == "foo bar baz" && kw == "foo"
    ensures FindMatch(text, kw, AsciiFold) == Some(Match(0, 0))
  {
    assert MatchAt(text, kw, AsciiFold, 0, 0) by {
      assert Dots(text, 0, 0);
    }
    var m := FindMatch(text, kw, AsciiFold).value;
    assert m.start == 0;
    var p := m.prefixLen;
    assert FoldedAt(text, p, kw, AsciiFold);
    assert AsciiFold(text[p]) == 'f';
    ExampleSingleF(text);
  }

  /** `"foo bar baz"` has no other `f`, in either case. */
  lemma ExampleSingleF(text: string)
    requires text == "foo bar baz"
    ensures forall k :: 0 < k < |text| ==> AsciiFold(text[k]) != 'f'
  {
  }

  /** The snippet after `"foo"` keeps `" bar"` of the capture `" bar baz"`. */
  lemma ExampleSnippet(text: string)
    requires text == "foo bar baz"
    ensures Snippet(text, 0, 3) == "foo bar..."
  {
    assert Dots(text, 3, 8) by {
      assert text[3] != '\n' && text[4] != '\n' && text[5] != '\n' && text[6] != '\n';
      assert text[7] != '\n' && text[8] != '\n' && text[9] != '\n' && text[10] != '\n';
    }
    assert DotRun(text, 3) == 8;
    var suffix := text[3..11];
    assert LastSpace(suffix) == Some(4) by {
      assert IsSpace(suffix[4]);
      assert !IsSpace(suffix[5]) && !IsSpace(suffix[6]) && !IsSpace(suffix[7]);
    }
    assert TrimSuffix(suffix) == suffix[..4];
  }

  /** The corrected suffix trim: the last word is dropped only when the suffix capture
      stopped inside a word, i.e. the code point after it exists and is not whitespace. */
  function SnippetCorrected(text: string, at: nat, len: nat): (r: string)
    requires at + len <= |text|
    ensures text[at..at + len] <= r
    ensures |r| <= len + Window + |Ellipsis|
  {
    var e := at + len;
    var q := DotRun(text, e);
    var n := SuffixKeptCorrected(text, e);
    var tail := if n < q then Ellipsis else "";
    SnippetShape(text, at, e, n, q, tail);
    text[at..e + n] + tail
  }

  /** How many code points of the suffix capture at `e` the corrected snippet keeps: all
      of them unless the capture stopped inside a word, and then what the trim keeps. */
  function SuffixKeptCorrected(text: string, e: nat): (n: nat)
    requires e <= |text|
    ensures n <= DotRun(text, e)
    ensures e + DotRun(text, e) == |text| || IsSpace(text[e + DotRun(text, e)]) ==> n == DotRun(text, e)
  {
    var q := DotRun(text, e);
    if e + q < |text| && !IsSpace(text[e + q]) then SuffixKept(text, e) else q
  }

  /** With the corrected trim, a suffix capture that reaches the end of the text, a line
      feed or whitespace is emitted whole and without `"..."`. */
  lemma SnippetCorrectedKeepsWhole(text: string, at: nat, len: nat)
    requires at + len <= |text|
    ensures var e := at + len;
            var q := DotRun(text, e);
            (e + q == |text| || IsSpace(text[e + q])) ==>
              SnippetCorrected(text, at, len) == text[at..e + q]
  {
    var e := at + len;
    var q := DotRun(text, e);
    if e + q == |text| || IsSpace(text[e + q]) {
      SnippetCorrectedShape(text, at, len);
    }
  }

  /** The corrected snippet from plain numbers: the piece up to the kept part of the
      suffix capture, then the ellipsis exactly when part of the capture was dropped. */
  lemma SnippetCorrectedShape(text: string, at: nat, len: nat)
    requires at + len <= |text|
    ensures var e := at + len;
            var n := SuffixKeptCorrected(text, e);
            SnippetCorrected(text, at, len) == text[at..e + n] + (if n < DotRun(text, e) then Ellipsis else "")
  {
  }

  /** With the corrected trim, code points are dropped only from a word that continues
      past the capture. */
  lemma SnippetCorrectedDropsOnlyCutWords(text: string, at: nat, len: nat)
    requires at + len <= |text|
    ensures var e := at + len;
            var q := DotRun(text, e);
            var r := SnippetCorrected(text, at, len);
            |r| < len + q ==> e + q < |text| && !IsSpace(text[e + q])
  {
    SnippetCorrectedKeepsWhole(text, at, len);
  }

  /** The no-match fallback drops the last word and appends `"..."` even when the whole
      text is shorter than 100 code points: `"The quick brown fox jumps"` gives
      `"The quick brown fox..."`. */
  lemma FallbackOnShortText(text: string)
    requires text == "The quick brown fox jumps"
    ensures Fallback(text) == "The quick brown fox..."
  {
    var w := 19;
    assert IsSpace(text[w]);
    assert forall k :: w < k < |text| ==> !IsSpace(text[k]) by {
      assert text[20..] == "jumps";
    }
    LastSpaceAt(text, w);
    FallbackCutsLastWord(text, w);
    assert text[..w] == "The quick brown fox";
  }

  /** The last whitespace is at `w` when `w` holds whitespace and nothing after it does. */
  lemma LastSpaceAt(s: string, w: nat)
    requires w < |s| && IsSpace(s[w]) && forall k :: w < k < |s| ==> !IsSpace(s[k])
    ensures LastSpace(s) == Some(w)
  {
    var r := LastSpace(s);
    assert r.Some?;
    assert !(r.value < w) && !(w < r.value);
  }

  /** When the first 100 code points of a text do not end in a line feed and their last
      whitespace is at `w`, the fallback is everything before `w`, and `"..."`, whatever
      the length of the text. */
  lemma FallbackCutsLastWord(text: string, w: nat)
    requires FirstPart(text) != [] && FirstPart(text)[|FirstPart(text)| - 1] != '\n'
    requires LastSpace(FirstPart(text)) == Some(w)
    ensures Fallback(text) == text[..w] + Ellipsis
  {
    var first := FirstPart(text);
    assert CutAtLastSpace(first) == first[..w];
    assert CleanTail(first) == first[..w];
    assert first[..w] == text[..w];
    assert Fallback(text) == CleanTail(first) + Ellipsis;
  }

  /** The corrected fallback: a text of at most 100 code points is returned whole. */
  function FallbackCorrected(text: string): (r: string)
    ensures |text| <= FallbackLength ==> r == text
    ensures |text| > FallbackLength ==>
              |Ellipsis| <= |r| && r[..|r| - |Ellipsis|] <= text[..FallbackLength]
  {
    if |text| <= FallbackLength then text
    else CleanTail(text[..FallbackLength]) + Ellipsis
  }

  /** `highlight` with both corrections: a snippet whose suffix loses only a word cut by
      the capture, and a fallback that keeps a short text whole. */
  function HighlightCorrected(value: string, params: seq<string>, strip: string -> string, fold: char -> char): (r: string)
    ensures params == [] || EmptyString(value) ==> r == value
    ensures params != [] && !EmptyString(value) ==>
              var text := strip(value);
              var kw := params[0];
              match FindMatch(text, kw, fold)
              case Some(m) =>
                var at := m.start + m.prefixLen;
                FoldedAt(text, at, kw, fold) && text[at..at + |kw|] <= r && |r| <= |kw| + Window + |Ellipsis|
              case None => |text| <= FallbackLength ==> r == text
  {
    if params == [] || EmptyString(value) then value
    else
      var text := strip(value);
      var kw := params[0];
      match FindMatch(text, kw, fold)
      case Some(m) =>
        MatchedKeyword(text, kw, fold);
        SnippetCorrected(text, m.start + m.prefixLen, |kw|)
      case None => FallbackCorrected(text)
  }
}

=== FILE: lightbox.dfy ===
/** The image lightbox's own logic: the caption shown under a slide (a position counter,
    then the caption text taken from the first source that has one) and the backdrop's
    background class, taken from the element that opened the slide. */
module Lightbox {
  import opened Optional
  import opened Text

  // ---------------------------------------------------------------------------
  // Captions

  /** The element a slide was opened from: its `data-caption` and `data-bg-color`
      attributes, when present, and its class list. */
  datatype Trigger = Trigger(dataCaption: Option<string>, dataBgColor: Option<string>, classes: seq<string>)

  /** A slide: its zero-based position, its own caption (`''` when it has none), the
      element that opened it, if any, and its source, if any. */
  datatype Slide = Slide(index: nat, caption: string, trigger: Option<Trigger>, src: Option<string>)

  /** The open lightbox: the number of carousel slides when there is a carousel, and the
      number of items when the item list exists. */
  datatype Gallery = Gallery(carouselSlides: Option<nat>, items: Option<nat>)

  /** `fancybox.carousel ? fancybox.carousel.slides.length : fancybox.items?.length || 0`. */
  function TotalSlides(g: Gallery): (r: nat)
    ensures g.carouselSlides.Some? ==> r == g.carouselSlides.value
    ensures g.carouselSlides.None? && g.items.Some? ==> r == g.items.value
    ensures g.carouselSlides.None? && g.items.None? ==> r == 0
  {
    match g.carouselSlides
    case Some(n) => n
    case None => g.items.GetOr(0)
  }

  /** What announces a caption inside a slide's source markup. */
  const Marker: string := "data-caption=\""

  /** The caption embedded in a source: when the source mentions `data-caption`, the text
      after the first `data-caption="` up to the next `"`; otherwise `''`. */
  function SrcCaption(src: string): (r: string)
    ensures !Contains(r, "\"")
    ensures !Contains(src, "data-caption") ==> r == ""
  {
    if !Contains(src, "data-caption") then ""
    else
      var parts := Split(src, Marker);
      if |parts| < 2 then "" else Split(parts[1], "\"")[0]
  }

  /** The caption text in priority order: the slide's own caption when non-empty; else,
      for a slide opened from an element, that element's `data-caption` (or `''`), the
      source not being consulted; else the caption embedded in the source. */
  function OriginalCaption(slide: Slide): (r: string)
    ensures slide.caption != "" ==> r == slide.caption
    ensures slide.caption == "" && slide.trigger.Some? ==> r == slide.trigger.value.dataCaption.GetOr("")
    ensures slide.caption == "" && slide.trigger.None? && slide.src.None? ==> r == ""
    ensures slide.caption == "" && slide.trigger.None? && slide.src.Some? ==> r == SrcCaption(slide.src.value)
  {
    if slide.caption != "" then slide.caption
    else match slide.trigger
      case Some(t) => t.dataCaption.GetOr("")
      case None =>
        match slide.src
        case Some(src) => SrcCaption(src)
        case None => ""
  }

  /** The counter line: the slide's one-based position over the number of slides. */
  function Counter(g: Gallery, slide: Slide): string {
    "<div>" + Decimal(slide.index + 1) + "/" + Decimal(TotalSlides(g)) + "</div>"
  }

  /** The `caption` callback: the counter, followed by a second block holding the caption
      text unless that is empty. */
  function Caption(g: Gallery, slide: Slide): (r: string)
    ensures StartsWith(r, Counter(g, slide))
    ensures r == Counter(g, slide) <==> OriginalCaption(slide) == ""
    ensures OriginalCaption(slide) != "" ==> r[|Counter(g, slide)|..] == "<div>" + OriginalCaption(slide) + "</div>"
  {
    var counter := Counter(g, slide);
    var original := OriginalCaption(slide);
    if original == "" then counter
    else
      var r := counter + ("<div>" + original + "</div>");
      assert r[|counter|..] == "<div>" + original + "</div>";
      r
  }

  /** Two slides at the same position of the same gallery get the same caption block only
      when their caption texts agree: the text can be read back from the block. */
  lemma CaptionDeterminesText(g: Gallery, a: Slide, b: Slide)
    requires a.index == b.index
    requires Caption(g, a) == Caption(g, b)
    ensures OriginalCaption(a) == OriginalCaption(b)
  {
    var counter := Counter(g, a);
    assert counter == Counter(g, b);
    var ca, cb := OriginalCaption(a), OriginalCaption(b);
    if ca != "" && cb != "" {
      var rest := Caption(g, a)[|counter|..];
      assert rest == "<div>" + ca + "</div>" == "<div>" + cb + "</div>";
      assert ca == rest[5..|rest| - 6];
      assert cb == rest[5..|rest| - 6];
    }
  }

  /** `s` ends with `t`. */
  predicate EndsWith(s: string, t: string) {
    |t| <= |s| && s[|s| - |t|..] == t
  }

  /** A source holding `data-caption="…"` yields the caption between the quotes, provided
      the attribute is the first one in the source and the caption neither contains a
      quote nor ends in `data-caption=`. */
  lemma SrcCaptionExtracts(before: string, c: string, after: string)
    requires !Contains(before, Marker)
    requires forall k :: 0 <= k < |c| ==> c[k] != '"'
    requires !EndsWith(c, "data-caption=")
    ensures SrcCaption(before + Marker + c + "\"" + after) == c
  {
    var src := before + Marker + c + "\"" + after;
    var n := |before|;
    assert src[n..n + |Marker|] == Marker;
    assert OccursAt(src, n, "data-caption");
    var rest := c + "\"" + after;
    assert src == before + Marker + rest;
    FirstMarker(before, rest);
    assert src[n + |Marker|..] == rest;
    assert src[..n] == before;
    assert Split(src, Marker) == [src[..n]] + Split(src[n + |Marker|..], Marker);
    var piece := Split(rest, Marker)[0];
    PieceKeepsCaption(c, after);
    assert piece[..|c| + 1] == c + "\"";
    FirstQuote(c, piece);
  }

  /** In `before + Marker + rest` with no marker inside `before`, the first marker is the
      one after `before`: the marker cannot overlap itself, since its first letter `d`
      occurs nowhere else in it. */
  lemma FirstMarker(before: string, rest: string)
    requires !Contains(before, Marker)
    ensures FindFrom(before + Marker + rest, Marker, 0) == |before|
  {
    var src := before + Marker + rest;
    var n := |before|;
    assert src[n..n + |Marker|] == Marker;
    forall k | 0 <= k < n
      ensures !OccursAt(src, k, Marker)
    {
      if k + |Marker| <= |src| {
        if k + |Marker| <= n {
          assert src[k..k + |Marker|] == before[k..k + |Marker|];
          assert !OccursAt(before, k, Marker);
        } else {
          assert src[n] == 'd';
          assert src[k..k + |Marker|][n - k] == 'd';
          assert Marker[n - k] != 'd';
        }
      }
    }
    FindFromFirst(src, Marker, n);
  }

  /** The piece that `split` cuts after the marker still holds the whole caption and its
      closing quote. */
  lemma PieceKeepsCaption(c: string, after: string)
    requires forall k :: 0 <= k < |c| ==> c[k] != '"'
    requires !EndsWith(c, "data-caption=")
    ensures var rest := c + "\"" + after;
            var piece := Split(rest, Marker)[0];
            |c| < |piece| && piece[..|c| + 1] == c + "\""
  {
    var rest := c + "\"" + after;
    var q := FindFrom(rest, Marker, 0);
    forall k | 0 <= k <= |c|
      ensures !OccursAt(rest, k, Marker)
    {
      if k + |Marker| <= |rest| {
        var w := rest[k..k + |Marker|];
        if k + 13 < |c| {
          assert w[13] == c[k + 13];
          assert w[13] != Marker[13];
        } else if k + 13 == |c| {
          assert w[..13] == c[|c| - 13..];
          assert w[..13] != Marker[..13];
        } else {
          assert w[|c| - k] == rest[|c|] == '"';
          assert w[|c| - k] != Marker[|c| - k];
        }
      }
    }
    assert q == -1 || q > |c|;
    if q != -1 {
      assert rest[..q][..|c| + 1] == rest[..|c| + 1];
    }
    assert rest[..|c| + 1] == c + "\"";
  }

  /** Splitting on quotes a string that starts with a quote-free `c` and a quote gives `c`
      first. */
  lemma FirstQuote(c: string, piece: string)
    requires forall k :: 0 <= k < |c| ==> c[k] != '"'
    requires |c| < |piece| && piece[..|c| + 1] == c + "\""
    ensures Split(piece, "\"")[0] == c
  {
    assert piece[|c|..|c| + 1] == "\"";
    forall k | 0 <= k < |c|
      ensures !OccursAt(piece, k, "\"")
    {
      assert piece[k..k + 1][0] == c[k];
    }
    FindFromFirst(piece, "\"", |c|);
    assert piece[..|c|] == c;
  }

  // ---------------------------------------------------------------------------
  // Backdrop colour

  /** `getBgColorFromClasses`: the first class starting with `bg-`, if any. */
  function BgColorFromClasses(classes: seq<string>): (r: Option<string>)
    ensures r.Some? ==> exists i :: 0 <= i < |classes| && classes[i] == r.value && StartsWith(r.value, "bg-")
                                    && forall k :: 0 <= k < i ==> !StartsWith(classes[k], "bg-")
    ensures r.None? <==> forall k :: 0 <= k < |classes| ==> !StartsWith(classes[k], "bg-")
  {
    if classes == [] then None
    else if StartsWith(classes[0], "bg-") then Some(classes[0])
    else
      var r := BgColorFromClasses(classes[1..]);
      assert forall k :: 1 <= k < |classes| ==> classes[k] == classes[1..][k - 1];
      if r.Some? then
        var i :| 0 <= i < |classes[1..]| && classes[1..][i] == r.value && StartsWith(r.value, "bg-")
                 && forall k :: 0 <= k < i ==> !StartsWith(classes[1..][k], "bg-");
        assert classes[i + 1] == r.value;
        r
      else r
  }

  /** The class to give the backdrop: the trigger's non-empty `data-bg-color`, else its
      first `bg-` class. */
  function BackdropColor(t: Trigger): (r: Option<string>)
    ensures t.dataBgColor.Some? && t.dataBgColor.value != "" ==> r == t.dataBgColor
    ensures r.Some? ==> r.value != "" && (r == t.dataBgColor || r.value in t.classes)
    ensures t.dataBgColor.None? || t.dataBgColor.value == "" ==> r == BgColorFromClasses(t.classes)
    ensures r.None? ==> forall k :: 0 <= k < |t.classes| ==> !StartsWith(t.classes[k], "bg-")
  {
    match t.dataBgColor
    case Some(c) => if c != "" then Some(c) else BgColorFromClasses(t.classes)
    case None => BgColorFromClasses(t.classes)
  }

  /** A regular-expression word character (`\w` without the Unicode flag). */
  predicate IsWordChar(c: char) {
    ('a' <= c <= 'z') || ('A' <= c <= 'Z') || ('0' <= c <= '9') || c == '_'
  }

  /** `\bbg-\w+` can match at `i`: a word boundary, `bg-`, then a word character. */
  predicate BgAt(s: string, i: nat) {
    i + 4 <= |s| && s[i] == 'b' && s[i + 1] == 'g' && s[i + 2] == '-' && IsWordChar(s[i + 3])
    && (i == 0 || !IsWordChar(s[i - 1]))
  }

  /** The end of the run of word characters starting at `j`. */
  function WordEnd(s: string, j: nat): (e: nat)
    requires j <= |s|
    ensures j <= e <= |s|
    ensures forall k :: j <= k < e ==> IsWordChar(s[k])
    ensures e == |s| || !IsWordChar(s[e])
    decreases |s| - j
  {
    if j < |s| && IsWordChar(s[j]) then WordEnd(s, j + 1) else j
  }

  /** `s.replace(/\bbg-\w+/g, '')` from position `i` on: each match, found left to right,
      removed together with its whole run of word characters. */
  function StripFrom(s: string, i: nat): (r: string)
    requires i <= |s|
    ensures |r| <= |s| - i
    decreases |s| - i
  {
    if i == |s| then ""
    else if BgAt(s, i) then StripFrom(s, WordEnd(s, i + 3))
    else [s[i]] + StripFrom(s, i + 1)
  }

  /** The backdrop's class attribute with every `bg-` colour class removed. */
  function StripBgClasses(s: string): (r: string)
    ensures |r| <= |s|
    ensures (forall j: nat :: j < |s| ==> !BgAt(s, j)) ==> r == s
    ensures forall j: nat :: !BgAt(r, j)
  {
    StripBgClassesClean(s);
    StripUnchangedIff(s, 0);
    StripFrom(s, 0)
  }

  /** Between matches the rewrite keeps the text as it is: when no match starts in
      `s[i..j]`, the kept text from `i` is that piece followed by the kept text from `j`. */
  lemma {:induction false} StripFromKeeps(s: string, i: nat, j: nat)
    requires i <= j <= |s|
    requires forall k: nat :: i <= k < j ==> !BgAt(s, k)
    ensures StripFrom(s, i) == s[i..j] + StripFrom(s, j)
    decreases j - i
  {
    if i < j {
      StripFromKept(s, i);
      StripFromKeeps(s, i + 1, j);
      SliceCons(s, i, j, StripFrom(s, j));
    }
  }

  /** Where no match starts, the character is kept and the rewrite goes on after it. */
  lemma StripFromKept(s: string, i: nat)
    requires i < |s| && !BgAt(s, i)
    ensures StripFrom(s, i) == [s[i]] + StripFrom(s, i + 1)
  {
  }

  /** A piece of a string is its first character and the rest of the piece. */
  lemma SliceCons(s: string, i: nat, j: nat, rest: string)
    requires i < j <= |s|
    ensures [s[i]] + (s[i + 1..j] + rest) == s[i..j] + rest
  {
    assert s[i..j] == [s[i]] + s[i + 1..j];
  }

  /** A match is removed together with its whole run of word characters, and nothing
      else: the kept text from the match is the kept text from the end of that run. */
  lemma StripFromDrops(s: string, i: nat)
    requires i <= |s| && BgAt(s, i)
    ensures var e := WordEnd(s, i + 3);
            i + 4 <= e && StripFrom(s, i) == StripFrom(s, e)
            && forall k :: i + 3 <= k < e ==> IsWordChar(s[k])
  {
  }

  /** Whether the character just before position `i` is a word character. */
  predicate LeftWord(s: string, i: nat)
    requires i <= |s|
  {
    i > 0 && IsWordChar(s[i - 1])
  }

  /** The first character kept from position `i` on: `s[i]` itself unless a match starts
      there, and never a word character after a match. */
  lemma FirstKept(s: string, i: nat)
    requires i < |s| && StripFrom(s, i) != []
    ensures !BgAt(s, i) ==> StripFrom(s, i)[0] == s[i]
    ensures BgAt(s, i) ==> !IsWordChar(StripFrom(s, i)[0])
  {
    if BgAt(s, i) {
      var e := WordEnd(s, i + 3);
      assert e < |s|;
      assert !BgAt(s, e);
    }
  }

  /** `bg-` followed by a word character at `j` of `t`, with a word boundary before it;
      `leftWord` says whether the character just left of `t` is a word character. */
  predicate MatchIn(t: string, j: nat, leftWord: bool) {
    j + 4 <= |t| && t[j] == 'b' && t[j + 1] == 'g' && t[j + 2] == '-' && IsWordChar(t[j + 3])
    && (if j == 0 then !leftWord else !IsWordChar(t[j - 1]))
  }

  /** If the kept text from `i` spells a match at its start, the original text has a match
      at `i`. */
  lemma KeptMatchIsOriginal(s: string, i: nat)
    requires i < |s|
    ensures MatchIn([s[i]] + StripFrom(s, i + 1), 0, LeftWord(s, i)) ==> BgAt(s, i)
  {
    var r1 := StripFrom(s, i + 1);
    if MatchIn([s[i]] + r1, 0, LeftWord(s, i)) {
      assert |r1| >= 3 && r1[0] == 'g' && r1[1] == '-' && IsWordChar(r1[2]) by {
        var t := [s[i]] + r1;
        assert t[1] == r1[0] && t[2] == r1[1] && t[3] == r1[2];
      }
      KeptAt(s, i + 1, 'g');
      var r2 := StripFrom(s, i + 2);
      assert r2 == r1[1..];
      KeptAt(s, i + 2, '-');
      var r3 := StripFrom(s, i + 3);
      assert r3 == r2[1..];
      KeptAt(s, i + 3, r1[2]);
    }
  }

  /** A kept character `c` at the front of the kept text from `j` is `s[j]` itself, kept
      without a removal, when `c` is a word character or a word character precedes `j`:
      a match can start at neither. */
  lemma KeptAt(s: string, j: nat, c: char)
    requires j <= |s| && StripFrom(s, j) != [] && StripFrom(s, j)[0] == c
    requires IsWordChar(c) || LeftWord(s, j)
    ensures j < |s| && s[j] == c && StripFrom(s, j) == [s[j]] + StripFrom(s, j + 1)
  {
    assert j < |s|;
    FirstKept(s, j);
    assert !BgAt(s, j);
  }

  /** Nothing the rewrite would remove survives in the kept text from `i` on, given what
      is left of it. */
  lemma {:induction false} StripFromClean(s: string, i: nat)
    requires i <= |s|
    ensures forall j: nat :: !MatchIn(StripFrom(s, i), j, LeftWord(s, i))
    decreases |s| - i
  {
    var r := StripFrom(s, i);
    var lw := LeftWord(s, i);
    if i < |s| {
      if BgAt(s, i) {
        var e := WordEnd(s, i + 3);
        assert r == StripFrom(s, e);
        StripFromClean(s, e);
        assert LeftWord(s, e);
        if r != [] {
          FirstKept(s, e);
        }
        forall j: nat
          ensures !MatchIn(r, j, lw)
        {
          if j > 0 {
            assert MatchIn(r, j, lw) == MatchIn(r, j, LeftWord(s, e));
          }
        }
      } else {
        var rest := StripFrom(s, i + 1);
        StripFromClean(s, i + 1);
        assert r == [s[i]] + rest;
        KeptMatchIsOriginal(s, i);
        forall j: nat
          ensures !MatchIn(r, j, lw)
        {
          if j > 0 && j + 4 <= |r| {
            assert r[j..j + 4] == rest[j - 1..j + 3];
            assert r[j - 1] == if j == 1 then s[i] else rest[j - 2];
            assert MatchIn(r, j, lw) == MatchIn(rest, j - 1, LeftWord(s, i + 1));
          }
        }
      }
    }
  }

  /** After the rewrite no `bg-` colour class is left to match. */
  lemma StripBgClassesClean(s: string)
    ensures forall j: nat :: !BgAt(StripFrom(s, 0), j)
  {
    StripFromClean(s, 0);
    assert !LeftWord(s, 0);
    forall j: nat
      ensures !BgAt(StripFrom(s, 0), j)
    {
      assert !MatchIn(StripFrom(s, 0), j, LeftWord(s, 0));
    }
  }

  /** The rewrite changes the class attribute exactly when it holds a `bg-` colour
      class. */
  lemma {:induction false} StripUnchangedIff(s: string, i: nat)
    requires i <= |s|
    ensures StripFrom(s, i) == s[i..] <==> forall j: nat :: i <= j < |s| ==> !BgAt(s, j)
    decreases |s| - i
  {
    if i < |s| {
      StripUnchangedIff(s, i + 1);
      if BgAt(s, i) {
        var e := WordEnd(s, i + 3);
        assert |StripFrom(s, e)| <= |s| - e;
        assert |StripFrom(s, i)| < |s[i..]|;
      } else {
        var rest := StripFrom(s, i + 1);
        assert StripFrom(s, i) == [s[i]] + rest;
        assert s[i..] == [s[i]] + s[i + 1..];
        assert ([s[i]] + rest == [s[i]] + s[i + 1..]) <==> rest == s[i + 1..] by {
          if [s[i]] + rest == [s[i]] + s[i + 1..] {
            assert rest == ([s[i]] + rest)[1..];
          }
        }
      }
    }
  }

  /** What `updateBackdropColor` does to the backdrop's classes. */
  datatype Backdrop = Unchanged | Recoloured(className: string, added: Option<string>)

  /** `updateBackdropColor`, given the class attribute of the `.fancybox__backdrop`
      element when there is one: only when the backdrop exists and the current slide was
      opened from an element, every `bg-` colour class is removed from the backdrop and
      the trigger's colour, if it has one, is added. */
  function UpdateBackdrop(backdrop: Option<string>, current: Option<Slide>): (r: Backdrop)
    ensures backdrop.None? || current.None? || current.value.trigger.None? ==> r == Unchanged
    ensures backdrop.Some? && current.Some? && current.value.trigger.Some? ==>
              r.Recoloured? && r.className == StripBgClasses(backdrop.value)
    ensures r.Recoloured? ==> forall j: nat :: !BgAt(r.className, j)
    ensures r.Recoloured? ==> r.added == BackdropColor(current.value.trigger.value)
  {
    match backdrop
    case None => Unchanged
    case Some(className) =>
      match current
      case None => Unchanged
      case Some(slide) =>
        match slide.trigger
        case None => Unchanged
        case Some(t) => Recoloured(StripBgClasses(className), BackdropColor(t))
  }
}

=== FILE: masonry.dfy ===
/** The masonry layout: how many columns fit the container, where each item goes
    (the shortest column, leftmost on ties, stacked below what is already there), how
    tall the container becomes, and the registry of laid-out containers with its single
    shared resize listener. Widths and heights are whole pixels; the fractional column
    width and the horizontal offset are not modelled. */
module Masonry {
  import opened Optional

  // ---------------------------------------------------------------------------
  // Column count

  /** The `maxColumns` option: a number, or `Infinity`. */
  datatype Limit = AtMost(n: int) | Unlimited

  /** Whole slots of width `slot` fit into `width` exactly up to `width / slot`. */
  lemma SlotsFit(width: nat, slot: nat, r: int)
    requires slot > 0 && r >= 1
    ensures r <= width / slot ==> r * slot <= width
    ensures width / slot < r ==> width < r * slot
  {
    var q := width / slot;
    assert width == q * slot + width % slot;
    if r <= q {
      MulMonotone(r, q, slot);
    } else {
      MulMonotone(q + 1, r, slot);
    }
  }

  lemma MulMonotone(a: int, b: int, c: nat)
    requires a <= b
    ensures a * c <= b * c
  {
    assert b * c == a * c + (b - a) * c;
  }

  /** `Math.min(maxColumns, Math.max(1, Math.floor(width / (minColumnWidth + gutter))))`.
      Unless capped by `maxColumns`, it is the largest number of `minColumnWidth + gutter`
      slots that fit the container, and never less than one. */
  function ColumnCount(width: nat, minColumnWidth: nat, gutter: nat, maxColumns: Limit): (r: int)
    requires minColumnWidth + gutter > 0
    ensures maxColumns.Unlimited? || maxColumns.n >= 1 ==> r >= 1
    ensures maxColumns.AtMost? ==> r <= maxColumns.n
    ensures r >= 2 ==> r * (minColumnWidth + gutter) <= width
    ensures maxColumns.Unlimited? || r < maxColumns.n ==> width < (r + 1) * (minColumnWidth + gutter)
  {
    var slot := minColumnWidth + gutter;
    var fit := width / slot;
    var atLeastOne := if fit < 1 then 1 else fit;
    var r := match maxColumns
             case Unlimited => atLeastOne
             case AtMost(n) => if n < atLeastOne then n else atLeastOne;
    if r >= 1 then SlotsFit(width, slot, r); SlotsFit(width, slot, r + 1); r else r
  }

  // ---------------------------------------------------------------------------
  // Placement

  /** `columnHeights.indexOf(Math.min(...columnHeights))`: the leftmost column among
      those of least height. */
  function ShortestColumn(heights: seq<int>): (r: nat)
    requires |heights| >= 1
    ensures r < |heights|
    ensures forall k :: 0 <= k < |heights| ==> heights[r] <= heights[k]
    ensures forall k :: 0 <= k < r ==> heights[r] < heights[k]
  {
    ShortestFrom(heights, 1, 0)
  }

  /** The leftmost shortest column, having seen the columns before `i`, of which `best`
      is the leftmost shortest. */
  function ShortestFrom(heights: seq<int>, i: nat, best: nat): (r: nat)
    requires best < i <= |heights|
    requires forall k :: 0 <= k < i ==> heights[best] <= heights[k]
    requires forall k :: 0 <= k < best ==> heights[best] < heights[k]
    ensures r < |heights|
    ensures forall k :: 0 <= k < |heights| ==> heights[r] <= heights[k]
    ensures forall k :: 0 <= k < r ==> heights[r] < heights[k]
    decreases |heights| - i
  {
    if i == |heights| then best
    else if heights[i] < heights[best] then ShortestFrom(heights, i + 1, i)
    else ShortestFrom(heights, i + 1, best)
  }

  /** `Math.max(...columnHeights)`: the height of the tallest column. */
  function Tallest(heights: seq<int>): (r: int)
    requires |heights| >= 1
    ensures r in heights
    ensures forall k :: 0 <= k < |heights| ==> heights[k] <= r
  {
    if |heights| == 1 then heights[0]
    else
      var rest := Tallest(heights[1..]);
      assert forall k :: 1 <= k < |heights| ==> heights[k] == heights[1..][k - 1];
      if heights[0] < rest then rest else heights[0]
  }

  /** The sum of a list of heights. */
  function Sum(s: seq<int>): int {
    if s == [] then 0 else s[0] + Sum(s[1..])
  }

  lemma {:induction false} SumUpdate(s: seq<int>, c: nat, v: int)
    requires c < |s|
    ensures Sum(s[c := v]) == Sum(s) - s[c] + v
  {
    if c == 0 {
      assert s[c := v][1..] == s[1..];
    } else {
      assert s[c := v][1..] == s[1..][c - 1 := v];
      SumUpdate(s[1..], c - 1, v);
    }
  }

  /** Where an item lands: its column and its top edge. */
  datatype Placement = Placement(column: nat, y: int)

  /** One step of the `items.forEach` loop: the item goes into the leftmost shortest column,
      at that column's current height, and only that column grows, by the item's height
      plus the gutter. */
  function Place(heights: seq<int>, item: nat, gutter: nat): (r: (Placement, seq<int>))
    requires |heights| >= 1
    ensures r.0.column < |heights| && r.0.y == heights[r.0.column]
    ensures forall k :: 0 <= k < |heights| ==> r.0.y <= heights[k]
    ensures forall k :: 0 <= k < r.0.column ==> r.0.y < heights[k]
    ensures |r.1| == |heights| && r.1[r.0.column] == r.0.y + item + gutter
    ensures forall k :: 0 <= k < |heights| && k != r.0.column ==> r.1[k] == heights[k]
    ensures Sum(r.1) == Sum(heights) + item + gutter
  {
    var c := ShortestColumn(heights);
    SumUpdate(heights, c, heights[c] + item + gutter);
    (Placement(c, heights[c]), heights[c := heights[c] + item + gutter])
  }

  /** Every column of `final` is at least as tall as the same column of `heights`. */
  predicate Grown(heights: seq<int>, final: seq<int>) {
    |final| == |heights| && forall k :: 0 <= k < |heights| ==> heights[k] <= final[k]
  }

  /** Every placed item, with its gutter, ends inside its column of `final`. */
  predicate Inside(placements: seq<Placement>, items: seq<nat>, gutter: nat, final: seq<int>)
    requires |placements| == |items|
  {
    forall i :: 0 <= i < |items| ==>
      placements[i].column < |final| && placements[i].y + items[i] + gutter <= final[placements[i].column]
  }

  /** No column has a negative height. */
  predicate NonNegative(heights: seq<int>) {
    forall k :: 0 <= k < |heights| ==> heights[k] >= 0
  }

  /** No item is placed above the top of the container. */
  predicate BelowTop(placements: seq<Placement>) {
    forall i :: 0 <= i < |placements| ==> placements[i].y >= 0
  }

  /** The remaining items placed in document order, starting from the given column
      heights; the placements and the final heights. Columns only grow, the total height
      grows by exactly the items and their gutters, and every item ends inside its
      column. */
  function PlaceAll(heights: seq<int>, items: seq<nat>, gutter: nat): (r: (seq<Placement>, seq<int>))
    requires |heights| >= 1
    ensures |r.0| == |items| && Grown(heights, r.1)
    ensures Sum(r.1) == Sum(heights) + Sum(items) + |items| * gutter
    ensures Inside(r.0, items, gutter, r.1)
    ensures NonNegative(heights) ==> BelowTop(r.0)
    decreases |items|
  {
    if items == [] then ([], heights)
    else
      var step := Place(heights, items[0], gutter);
      var rest := PlaceAll(step.1, items[1..], gutter);
      PlaceAllStep(heights, items, gutter, step.0, step.1, rest.0, rest.1);
      ([step.0] + rest.0, rest.1)
  }

  /** The first item placed by `Place` in front of the rest placed from the heights it
      leaves: the contract of `PlaceAll` carries over to the whole list. */
  lemma PlaceAllStep(heights: seq<int>, items: seq<nat>, gutter: nat, p: Placement, next: seq<int>,
                     rest: seq<Placement>, final: seq<int>)
    requires items != [] && p.column < |heights| && p.y == heights[p.column]
    requires Grown(heights, next) && next[p.column] == p.y + items[0] + gutter
    requires Sum(next) == Sum(heights) + items[0] + gutter
    requires |rest| == |items| - 1 && Grown(next, final)
    requires Sum(final) == Sum(next) + Sum(items[1..]) + (|items| - 1) * gutter
    requires Inside(rest, items[1..], gutter, final)
    requires NonNegative(next) ==> BelowTop(rest)
    ensures |[p] + rest| == |items| && Grown(heights, final)
    ensures Sum(final) == Sum(heights) + Sum(items) + |items| * gutter
    ensures Inside([p] + rest, items, gutter, final)
    ensures NonNegative(heights) ==> BelowTop([p] + rest)
  {
    StepSum(items, gutter);
    StepInside(items, gutter, p, rest, final);
    if NonNegative(heights) {
      assert NonNegative(next);
      StepBelowTop(p, rest);
    }
  }

  /** The items' sum with their gutters splits into the first item and the rest. */
  lemma StepSum(items: seq<nat>, gutter: nat)
    requires items != []
    ensures Sum(items) + |items| * gutter == items[0] + gutter + Sum(items[1..]) + (|items| - 1) * gutter
  {
    assert Sum(items) == items[0] + Sum(items[1..]);
    assert (|items| - 1) * gutter + gutter == |items| * gutter;
  }

  /** The first item inside its column, and the rest inside theirs, put every item inside. */
  lemma StepInside(items: seq<nat>, gutter: nat, p: Placement, rest: seq<Placement>, final: seq<int>)
    requires items != [] && |rest| == |items| - 1
    requires p.column < |final| && p.y + items[0] + gutter <= final[p.column]
    requires Inside(rest, items[1..], gutter, final)
    ensures Inside([p] + rest, items, gutter, final)
  {
    var ps := [p] + rest;
    forall i | 1 <= i < |items|
      ensures ps[i].column < |final| && ps[i].y + items[i] + gutter <= final[ps[i].column]
    {
      assert ps[i] == rest[i - 1] && items[i] == items[1..][i - 1];
    }
  }

  /** An item below the top in front of others below the top. */
  lemma StepBelowTop(p: Placement, rest: seq<Placement>)
    requires p.y >= 0 && BelowTop(rest)
    ensures BelowTop([p] + rest)
  {
    assert forall i :: 1 <= i < |rest| + 1 ==> ([p] + rest)[i] == rest[i - 1];
  }

  /** The result of `layoutMasonryResponsive`: every item's placement, the final column
      heights, and the container height. */
  datatype Layout = Layout(placements: seq<Placement>, heights: seq<int>, containerHeight: int)

  /** `layoutMasonryResponsive`: the column count from the container width, all columns
      starting at 0, the items placed in document order, the container as tall as the
      tallest column. Every item lies inside the container, and the columns together are
      exactly as tall as the items and their gutters. */
  function LayoutMasonry(width: nat, items: seq<nat>, minColumnWidth: nat, gutter: nat, maxColumns: Limit): (r: Layout)
    requires minColumnWidth + gutter > 0
    requires maxColumns.AtMost? ==> maxColumns.n >= 1
    ensures |r.heights| == ColumnCount(width, minColumnWidth, gutter, maxColumns)
    ensures |r.placements| == |items|
    ensures r.containerHeight in r.heights
    ensures forall k :: 0 <= k < |r.heights| ==> r.heights[k] <= r.containerHeight
    ensures forall i :: 0 <= i < |items| ==>
              r.placements[i].column < |r.heights|
              && 0 <= r.placements[i].y && r.placements[i].y + items[i] + gutter <= r.containerHeight
    ensures Sum(r.heights) == Sum(items) + |items| * gutter
  {
    var columns := ColumnCount(width, minColumnWidth, gutter, maxColumns);
    var zeros := seq(columns, _ => 0);
    ZerosSum(columns);
    var (placements, heights) := PlaceAll(zeros, items, gutter);
    Layout(placements, heights, Tallest(heights))
  }

  lemma {:induction false} ZerosSum(n: nat)
    ensures Sum(seq(n, _ => 0)) == 0
  {
    if n > 0 {
      assert seq(n, _ => 0)[1..] == seq(n - 1, _ => 0);
      ZerosSum(n - 1);
    }
  }

  /** No column is more than `bound` taller than another. */
  predicate Balanced(heights: seq<int>, bound: int) {
    forall j, k :: 0 <= j < |heights| && 0 <= k < |heights| ==> heights[j] - heights[k] <= bound
  }

  /** Every item with its gutter is at most `bound`. */
  predicate ItemsWithin(items: seq<nat>, gutter: nat, bound: int) {
    forall i :: 0 <= i < |items| ==> items[i] + gutter <= bound
  }

  /** Placing an item no taller, with its gutter, than `bound` keeps every pair of columns
      within `bound` of each other. */
  lemma PlaceBalanced(heights: seq<int>, item: nat, gutter: nat, bound: int)
    requires |heights| >= 1
    requires item + gutter <= bound
    requires Balanced(heights, bound)
    ensures Balanced(Place(heights, item, gutter).1, bound)
  {
  }

  /** The greedy rule keeps the columns balanced: when every item with its gutter is at
      most `bound`, no column ends more than `bound` taller than another. */
  lemma {:induction false} PlaceAllBalanced(heights: seq<int>, items: seq<nat>, gutter: nat, bound: int)
    requires |heights| >= 1
    requires ItemsWithin(items, gutter, bound)
    requires Balanced(heights, bound)
    ensures Balanced(PlaceAll(heights, items, gutter).1, bound)
    decreases |items|
  {
    if items != [] {
      var next := Place(heights, items[0], gutter).1;
      assert PlaceAll(heights, items, gutter).1 == PlaceAll(next, items[1..], gutter).1;
      PlaceBalanced(heights, items[0], gutter, bound);
      ItemsWithinTail(items, gutter, bound);
      PlaceAllBalanced(next, items[1..], gutter, bound);
    }
  }

  /** The items after the first are within the bound when all are. */
  lemma ItemsWithinTail(items: seq<nat>, gutter: nat, bound: int)
    requires items != [] && ItemsWithin(items, gutter, bound)
    ensures ItemsWithin(items[1..], gutter, bound)
  {
    assert forall i :: 0 <= i < |items| - 1 ==> items[1..][i] == items[i + 1];
  }

  /** In the finished layout the container is at most one item (with its gutter) taller
      than the shortest column. */
  lemma LayoutBalanced(width: nat, items: seq<nat>, minColumnWidth: nat, gutter: nat, maxColumns: Limit, bound: nat)
    requires minColumnWidth + gutter > 0
    requires maxColumns.AtMost? ==> maxColumns.n >= 1
    requires ItemsWithin(items, gutter, bound)
    ensures var r := LayoutMasonry(width, items, minColumnWidth, gutter, maxColumns);
            forall k :: 0 <= k < |r.heights| ==> r.containerHeight - r.heights[k] <= bound
  {
    var columns := ColumnCount(width, minColumnWidth, gutter, maxColumns);
    var zeros := seq(columns, _ => 0);
    var r := LayoutMasonry(width, items, minColumnWidth, gutter, maxColumns);
    assert r.heights == PlaceAll(zeros, items, gutter).1;
    assert Balanced(zeros, bound);
    PlaceAllBalanced(zeros, items, gutter, bound);
    TallestWithin(r.heights, bound);
  }

  /** In balanced columns the tallest is within the bound of every column. */
  lemma TallestWithin(heights: seq<int>, bound: int)
    requires |heights| >= 1 && Balanced(heights, bound)
    ensures forall k :: 0 <= k < |heights| ==> Tallest(heights) - heights[k] <= bound
  {
    var j :| 0 <= j < |heights| && heights[j] == Tallest(heights);
  }

  // ---------------------------------------------------------------------------
  // Instance registry

  /** An instance's configuration. */
  datatype Config = Config(itemSelector: string, minColumnWidth: nat, maxColumns: Limit, gutter: nat, autoResize: bool)

  /** `init`'s default options. */
  const Defaults: Config := Config(".masonry-item", 200, AtMost(3), 10, true)

  /** The options passed to `init`; an absent key is `None`. */
  datatype Options = Options(itemSelector: Option<string>, minColumnWidth: Option<nat>, maxColumns: Option<Limit>,
                             gutter: Option<nat>, autoResize: Option<bool>)

  /** `{ ...defaultOptions, ...options }`: each given option overrides its default. */
  function Configure(options: Options): (r: Config)
    ensures options.itemSelector.None? ==> r.itemSelector == Defaults.itemSelector
    ensures options.itemSelector.Some? ==> r.itemSelector == options.itemSelector.value
    ensures options.minColumnWidth.None? ==> r.minColumnWidth == Defaults.minColumnWidth
    ensures options.minColumnWidth.Some? ==> r.minColumnWidth == options.minColumnWidth.value
    ensures options.maxColumns.None? ==> r.maxColumns == Defaults.maxColumns
    ensures options.maxColumns.Some? ==> r.maxColumns == options.maxColumns.value
    ensures options.gutter.None? ==> r.gutter == Defaults.gutter
    ensures options.gutter.Some? ==> r.gutter == options.gutter.value
    ensures options.autoResize.None? ==> r.autoResize == Defaults.autoResize
    ensures options.autoResize.Some? ==> r.autoResize == options.autoResize.value
  {
    Config(options.itemSelector.GetOr(Defaults.itemSelector),
           options.minColumnWidth.GetOr(Defaults.minColumnWidth),
           options.maxColumns.GetOr(Defaults.maxColumns),
           options.gutter.GetOr(Defaults.gutter),
           options.autoResize.GetOr(Defaults.autoResize))
  }

  /** The options that spell out every field of `c`. */
  function OptionsOf(c: Config): Options {
    Options(Some(c.itemSelector), Some(c.minColumnWidth), Some(c.maxColumns), Some(c.gutter), Some(c.autoResize))
  }

  /** The spread is a merge: no options give the defaults, options naming every field give
      exactly those fields, and merging the options of a configuration onto the defaults
      gives that configuration back whatever it is. */
  lemma ConfigureMerges(c: Config)
    ensures Configure(Options(None, None, None, None, None)) == Defaults
    ensures Configure(OptionsOf(c)) == c
  {
  }

  /** The registry: the instance of each container (containers are identified by number)
      and whether the shared resize listener is attached. */
  datatype Registry = Registry(instances: map<nat, Config>, listening: bool)

  /** A laid-out container and its configuration. */
  datatype Instance = Instance(container: nat, config: Config)

  /** The empty registry of a fresh page. */
  const EmptyRegistry: Registry := Registry(map[], false)

  /** `init`: no container gives `null` and changes nothing; otherwise the container's
      instance is registered, replacing an earlier one, and the listener is attached when
      this container is now the only one and the configuration asks for resizing. */
  function Init(reg: Registry, container: Option<nat>, options: Options): (r: (Option<Instance>, Registry))
    ensures container.None? ==> r == (None, reg)
    ensures container.Some? ==>
              r.0 == Some(Instance(container.value, Configure(options)))
              && r.1.instances == reg.instances[container.value := Configure(options)]
    ensures container.Some? ==>
              (r.1.listening <==> reg.listening || (reg.instances.Keys <= {container.value} && Configure(options).autoResize))
  {
    match container
    case None => (None, reg)
    case Some(c) =>
      var config := Configure(options);
      var instances := reg.instances[c := config];
      var attach := instances.Keys == {c} && config.autoResize;
      (Some(Instance(c, config)), Registry(instances, reg.listening || attach))
  }

  /** `destroy`: the container's instance is removed, and the listener is detached when no
      instance remains. */
  function Destroy(reg: Registry, container: nat): (r: Registry)
    ensures r.instances == reg.instances - {container}
    ensures container !in r.instances
    ensures r.listening <==> reg.listening && r.instances != map[]
  {
    var instances := reg.instances - {container};
    Registry(instances, reg.listening && instances != map[])
  }

  /** No listener stays attached without an instance to serve. */
  ghost predicate Tidy(reg: Registry) {
    reg.instances == map[] ==> !reg.listening
  }

  /** `init` and `destroy` keep the registry tidy. */
  lemma InitTidy(reg: Registry, container: Option<nat>, options: Options)
    requires Tidy(reg)
    ensures Tidy(Init(reg, container, options).1)
  {
    if container.Some? {
      assert container.value in Init(reg, container, options).1.instances;
    }
  }

  lemma DestroyTidy(reg: Registry, container: nat)
    ensures Tidy(Destroy(reg, container))
  {
  }

  /** Destroying a freshly registered container restores the registry's instances, and on
      an empty page it restores the empty registry. */
  lemma InitThenDestroy(reg: Registry, container: nat, options: Options)
    requires container !in reg.instances
    ensures Destroy(Init(reg, Some(container), options).1, container).instances == reg.instances
    ensures reg == EmptyRegistry ==> Destroy(Init(reg, Some(container), options).1, container) == EmptyRegistry
  {
    var after := Destroy(Init(reg, Some(container), options).1, container);
    assert after.instances == reg.instances;
  }

  /** Only the first container can attach the listener: on a page that already has another
      container and no listener, `init` attaches none. */
  lemma LaterInitDoesNotListen(reg: Registry, container: nat, other: nat, options: Options)
    requires other in reg.instances && other != container && !reg.listening
    ensures !Init(reg, Some(container), options).1.listening
  {
  }
}

=== FILE: optional.dfy ===
/** An optional value: the model's stand-in for PHP `null` and JavaScript `null`/`undefined`
    wherever the source returns "a value or nothing". */
module Optional {

  datatype Option<+T> = None | Some(value: T) {

    /** The value, or `default` when there is none. */
    function GetOr(default: T): T {
      match this
      case Some(v) => v
      case None => default
    }
  }
}

=== FILE: php.dfy ===
/** PHP values as the content store hands them to the index command: `null`, booleans,
    integers, strings and ordered arrays. A PHP array is an ordered association list;
    integer keys are written as their decimal strings, which is how PHP itself
    identifies `5` and `"5"` as one key. */
module Php {
  import Text

  datatype Value =
    | Null
    | Bool(b: bool)
    | Int(n: int)
    | Str(s: string)
    | Arr(entries: seq<(string, Value)>)

  /** The value stored under `key` in an association list (first entry with that key). */
  function Lookup(entries: seq<(string, Value)>, key: string): (r: Value)
    ensures r == Null || exists i :: 0 <= i < |entries| && entries[i] == (key, r)
    ensures (exists i :: 0 <= i < |entries| && entries[i].0 == key) || r == Null
  {
    if entries == [] then Null
    else if entries[0].0 == key then entries[0].1
    else Lookup(entries[1..], key)
  }

  /** `$v[$key]` read through `isset`/`??`: the stored value for an array, and
      `null` for an absent key or a non-array `v` (a non-numeric offset is never set
      on a string, an integer, a boolean or `null`). */
  function Get(v: Value, key: string): (r: Value)
    ensures !v.Arr? ==> r == Null
  {
    if v.Arr? then Lookup(v.entries, key) else Null
  }

  /** `isset($v[$key])`: the key is present and its value is not `null`. */
  predicate IsSet(v: Value, key: string) {
    Get(v, key) != Null
  }

  /** PHP truthiness, as used by `if ($x)` and `array_filter` without a callback. */
  predicate Truthy(v: Value) {
    match v
    case Null => false
    case Bool(b) => b
    case Int(n) => n != 0
    case Str(s) => s != "" && s != "0"
    case Arr(es) => es != []
  }

  /** The values a `foreach` visits, in order; a `foreach` over a non-array visits nothing. */
  function Elements(v: Value): (r: seq<Value>)
    ensures v.Arr? ==> |r| == |v.entries|
    ensures !v.Arr? ==> r == []
  {
    if v.Arr? then seq(|v.entries|, i requires 0 <= i < |v.entries| => v.entries[i].1) else []
  }

  /** PHP's string conversion as `implode` and string interpolation apply it: `null`
      and `false` become `""`, `true` becomes `"1"`, integers their decimal form, and
      an array the literal `"Array"` (with a notice). */
  function ToStr(v: Value): (r: string)
    ensures v.Str? ==> r == v.s
    ensures !v.Arr? ==> (Truthy(v) <==> r != "" && r != "0")
  {
    match v
    case Null => ""
    case Bool(b) => if b then "1" else ""
    case Int(n) => Text.Decimal(n)
    case Str(s) => s
    case Arr(_) => "Array"
  }

  /** Loose comparison `v == name` as a `switch` performs it, for a case name that is
      neither empty nor a numeric string: strings compare by content, `true` equals
      every such name, an integer compares through its decimal form (PHP 8), and
      `null`, `false` and arrays equal none. */
  predicate SwitchMatches(v: Value, name: string) {
    match v
    case Str(s) => s == name
    case Bool(b) => b
    case Int(n) => Text.Decimal(n) == name
    case _ => false
  }

  /** `($v[$key] ?? '')`: the stored value, or the empty string when it is unset. */
  function GetOrEmpty(v: Value, key: string): (r: Value)
    ensures r != Null
  {
    if IsSet(v, key) then Get(v, key) else Str("")
  }

  /** An array entry's value is structurally smaller than the array, so the walkers
      that recurse into `Get` results terminate. */
  lemma GetIsNested(v: Value, key: string)
    requires IsSet(v, key)
    ensures v.Arr? && exists i :: 0 <= i < |v.entries| && v.entries[i].1 == Get(v, key)
  {
  }
}

=== FILE: search_highlight.dfy ===
/** The search-highlight page component: which term to highlight on a page reached from a
    search result, where the highlights go inside a text node, how the term is escaped
    for a regular expression, which accordion item to open, and when to scroll once an
    accordion has stopped animating. The document is reduced to what these decisions
    read: the page's text nodes with their parents' tag names, and element heights. */
module SearchHighlight {
  import opened Optional
  import opened Text

  // ---------------------------------------------------------------------------
  // Whitespace and trimming

  /** ECMAScript `WhiteSpace` and `LineTerminator`: the code points `\s` and `trim` treat
      as white space. */
  predicate IsJsSpace(c: char) {
    c == '\U{9}' || c == '\U{B}' || c == '\U{C}' || c == ' ' || c == '\U{A0}' || c == '\U{FEFF}'
    || c == '\U{1680}' || ('\U{2000}' <= c <= '\U{200A}') || c == '\U{202F}' || c == '\U{205F}'
    || c == '\U{3000}' || c == '\n' || c == '\U{D}' || c == '\U{2028}' || c == '\U{2029}'
  }

  /** `s` with its leading white space removed. */
  function TrimStart(s: string): (r: string)
    ensures |r| <= |s| && r == s[|s| - |r|..]
    ensures r == [] || !IsJsSpace(r[0])
    ensures forall k :: 0 <= k < |s| - |r| ==> IsJsSpace(s[k])
  {
    if s != [] && IsJsSpace(s[0]) then TrimStart(s[1..]) else s
  }

  /** `s` with its trailing white space removed. */
  function TrimEnd(s: string): (r: string)
    ensures r <= s
    ensures r == [] || !IsJsSpace(r[|r| - 1])
    ensures forall k :: |r| <= k < |s| ==> IsJsSpace(s[k])
  {
    if s != [] && IsJsSpace(s[|s| - 1]) then TrimEnd(s[..|s| - 1]) else s
  }

  /** How many white-space characters `trim` removes from the front of `s`. */
  function Leading(s: string): (n: nat)
    ensures n <= |s|
  {
    |s| - |TrimStart(s)|
  }

  /** `r` is the piece of `s` starting at `a` with only white space around it, and it
      neither starts nor ends with white space. */
  predicate TrimmedAt(s: string, a: nat, r: string) {
    a + |r| <= |s| && r == s[a..a + |r|]
    && (forall k :: 0 <= k < a ==> IsJsSpace(s[k]))
    && (forall k :: a + |r| <= k < |s| ==> IsJsSpace(s[k]))
    && (r == [] || (!IsJsSpace(r[0]) && !IsJsSpace(r[|r| - 1])))
  }

  /** `String.prototype.trim`: the part of `s` between its leading and trailing white
      space. */
  function Trim(s: string): (r: string)
    ensures TrimmedAt(s, Leading(s), r)
  {
    var t := TrimStart(s);
    var r := TrimEnd(t);
    assert Leading(s) == |s| - |t|;
    TrimEnds(s, t, r);
    r
  }

  /** Trimming the end of the trimmed start leaves a piece of `s` with white space only
      around it. */
  lemma TrimEnds(s: string, t: string, r: string)
    requires |t| <= |s| && t == s[|s| - |t|..]
    requires t == [] || !IsJsSpace(t[0])
    requires forall k :: 0 <= k < |s| - |t| ==> IsJsSpace(s[k])
    requires r <= t && (r == [] || !IsJsSpace(r[|r| - 1]))
    requires forall k :: |r| <= k < |t| ==> IsJsSpace(t[k])
    ensures TrimmedAt(s, |s| - |t|, r)
  {
    var a := |s| - |t|;
    assert t == s[a..];
    assert r == t[..|r|];
    assert r == s[a..a + |r|];
    assert forall k :: 0 <= k < a ==> IsJsSpace(s[k]);
    forall k | a + |r| <= k < |s| ensures IsJsSpace(s[k]) {
      assert s[k] == t[k - a];
    }
    if r != [] {
      assert r[0] == t[0];
    }
  }

  /** Trimming twice trims nothing more. */
  lemma TrimIdempotent(s: string)
    ensures Trim(Trim(s)) == Trim(s)
  {
    var r := Trim(s);
    assert TrimStart(r) == r;
    if r != [] {
      assert TrimEnd(r) == r;
    }
  }

  /** The term `init` highlights: the `highlight` URL parameter, trimmed, when it is present
      and not blank. */
  function TermFromParam(param: Option<string>): (r: Option<string>)
    ensures r.Some? <==> param.Some? && Trim(param.value) != ""
    ensures r.Some? ==> r.value == Trim(param.value)
  {
    match param
    case Some(s) => if s != "" && Trim(s) != "" then Some(Trim(s)) else None
    case None => None
  }

  // ---------------------------------------------------------------------------
  // Candidate text nodes

  /** A text node of the page and the tag name of its parent element. */
  datatype TextNode = TextNode(parentTag: string, text: string)

  /** `findTextNodes`' filter: the parent is not a `SCRIPT` or `STYLE` element and the
      lower-cased text contains the lower-cased term (a substring test, not a word test).
      `lower` is `String.prototype.toLowerCase`. */
  predicate Candidate(node: TextNode, term: string, lower: string -> string) {
    node.parentTag != "SCRIPT" && node.parentTag != "STYLE" && Contains(lower(node.text), lower(term))
  }

  /** `findTextNodes(term)`: the positions, in document order, of the candidate nodes. */
  function FindTextNodes(nodes: seq<TextNode>, term: string, lower: string -> string): (r: seq<nat>)
    ensures forall i, j :: 0 <= i < j < |r| ==> r[i] < r[j]
    ensures forall k: nat :: k in r <==> k < |nodes| && Candidate(nodes[k], term, lower)
  {
    if nodes == [] then []
    else
      var last := |nodes| - 1;
      var front := FindTextNodes(nodes[..last], term, lower);
      assert forall k: nat :: k < last ==> nodes[..last][k] == nodes[k];
      if Candidate(nodes[last], term, lower) then
        assert forall k: nat :: k in front + [last] <==> k in front || k == last;
        assert forall i :: 0 <= i < |front| ==> front[i] < last by {
          forall i | 0 <= i < |front|
            ensures front[i] < last
          {
            assert front[i] in front;
          }
        }
        front + [last]
      else front
  }

  // ---------------------------------------------------------------------------
  // Words of a term

  /** The separators of `split(/[\s+]+/)`: white space and `+`. */
  predicate IsSeparator(c: char) {
    IsJsSpace(c) || c == '+'
  }

  /** `s` without its leading separators. */
  function DropSeparators(s: string): (r: string)
    ensures |r| <= |s| && r == s[|s| - |r|..]
    ensures r == [] || !IsSeparator(r[0])
  {
    if s != [] && IsSeparator(s[0]) then DropSeparators(s[1..]) else s
  }

  /** The longest prefix of `s` without a separator. */
  function TakeWord(s: string): (r: string)
    ensures r <= s
    ensures forall k :: 0 <= k < |r| ==> !IsSeparator(r[k])
    ensures |r| == |s| || IsSeparator(s[|r|])
  {
    if s == [] || IsSeparator(s[0]) then [] else [s[0]] + TakeWord(s[1..])
  }

  /** A word: non-empty and free of separators. */
  predicate IsWord(w: string) {
    w != [] && forall k :: 0 <= k < |w| ==> !IsSeparator(w[k])
  }

  /** Every element of `ws` is a word. */
  predicate AllWords(ws: seq<string>) {
    forall k :: 0 <= k < |ws| ==> IsWord(ws[k])
  }

  /** A word in front of words gives words. */
  lemma AllWordsCons(w: string, ws: seq<string>)
    requires IsWord(w) && AllWords(ws)
    ensures AllWords([w] + ws)
  {
    assert forall k :: 0 < k <= |ws| ==> ([w] + ws)[k] == ws[k - 1];
  }

  /** `s.split(/[\s+]+/).filter(word => word.length > 0)`: the maximal runs of
      non-separators, in order. */
  function Words(s: string): seq<string>
    decreases |s|
  {
    var t := DropSeparators(s);
    if t == [] then []
    else
      var w := TakeWord(t);
      [w] + Words(t[|w|..])
  }

  /** Every piece of the split is a word. */
  lemma {:induction false} WordsAreWords(s: string)
    ensures AllWords(Words(s))
    decreases |s|
  {
    var t := DropSeparators(s);
    if t != [] {
      var w := TakeWord(t);
      assert w != [] && w[0] == t[0];
      WordsAreWords(t[|w|..]);
      AllWordsCons(w, Words(t[|w|..]));
    }
  }

  /** Leading separators do not change the words. */
  lemma WordsAfterSeparator(c: char, s: string)
    requires IsSeparator(c)
    ensures Words([c] + s) == Words(s)
  {
    assert ([c] + s)[1..] == s;
  }

  /** A word followed by a separator or the end is taken whole. */
  lemma {:induction false} TakeWholeWord(w: string, rest: string)
    requires IsWord(w)
    requires rest == [] || IsSeparator(rest[0])
    ensures TakeWord(w + rest) == w
    decreases |w|
  {
    if |w| > 1 {
      assert (w + rest)[1..] == w[1..] + rest;
      TakeWholeWord(w[1..], rest);
    } else {
      assert (w + rest)[1..] == rest;
    }
  }

  /** A word followed by a separator or the end is the first word. */
  lemma WordsCons(w: string, rest: string)
    requires IsWord(w)
    requires rest == [] || IsSeparator(rest[0])
    ensures Words(w + rest) == [w] + Words(rest)
  {
    var s := w + rest;
    assert s[0] == w[0];
    assert DropSeparators(s) == s;
    TakeWholeWord(w, rest);
    assert s[|w|..] == rest;
  }

  /** Splitting words joined by single spaces gives the words back. */
  lemma {:induction false} WordsOfJoin(ws: seq<string>)
    requires AllWords(ws)
    ensures Words(Join(ws, " ")) == ws
    decreases |ws|, 1
  {
    if |ws| == 1 {
      assert IsWord(ws[0]);
      WordsOfWord(ws[0]);
    } else if |ws| > 1 {
      WordsOfJoinMany(ws);
    }
  }

  /** The case of several words: the first word, then the words of the others. */
  lemma {:induction false} WordsOfJoinMany(ws: seq<string>)
    requires |ws| > 1 && AllWords(ws)
    ensures Words(Join(ws, " ")) == ws
    decreases |ws|, 0
  {
    var tail := ws[1..];
    assert IsWord(ws[0]);
    AllWordsTail(ws);
    WordsOfJoin(tail);
    WordsOfJoinStep(ws);
    HeadTail(ws);
  }

  /** A non-empty list is its head followed by its tail. */
  lemma HeadTail(ws: seq<string>)
    requires ws != []
    ensures [ws[0]] + ws[1..] == ws
  {
  }

  /** The words of a word are that word alone. */
  lemma WordsOfWord(w: string)
    requires IsWord(w)
    ensures Words(w) == [w]
  {
    assert w + [] == w;
    WordsCons(w, []);
  }

  /** The tail of a list of words is a list of words. */
  lemma AllWordsTail(ws: seq<string>)
    requires ws != [] && AllWords(ws)
    ensures AllWords(ws[1..])
  {
    assert forall k :: 0 <= k < |ws| - 1 ==> ws[1..][k] == ws[k + 1];
  }

  /** Splitting a join of several words gives its first word, then the words of the join
      of the others. */
  lemma WordsOfJoinStep(ws: seq<string>)
    requires |ws| > 1 && IsWord(ws[0])
    ensures Words(Join(ws, " ")) == [ws[0]] + Words(Join(ws[1..], " "))
  {
    assert Join(ws, " ") == ws[0] + " " + Join(ws[1..], " ");
    WordThenSpace(ws[0], Join(ws[1..], " "));
  }

  /** A word, a space and more text split into the word and the words of the text. */
  lemma WordThenSpace(w: string, rest: string)
    requires IsWord(w)
    ensures Words(w + " " + rest) == [w] + Words(rest)
  {
    assert w + " " + rest == w + (" " + rest);
    WordsCons(w, " " + rest);
    WordsAfterSeparator(' ', rest);
  }

  // ---------------------------------------------------------------------------
  // Term selection

  /** Whether some node is a candidate for `term`. */
  predicate Found(nodes: seq<TextNode>, term: string, lower: string -> string) {
    FindTextNodes(nodes, term, lower) != []
  }

  /** The first word, from position `i` on, that has candidate nodes. */
  function FirstFoundWord(nodes: seq<TextNode>, words: seq<string>, i: nat, lower: string -> string): (r: Option<nat>)
    requires i <= |words|
    ensures r.Some? ==> i <= r.value < |words| && Found(nodes, words[r.value], lower)
                        && forall j :: i <= j < r.value ==> !Found(nodes, words[j], lower)
    ensures r.None? <==> forall j :: i <= j < |words| ==> !Found(nodes, words[j], lower)
    decreases |words| - i
  {
    if i == |words| then None
    else if Found(nodes, words[i], lower) then Some(i)
    else FirstFoundWord(nodes, words, i + 1, lower)
  }

  /** The fallback over the words of a term: the first word with candidates, the first
      word tried first and then the others in order. */
  function WordChoice(nodes: seq<TextNode>, words: seq<string>, lower: string -> string): (r: Option<string>)
    requires words != []
    ensures r.Some? ==> Found(nodes, r.value, lower)
  {
    if Found(nodes, words[0], lower) then Some(words[0])
    else
      match FirstFoundWord(nodes, words, 1, lower)
      case Some(i) => Some(words[i])
      case None => None
  }

  /** A chosen word is one with candidates and no word before it has any. */
  lemma WordChoiceIsFirst(nodes: seq<TextNode>, words: seq<string>, lower: string -> string)
    requires words != [] && WordChoice(nodes, words, lower).Some?
    ensures exists i :: 0 <= i < |words| && WordChoice(nodes, words, lower).value == words[i]
                        && forall j :: 0 <= j < i ==> !Found(nodes, words[j], lower)
  {
    if !Found(nodes, words[0], lower) {
      var i := FirstFoundWord(nodes, words, 1, lower).value;
      assert WordChoice(nodes, words, lower).value == words[i];
      assert forall j :: 1 <= j < i ==> !Found(nodes, words[j], lower);
    }
  }

  /** No word is chosen exactly when no word has candidates. */
  lemma WordChoiceNone(nodes: seq<TextNode>, words: seq<string>, lower: string -> string)
    requires words != []
    ensures WordChoice(nodes, words, lower).None? <==> forall j :: 0 <= j < |words| ==> !Found(nodes, words[j], lower)
  {
    if !Found(nodes, words[0], lower) && FirstFoundWord(nodes, words, 1, lower).None? {
      forall j | 0 <= j < |words| ensures !Found(nodes, words[j], lower) {
        if j > 0 {
          assert 1 <= j < |words|;
        }
      }
    }
  }

  /** `highlightTerms`' choice: the whole term when it has candidates; otherwise, when the
      term has more than one word, the first of its words with candidates; otherwise
      nothing. Whatever is chosen has candidates. */
  function SelectTerm(nodes: seq<TextNode>, term: string, lower: string -> string): (r: Option<string>)
    ensures Found(nodes, term, lower) ==> r == Some(term)
    ensures r.Some? ==> Found(nodes, r.value, lower)
  {
    if Found(nodes, term, lower) then Some(term)
    else
      var words := Words(term);
      if |words| > 1 then WordChoice(nodes, words, lower) else None
  }

  /** A choice other than the whole term is the first word of a term of several words
      that has candidates. */
  lemma SelectTermFallsBack(nodes: seq<TextNode>, term: string, lower: string -> string)
    requires SelectTerm(nodes, term, lower).Some? && SelectTerm(nodes, term, lower).value != term
    ensures var ws := Words(term);
            |ws| > 1 && exists i :: 0 <= i < |ws| && SelectTerm(nodes, term, lower).value == ws[i]
                                    && forall j :: 0 <= j < i ==> !Found(nodes, ws[j], lower)
  {
    var ws := Words(term);
    var r := SelectTerm(nodes, term, lower);
    assert |ws| > 1 && r == WordChoice(nodes, ws, lower);
    WordChoiceIsFirst(nodes, ws, lower);
    var i :| 0 <= i < |ws| && r.value == ws[i] && forall j :: 0 <= j < i ==> !Found(nodes, ws[j], lower);
    assert 0 <= i < |ws| && r.value == ws[i];
  }

  /** Nothing is chosen exactly when neither the term nor, for a term of several words,
      any of its words has candidates. */
  lemma SelectTermNone(nodes: seq<TextNode>, term: string, lower: string -> string)
    ensures SelectTerm(nodes, term, lower).None? <==>
              !Found(nodes, term, lower)
              && (|Words(term)| <= 1 || forall j :: 0 <= j < |Words(term)| ==> !Found(nodes, Words(term)[j], lower))
  {
    var ws := Words(term);
    if !Found(nodes, term, lower) && |ws| > 1 {
      WordChoiceNone(nodes, ws, lower);
    }
  }

  /** A term that is a single word without candidates highlights nothing, even when it
      differs from its word (a trailing `+`, say). */
  lemma SingleWordUnmatched(nodes: seq<TextNode>, term: string, lower: string -> string)
    requires !Found(nodes, term, lower) && |Words(term)| == 1
    ensures SelectTerm(nodes, term, lower) == None
  {
    SelectTermNone(nodes, term, lower);
  }

  // ---------------------------------------------------------------------------
  // Marking occurrences in a text node

  /** The term matches caselessly at `i`; `fold` is the regular expression's
      case-insensitive canonicalisation of one code point. */
  predicate MatchesAt(text: string, i: nat, term: string, fold: char -> char) {
    i + |term| <= |text| && forall j :: 0 <= j < |term| ==> fold(text[i + j]) == fold(term[j])
  }

  /** The positions at which the global regex `(term)` with flags `gi` matches in `text`
      from `i` on: leftmost first, the next search resuming after the match, or one code
      point further after an empty match. Every position is a match, and the marks they
      start do not overlap. */
  function MatchPositions(text: string, term: string, fold: char -> char, i: nat): (r: seq<nat>)
    requires i <= |text| + 1
    ensures forall k :: 0 <= k < |r| ==> i <= r[k] && MatchesAt(text, r[k], term, fold)
    ensures forall a, b :: 0 <= a < b < |r| ==> r[a] + |term| <= r[b] && r[a] < r[b]
    decreases |text| + 1 - i
  {
    if i > |text| then []
    else if MatchesAt(text, i, term, fold) then
      var next := if |term| == 0 then i + 1 else i + |term|;
      [i] + MatchPositions(text, term, fold, next)
    else
      MatchPositions(text, term, fold, i + 1)
  }

  /** Position `p` lies strictly inside the mark starting at one of `positions`. */
  ghost predicate Covered(positions: seq<nat>, p: nat, len: nat) {
    exists k :: 0 <= k < |positions| && positions[k] < p < positions[k] + len
  }

  /** No match is skipped: every occurrence of the term from `i` on is either marked or
      overlaps an earlier mark. */
  lemma {:induction false} MatchPositionsComplete(text: string, term: string, fold: char -> char, i: nat, p: nat)
    requires i <= p <= |text| && MatchesAt(text, p, term, fold)
    ensures p in MatchPositions(text, term, fold, i) || Covered(MatchPositions(text, term, fold, i), p, |term|)
    decreases |text| + 1 - i
  {
    if MatchesAt(text, i, term, fold) {
      var next := if |term| == 0 then i + 1 else i + |term|;
      var rest := MatchPositions(text, term, fold, next);
      var r := [i] + rest;
      assert r == MatchPositions(text, term, fold, i);
      if p == i {
        assert r[0] == p;
      } else if p < next {
        assert r[0] < p < r[0] + |term|;
        assert Covered(r, p, |term|);
      } else {
        MatchPositionsComplete(text, term, fold, next, p);
        if p in rest {
          assert p in r;
        } else {
          var k :| 0 <= k < |rest| && rest[k] < p < rest[k] + |term|;
          assert r[k + 1] == rest[k];
          assert Covered(r, p, |term|);
        }
      }
    } else {
      assert MatchPositions(text, term, fold, i) == MatchPositions(text, term, fold, i + 1);
      MatchPositionsComplete(text, term, fold, i + 1, p);
    }
  }

  /** A piece of the replaced node: text left as it was, or a `<mark>` holding the matched
      text as written. */
  datatype Segment = Plain(text: string) | Mark(text: string)

  /** The text of the segments, markup removed. */
  function Flatten(segs: seq<Segment>): string {
    if segs == [] then "" else segs[0].text + Flatten(segs[1..])
  }

  lemma {:induction false} FlattenAppend(a: seq<Segment>, b: seq<Segment>)
    ensures Flatten(a + b) == Flatten(a) + Flatten(b)
  {
    if a != [] {
      assert (a + b)[1..] == a[1..] + b;
      FlattenAppend(a[1..], b);
    } else {
      assert a + b == b;
    }
  }

  /** The text a match covers matches on its own. */
  lemma MatchedSlice(text: string, p: nat, term: string, fold: char -> char)
    requires MatchesAt(text, p, term, fold)
    ensures MatchesAt(text[p..p + |term|], 0, term, fold)
  {
    var mark := text[p..p + |term|];
    assert forall j :: 0 <= j < |term| ==> mark[j] == text[p + j];
  }

  /** Every position is at or after `from` and starts a match, and the marks they start
      do not overlap. */
  predicate MarkPositions(text: string, positions: seq<nat>, term: string, fold: char -> char, from: nat) {
    (forall k :: 0 <= k < |positions| ==> from <= positions[k] && MatchesAt(text, positions[k], term, fold))
    && (forall a, b :: 0 <= a < b < |positions| ==> positions[a] + |term| <= positions[b])
  }

  /** The positions after the first all lie past the first mark. */
  lemma MarkPositionsTail(text: string, positions: seq<nat>, term: string, fold: char -> char, from: nat)
    requires positions != [] && MarkPositions(text, positions, term, fold, from)
    ensures MarkPositions(text, positions[1..], term, fold, positions[0] + |term|)
  {
    assert forall k :: 0 <= k < |positions| - 1 ==> positions[1..][k] == positions[k + 1];
  }

  /** Every mark holds text of the term's length that matches the term. */
  predicate MarksMatch(segs: seq<Segment>, term: string, fold: char -> char) {
    forall k :: 0 <= k < |segs| && segs[k].Mark? ==> MatchesAt(segs[k].text, 0, term, fold) && |segs[k].text| == |term|
  }

  /** The offsets in the node's text at which the marks start, for segments that begin
      at offset `at`. */
  function MarkStarts(segs: seq<Segment>, at: nat): seq<nat> {
    if segs == [] then []
    else (if segs[0].Mark? then [at] else []) + MarkStarts(segs[1..], at + |segs[0].text|)
  }

  /** Text before a mark, the mark, and what follows: the mark starts right after the
      text before it. */
  lemma MarkStartsStep(before: string, m: string, rest: seq<Segment>, at: nat)
    ensures MarkStarts([Plain(before), Mark(m)] + rest, at) == [at + |before|] + MarkStarts(rest, at + |before| + |m|)
  {
    var segs := [Plain(before), Mark(m)] + rest;
    assert segs[1..] == [Mark(m)] + rest;
    assert segs[1..][1..] == rest;
  }

  /** The node's text from `from` on with a mark around the match at each of the given
      positions, and nowhere else. */
  function Render(text: string, positions: seq<nat>, term: string, fold: char -> char, from: nat): (r: seq<Segment>)
    requires from <= |text|
    requires MarkPositions(text, positions, term, fold, from)
    ensures Flatten(r) == text[from..]
    ensures MarksMatch(r, term, fold)
    ensures MarkStarts(r, from) == positions
    decreases |positions|
  {
    if positions == [] then
      assert Flatten([Plain(text[from..])]) == text[from..] + Flatten([]);
      assert MarkStarts([Plain(text[from..])], from) == [] + MarkStarts([], |text|);
      [Plain(text[from..])]
    else
      var p := positions[0];
      assert from <= p && MatchesAt(text, p, term, fold);
      MarkPositionsTail(text, positions, term, fold, from);
      var rest := Render(text, positions[1..], term, fold, p + |term|);
      RenderStep(text, from, p, term, fold, rest);
      MarkStartsStep(text[from..p], text[p..p + |term|], rest, from);
      assert positions == [p] + positions[1..];
      [Plain(text[from..p]), Mark(text[p..p + |term|])] + rest
  }

  /** The text before a match and the marked match, in front of the rendering of what
      follows the match: the text from `from` on, with matching marks. */
  lemma RenderStep(text: string, from: nat, p: nat, term: string, fold: char -> char, rest: seq<Segment>)
    requires from <= p && MatchesAt(text, p, term, fold)
    requires Flatten(rest) == text[p + |term|..] && MarksMatch(rest, term, fold)
    ensures var r := [Plain(text[from..p]), Mark(text[p..p + |term|])] + rest;
            Flatten(r) == text[from..] && MarksMatch(r, term, fold)
  {
    var mark := text[p..p + |term|];
    var head := [Plain(text[from..p]), Mark(mark)];
    MatchedSlice(text, p, term, fold);
    FlattenAppend(head, rest);
    assert Flatten(head) == text[from..p] + (mark + Flatten([]));
    assert text[from..] == text[from..p] + mark + text[p + |term|..];
    assert forall k :: 2 <= k < |head + rest| ==> (head + rest)[k] == rest[k - 2];
  }

  /** `highlightInTextNode(node, term)`: every match of the term, chosen as the global
      case-insensitive regex chooses them, wrapped in a mark; the marks hold the text as
      written and, markup removed, the node's text is unchanged. */
  function HighlightInText(text: string, term: string, fold: char -> char): (r: seq<Segment>)
    ensures Flatten(r) == text
    ensures MarksMatch(r, term, fold)
    ensures MarkStarts(r, 0) == MatchPositions(text, term, fold, 0)
  {
    var positions := MatchPositions(text, term, fold, 0);
    Render(text, positions, term, fold, 0)
  }

  /** Every occurrence of the term in the node is marked, or lies inside the mark of an
      overlapping earlier occurrence. */
  lemma HighlightMarksEveryOccurrence(text: string, term: string, fold: char -> char, p: nat)
    requires p <= |text| && MatchesAt(text, p, term, fold)
    ensures var starts := MarkStarts(HighlightInText(text, term, fold), 0);
            p in starts || Covered(starts, p, |term|)
  {
    MatchPositionsComplete(text, term, fold, 0, p);
  }

  // ---------------------------------------------------------------------------
  // Re-parsing the highlighted text as markup

  /** The tags put around each match (the attributes are written in four pieces so that
      proofs about them look at short strings). */
  const MarkAttrs: string := "mark class=\"" + "search-highlight" + " bg-sunella" + " px-2\""
  const MarkOpen: string := "<" + MarkAttrs + ">"
  const MarkClose: string := "</mark>"

  /** A match between the mark tags. */
  function Wrapped(t: string): string {
    MarkOpen + t + MarkClose
  }

  /** The markup of the segments, as `text.replace` writes it: plain text as it is, each
      mark's text between the mark tags, nothing escaped. */
  function InsertedHtml(segs: seq<Segment>): (r: string)
    ensures (forall k :: 0 <= k < |segs| ==> segs[k].Plain?) ==> r == Flatten(segs)
    ensures |segs| == 1 && segs[0].Plain? ==> r == segs[0].text
    ensures |segs| == 1 && segs[0].Mark? ==> r == MarkOpen + segs[0].text + MarkClose
  {
    if segs == [] then ""
    else
      (match segs[0]
       case Plain(t) => t
       case Mark(t) => Wrapped(t)) + InsertedHtml(segs[1..])
  }

  /** The markup of segments one after the other is their markups one after the other. */
  lemma {:induction false} InsertedHtmlConcat(a: seq<Segment>, b: seq<Segment>)
    ensures InsertedHtml(a + b) == InsertedHtml(a) + InsertedHtml(b)
  {
    if a == [] {
      assert a + b == b;
    } else {
      assert (a + b)[1..] == a[1..] + b;
      InsertedHtmlConcat(a[1..], b);
      var head := match a[0] case Plain(t) => t case Mark(t) => Wrapped(t);
      assert InsertedHtml(a + b) == head + InsertedHtml(a[1..] + b);
      ConcatAssoc(head, InsertedHtml(a[1..]), InsertedHtml(b));
    }
  }

  /** The replacement `text.replace(regex, '<mark …>$1</mark>')` computes, written on the
      string itself: the text from `from` on with the mark tags around the match at each
      of the given positions. Every match adds the two tags and nothing else. */
  function MarkUp(text: string, positions: seq<nat>, term: string, fold: char -> char, from: nat): (r: string)
    requires from <= |text|
    requires MarkPositions(text, positions, term, fold, from)
    ensures |r| == |text| - from + |positions| * (|MarkOpen| + |MarkClose|)
    decreases |positions|
  {
    if positions == [] then text[from..]
    else
      var p := positions[0];
      MarkPositionsTail(text, positions, term, fold, from);
      text[from..p] + Wrapped(text[p..p + |term|]) + MarkUp(text, positions[1..], term, fold, p + |term|)
  }

  /** The first match's markup in front of the markup of the rest. */
  lemma MarkUpStep(text: string, positions: seq<nat>, term: string, fold: char -> char, from: nat)
    requires from <= |text| && positions != []
    requires MarkPositions(text, positions, term, fold, from)
    ensures from <= positions[0] && positions[0] + |term| <= |text|
    ensures MarkPositions(text, positions[1..], term, fold, positions[0] + |term|)
    ensures MarkUp(text, positions, term, fold, from)
            == text[from..positions[0]] + Wrapped(text[positions[0]..positions[0] + |term|])
               + MarkUp(text, positions[1..], term, fold, positions[0] + |term|)
  {
    MarkPositionsTail(text, positions, term, fold, from);
  }

  /** The first match's segments in front of the rendering of the rest. */
  lemma RenderUnfold(text: string, positions: seq<nat>, term: string, fold: char -> char, from: nat)
    requires from <= |text| && positions != []
    requires MarkPositions(text, positions, term, fold, from)
    ensures from <= positions[0] && positions[0] + |term| <= |text|
    ensures MarkPositions(text, positions[1..], term, fold, positions[0] + |term|)
    ensures Render(text, positions, term, fold, from)
            == [Plain(text[from..positions[0]]), Mark(text[positions[0]..positions[0] + |term|])]
               + Render(text, positions[1..], term, fold, positions[0] + |term|)
  {
    MarkPositionsTail(text, positions, term, fold, from);
  }

  /** One step of the induction: the first match's markup in front of the rest's. */
  lemma RenderMarkupStep(text: string, positions: seq<nat>, term: string, fold: char -> char, from: nat)
    requires from <= |text| && positions != []
    requires MarkPositions(text, positions, term, fold, from)
    requires positions[0] + |term| <= |text| && MarkPositions(text, positions[1..], term, fold, positions[0] + |term|)
    requires InsertedHtml(Render(text, positions[1..], term, fold, positions[0] + |term|))
             == MarkUp(text, positions[1..], term, fold, positions[0] + |term|)
    ensures InsertedHtml(Render(text, positions, term, fold, from)) == MarkUp(text, positions, term, fold, from)
  {
    RenderUnfold(text, positions, term, fold, from);
    MarkUpStep(text, positions, term, fold, from);
    InsertedHtmlPair(text[from..positions[0]], text[positions[0]..positions[0] + |term|],
                     Render(text, positions[1..], term, fold, positions[0] + |term|));
  }

  /** The markup of text before a match, the match, and what follows. */
  lemma InsertedHtmlPair(before: string, m: string, rest: seq<Segment>)
    ensures InsertedHtml([Plain(before), Mark(m)] + rest) == before + Wrapped(m) + InsertedHtml(rest)
  {
    InsertedHtmlConcat([Plain(before), Mark(m)], rest);
    InsertedHtmlConcat([Plain(before)], [Mark(m)]);
    assert [Plain(before)] + [Mark(m)] == [Plain(before), Mark(m)];
  }

  /** The segments of a rendering, written as markup, are the replacement's string. */
  lemma {:induction false} RenderMarkup(text: string, positions: seq<nat>, term: string, fold: char -> char, from: nat)
    requires from <= |text|
    requires MarkPositions(text, positions, term, fold, from)
    ensures InsertedHtml(Render(text, positions, term, fold, from)) == MarkUp(text, positions, term, fold, from)
    decreases |positions|
  {
    if positions != [] {
      MarkPositionsTail(text, positions, term, fold, from);
      RenderMarkup(text, positions[1..], term, fold, positions[0] + |term|);
      RenderMarkupStep(text, positions, term, fold, from);
    } else {
      RenderMarkupEnd(text, term, fold, from);
    }
  }

  /** With no match left, both are the rest of the text. */
  lemma RenderMarkupEnd(text: string, term: string, fold: char -> char, from: nat)
    requires from <= |text|
    ensures InsertedHtml(Render(text, [], term, fold, from)) == MarkUp(text, [], term, fold, from) == text[from..]
  {
    assert Render(text, [], term, fold, from) == [Plain(text[from..])];
  }

  /** The text an HTML parser shows for a string, read simply: from `<` to the next `>` is
      a tag and shows nothing, `&lt;` and `&amp;` show `<` and `&`, and every other code
      point shows itself. */
  function ShownText(h: string): string
    decreases |h|
  {
    if h == [] then []
    else if h[0] == '<' then ShownText(AfterTag(h[1..]))
    else if |h| >= 4 && h[..4] == "&lt;" then "<" + ShownText(h[4..])
    else if |h| >= 5 && h[..5] == "&amp;" then "&" + ShownText(h[5..])
    else [h[0]] + ShownText(h[1..])
  }

  /** What follows the first `>`, or nothing when there is none. */
  function AfterTag(h: string): (r: string)
    ensures |r| <= |h|
  {
    if h == [] then [] else if h[0] == '>' then h[1..] else AfterTag(h[1..])
  }

  /** No `>` occurs in `a`. */
  predicate NoTagEnd(a: string) {
    forall k :: 0 <= k < |a| ==> a[k] != '>'
  }

  lemma NoTagEndConcat(a: string, b: string)
    requires NoTagEnd(a) && NoTagEnd(b)
    ensures NoTagEnd(a + b)
  {
    forall k | 0 <= k < |a + b|
      ensures (a + b)[k] != '>'
    {
      if k >= |a| {
        assert (a + b)[k] == b[k - |a|];
      }
    }
  }

  /** The mark's attributes hold no `>`. */
  lemma MarkAttrsNoTagEnd()
    ensures NoTagEnd(MarkAttrs)
  {
    var a, b, c, d := "mark class=\"", "search-highlight", " bg-sunella", " px-2\"";
    assert NoTagEnd(a) && NoTagEnd(b) && NoTagEnd(c) && NoTagEnd(d);
    NoTagEndConcat(a, b);
    NoTagEndConcat(a + b, c);
    NoTagEndConcat(a + b + c, d);
    assert MarkAttrs == a + b + c + d;
  }

  /** A tag holding no `>` inside shows nothing. */
  lemma {:induction false} AfterTagPast(a: string, rest: string)
    requires NoTagEnd(a)
    ensures AfterTag(a + ">" + rest) == rest
  {
    if a != [] {
      assert (a + ">" + rest)[1..] == a[1..] + ">" + rest;
      AfterTagPast(a[1..], rest);
    } else {
      assert a + ">" + rest == [">"[0]] + rest;
    }
  }

  /** The mark tags show nothing. */
  lemma MarkTagsShowNothing(rest: string)
    ensures ShownText(MarkOpen + rest) == ShownText(rest)
    ensures ShownText(MarkClose + rest) == ShownText(rest)
  {
    MarkAttrsNoTagEnd();
    assert (MarkOpen + rest)[1..] == MarkAttrs + ">" + rest;
    AfterTagPast(MarkAttrs, rest);
    var close := "/mark";
    assert MarkClose == "<" + close + ">";
    assert (MarkClose + rest)[1..] == close + ">" + rest;
    AfterTagPast(close, rest);
  }

  /** `highlightInTextNode` as written: nothing when the regex finds no match, for the
      node is then left as it is; otherwise the markup assigned to `innerHTML`, the node's
      text with the mark tags around every match. */
  function HighlightHtml(text: string, term: string, fold: char -> char): (r: Option<string>)
    ensures r.None? <==> MatchPositions(text, term, fold, 0) == []
    ensures r.Some? ==> r.value == MarkUp(text, MatchPositions(text, term, fold, 0), term, fold, 0)
  {
    var positions := MatchPositions(text, term, fold, 0);
    if positions == [] then None
    else
      RenderMarkup(text, positions, term, fold, 0);
      Some(InsertedHtml(HighlightInText(text, term, fold)))
  }

  /** A text node that shows `<b>hi</b>` as text, searched for `hi`, becomes a bold
      element holding the marked `hi`: the parser reads the node's own `<b>` and `</b>`
      as tags, so they vanish from the page and become markup instead. */
  lemma ReparseLosesText(text: string)
    requires text == "<b>hi</b>"
    ensures var r := HighlightHtml(text, "hi", c => c); r.Some? && ShownText(r.value) == "hi"
  {
    var f := (c: char) => c;
    ExampleSegments(text, f);
    ExampleShown();
  }

  /** In `<b>hi</b>`, searched for `hi` without case changes, the one match is marked. */
  lemma ExampleSegments(text: string, fold: char -> char)
    requires text == "<b>hi</b>" && forall c :: fold(c) == c
    ensures HighlightInText(text, "hi", fold) == [Plain("<b>"), Mark("hi"), Plain("</b>")]
    ensures MatchPositions(text, "hi", fold, 0) == [3]
  {
    ExamplePositions(text, fold);
    ExampleRender(text, fold);
  }

  /** Marking the match at 3 of `<b>hi</b>`. */
  lemma ExampleRender(text: string, fold: char -> char)
    requires text == "<b>hi</b>" && MatchesAt(text, 3, "hi", fold)
    ensures Render(text, [3], "hi", fold, 0) == [Plain("<b>"), Mark("hi"), Plain("</b>")]
  {
    assert text[5..] == "</b>" && text[0..3] == "<b>" && text[3..5] == "hi";
    assert Render(text, [], "hi", fold, 5) == [Plain("</b>")];
    assert [3][1..] == [];
  }

  /** In `<b>hi</b>` the term `hi` matches only at 3. */
  lemma ExamplePositions(text: string, fold: char -> char)
    requires text == "<b>hi</b>" && forall c :: fold(c) == c
    ensures MatchPositions(text, "hi", fold, 0) == [3]
  {
    var term := "hi";
    assert fold(text[0]) != fold(term[0]) && fold(text[1]) != fold(term[0]) && fold(text[2]) != fold(term[0]);
    assert MatchesAt(text, 3, term, fold);
    assert fold(text[5]) != fold(term[0]) && fold(text[6]) != fold(term[0]) && fold(text[7]) != fold(term[0]);
    assert MatchPositions(text, term, fold, 10) == [];
    assert MatchPositions(text, term, fold, 9) == [];
    assert MatchPositions(text, term, fold, 8) == [];
    assert MatchPositions(text, term, fold, 7) == [];
    assert MatchPositions(text, term, fold, 6) == [];
    assert MatchPositions(text, term, fold, 5) == [];
    assert MatchPositions(text, term, fold, 3) == [3];
    assert MatchPositions(text, term, fold, 2) == [3];
    assert MatchPositions(text, term, fold, 1) == [3];
  }

  /** The markup of the marked `<b>hi</b>` shows only `hi`. */
  lemma ExampleShown()
    ensures ShownText(InsertedHtml([Plain("<b>"), Mark("hi"), Plain("</b>")])) == "hi"
  {
    var tail := MarkClose + "</b>";
    var mid := "hi" + tail;
    ExampleMarkup();
    BoldTagsShowNothing(MarkOpen + mid);
    MarkTagsShowNothing(mid);
    ShownPlain("hi", tail);
    MarkTagsShowNothing("</b>");
    assert ShownText(tail) == [];
    assert "hi" + ShownText(tail) == "hi";
  }

  /** The markup `highlightInTextNode` builds for the marked `<b>hi</b>`. */
  lemma ExampleMarkup()
    ensures InsertedHtml([Plain("<b>"), Mark("hi"), Plain("</b>")])
            == "<b>" + (MarkOpen + ("hi" + (MarkClose + "</b>")))
  {
    var segs := [Plain("<b>"), Mark("hi"), Plain("</b>")];
    assert segs[1..] == [Mark("hi"), Plain("</b>")];
    assert segs[1..][1..] == [Plain("</b>")];
    assert InsertedHtml([Plain("</b>")]) == "</b>" + InsertedHtml([]);
  }

  /** The tags `<b>` and `</b>` show nothing. */
  lemma BoldTagsShowNothing(after: string)
    ensures ShownText("<b>" + after) == ShownText(after)
    ensures ShownText("</b>") == []
  {
    assert ("<b>" + after)[1..] == "b" + ">" + after;
    AfterTagPast("b", after);
    assert "</b>"[1..] == "/b" + ">" + "";
    AfterTagPast("/b", "");
  }

  /** A code point other than `<` and `&` shows itself. */
  lemma ShownStep(h: string)
    requires h != [] && h[0] != '<' && h[0] != '&'
    ensures ShownText(h) == [h[0]] + ShownText(h[1..])
  {
    assert |h| >= 4 ==> h[..4][0] == h[0];
    assert |h| >= 5 ==> h[..5][0] == h[0];
  }

  /** A non-empty string is its first code point followed by the rest. */
  lemma ConsSplit(t: string, x: string)
    requires t != []
    ensures [t[0]] + (t[1..] + x) == t + x
  {
    assert t == [t[0]] + t[1..];
    assert [t[0]] + (t[1..] + x) == ([t[0]] + t[1..]) + x;
  }

  /** Text without `<` and `&` shows itself. */
  lemma {:induction false} ShownPlain(t: string, rest: string)
    requires forall k :: 0 <= k < |t| ==> t[k] != '<' && t[k] != '&'
    ensures ShownText(t + rest) == t + ShownText(rest)
  {
    if t != [] {
      var h := t + rest;
      assert h[0] == t[0] && h[1..] == t[1..] + rest;
      ShownStep(h);
      ShownPlain(t[1..], rest);
      ConsSplit(t, ShownText(rest));
    } else {
      assert t + rest == rest;
    }
  }

  /** One code point as markup text: `<` and `&` as the entities `&lt;` and `&amp;`,
      anything else as itself. */
  function EscapeChar(c: char): (r: string)
    ensures r != [] && forall k :: 0 <= k < |r| ==> r[k] != '<'
  {
    if c == '<' then "&lt;" else if c == '&' then "&amp;" else [c]
  }

  /** The text with every code point escaped. */
  function EscapeHtml(t: string): (r: string)
    ensures forall k :: 0 <= k < |r| ==> r[k] != '<'
  {
    if t == [] then []
    else
      var head, tail := EscapeChar(t[0]), EscapeHtml(t[1..]);
      assert forall k :: |head| <= k < |head + tail| ==> (head + tail)[k] == tail[k - |head|];
      head + tail
  }

  /** An escaped code point shows itself. */
  lemma ShownEscapedChar(c: char, tail: string)
    ensures ShownText(EscapeChar(c) + tail) == [c] + ShownText(tail)
  {
    var h := EscapeChar(c) + tail;
    assert h[|EscapeChar(c)|..] == tail;
    if c == '<' {
      assert h[..4] == "&lt;";
    } else if c == '&' {
      assert h[..5] == "&amp;";
      assert h[..4] != "&lt;" by {
        assert h[1] == 'a';
      }
    } else {
      assert h[0] == c;
      ShownStep(h);
    }
  }

  /** An escaped text shows exactly itself. */
  lemma {:induction false} ShownEscaped(t: string, rest: string)
    ensures ShownText(EscapeHtml(t) + rest) == t + ShownText(rest)
  {
    if t != [] {
      var tail := EscapeHtml(t[1..]) + rest;
      assert EscapeHtml(t) + rest == EscapeChar(t[0]) + tail;
      ShownEscapedChar(t[0], tail);
      ShownEscaped(t[1..], rest);
      ConsSplit(t, ShownText(rest));
    } else {
      assert EscapeHtml(t) + rest == rest;
    }
  }

  /** The highlighted markup with the node's text escaped. */
  function InsertedHtmlEscaped(segs: seq<Segment>): string {
    if segs == [] then ""
    else
      (match segs[0]
       case Plain(t) => EscapeHtml(t)
       case Mark(t) => MarkOpen + EscapeHtml(t) + MarkClose) + InsertedHtmlEscaped(segs[1..])
  }

  /** The string `highlightInTextNode` would assign with the text escaped before it is
      wrapped: the parser shows the node's text unchanged, every `<` in the markup being
      a tag of a mark. Whether anything is assigned is decided by the regex as before. */
  function HighlightHtmlCorrected(text: string, term: string, fold: char -> char): (r: string)
    ensures ShownText(r) == text
  {
    var segs := HighlightInText(text, term, fold);
    EscapedShowsText(segs);
    InsertedHtmlEscaped(segs)
  }

  /** The escaped markup shows the segments' text. */
  lemma {:induction false} EscapedShowsText(segs: seq<Segment>)
    ensures ShownText(InsertedHtmlEscaped(segs)) == Flatten(segs)
  {
    if segs != [] {
      var rest := InsertedHtmlEscaped(segs[1..]);
      EscapedShowsText(segs[1..]);
      match segs[0]
      case Plain(t) =>
        ShownEscaped(t, rest);
      case Mark(t) =>
        assert InsertedHtmlEscaped(segs) == MarkOpen + (EscapeHtml(t) + (MarkClose + rest));
        MarkTagsShowNothing(EscapeHtml(t) + (MarkClose + rest));
        ShownEscaped(t, MarkClose + rest);
        MarkTagsShowNothing(rest);
    }
  }

  // ---------------------------------------------------------------------------
  // Regex escaping

  /** The characters `escapeRegExp` escapes. */
  predicate IsRegexSpecial(c: char) {
    c in ".*+?^${}()|[]\\"
  }

  /** `escapeRegExp`: a backslash before every special character, every other character
      unchanged. */
  function EscapeRegExp(s: string): (r: string)
    ensures |r| >= |s|
    ensures s == [] ==> r == []
    ensures s != [] && IsRegexSpecial(s[0]) ==> |r| >= 2 && r[..2] == ['\\', s[0]]
    ensures s != [] && !IsRegexSpecial(s[0]) ==> r[0] == s[0]
    ensures |s| == 1 ==> r == (if IsRegexSpecial(s[0]) then ['\\', s[0]] else s)
  {
    if s == [] then []
    else (if IsRegexSpecial(s[0]) then ['\\', s[0]] else [s[0]]) + EscapeRegExp(s[1..])
  }

  /** Reads an escaped string back: a backslash and the character after it stand for that
      character. */
  function Unescape(s: string): string
    decreases |s|
  {
    if s == [] then []
    else if s[0] == '\\' && |s| >= 2 then [s[1]] + Unescape(s[2..])
    else [s[0]] + Unescape(s[1..])
  }

  /** Escaping loses nothing: unescaping gives the string back. */
  lemma {:induction false} EscapeRoundTrip(s: string)
    ensures Unescape(EscapeRegExp(s)) == s
  {
    if s != [] {
      var rest := EscapeRegExp(s[1..]);
      EscapeRoundTrip(s[1..]);
      if IsRegexSpecial(s[0]) {
        assert EscapeRegExp(s) == ['\\', s[0]] + rest;
        assert (['\\', s[0]] + rest)[2..] == rest;
      } else {
        assert EscapeRegExp(s) == [s[0]] + rest;
        assert ([s[0]] + rest)[1..] == rest;
        assert s[0] != '\\';
      }
    }
  }

  /** Escaping works character by character: the escape of a concatenation is the
      concatenation of the escapes. With the one-character cases of `EscapeRegExp`'s
      contract this fixes the escape of every string. */
  lemma {:induction false} EscapeConcat(a: string, b: string)
    ensures EscapeRegExp(a + b) == EscapeRegExp(a) + EscapeRegExp(b)
  {
    if a == [] {
      assert a + b == b;
    } else {
      assert (a + b)[0] == a[0];
      assert (a + b)[1..] == a[1..] + b;
      EscapeConcat(a[1..], b);
    }
  }

  /** Escaping is the identity on strings without special characters. */
  lemma {:induction false} EscapePlain(s: string)
    requires forall k :: 0 <= k < |s| ==> !IsRegexSpecial(s[k])
    ensures EscapeRegExp(s) == s
  {
    if s != [] {
      EscapePlain(s[1..]);
    }
  }

  // ---------------------------------------------------------------------------
  // Opening the accordion item named in the URL hash

  /** The hash target's parent element, reduced to the ids of its descendant elements in
      document order (`''` for an element without id) and the target's position among
      them. */
  datatype Wrapper = Wrapper(ids: seq<string>, target: nat)

  /** How many ids before position `n` start with `item-`. */
  function ItemsBefore(ids: seq<string>, n: nat): (r: nat)
    requires n <= |ids|
    ensures r <= n
  {
    if n == 0 then 0
    else ItemsBefore(ids, n - 1) + (if StartsWith(ids[n - 1], "item-") then 1 else 0)
  }

  /** `handleAccordionOpening`: for a hash starting with `#item-` whose target has a parent,
      the target's index among the parent's descendants whose id starts with `item-`;
      nothing when that index is -1. */
  function AccordionToOpen(hash: string, wrapper: Option<Wrapper>): (r: Option<nat>)
    requires wrapper.Some? ==> wrapper.value.target < |wrapper.value.ids|
    ensures !StartsWith(hash, "#item-") || wrapper.None? ==> r == None
    ensures r.Some? ==> StartsWith(wrapper.value.ids[wrapper.value.target], "item-")
                        && r.value == ItemsBefore(wrapper.value.ids, wrapper.value.target)
  {
    if !StartsWith(hash, "#item-") then None
    else
      match wrapper
      case None => None
      case Some(w) =>
        if StartsWith(w.ids[w.target], "item-") then Some(ItemsBefore(w.ids, w.target)) else None
  }

  /** The element found by the hash carries the hash's id, so its index is always found. */
  lemma HashTargetIsIndexed(hash: string, w: Wrapper)
    requires StartsWith(hash, "#item-") && w.target < |w.ids| && w.ids[w.target] == hash[1..]
    ensures AccordionToOpen(hash, Some(w)) == Some(ItemsBefore(w.ids, w.target))
  {
    assert hash[1..][..5] == hash[1..6] == "item-";
  }

  // ---------------------------------------------------------------------------
  // Waiting for an accordion to stop animating

  /** The limit on stability checks. */
  const MaxAttempts: nat := 20

  /** Attempt `k` saw a height change under 5 pixels; `height(0)` is read before the
      first attempt and `height(k)` at attempt `k`. */
  predicate StableAt(height: nat -> int, k: nat)
    requires k >= 1
  {
    -5 < height(k) - height(k - 1) < 5
  }

  /** The number of consecutive stable attempts ending at attempt `k`. */
  function StableRun(height: nat -> int, k: nat): (r: nat)
    ensures r <= k
  {
    if k == 0 then 0 else if StableAt(height, k) then StableRun(height, k - 1) + 1 else 0
  }

  /** `waitForAccordionAnimation`: the attempt at which the page scrolls, exactly once:
      the first attempt that completes three consecutive stable checks, or attempt 20. */
  method WaitForAnimation(height: nat -> int) returns (attempt: nat)
    ensures 1 <= attempt <= MaxAttempts
    ensures forall k :: 1 <= k < attempt ==> StableRun(height, k) < 3
    ensures attempt < MaxAttempts ==> StableRun(height, attempt) >= 3
  {
    attempt := 0;
    var lastHeight := height(0);
    var stableCount := 0;
    while true
      invariant 0 <= attempt < MaxAttempts
      invariant lastHeight == height(attempt)
      invariant stableCount == StableRun(height, attempt)
      invariant forall k :: 1 <= k <= attempt ==> StableRun(height, k) < 3
      decreases MaxAttempts - attempt
    {
      attempt := attempt + 1;
      var currentHeight := height(attempt);
      var change := currentHeight - lastHeight;
      if (if change < 0 then -change else change) < 5 {
        stableCount := stableCount + 1;
        if stableCount >= 3 {
          return;
        }
      } else {
        stableCount := 0;
      }
      lastHeight := currentHeight;
      if attempt >= MaxAttempts {
        return;
      }
    }
  }
}

=== FILE: text.dfy ===
/** String helpers shared by the PHP and JavaScript models: occurrence tests, joining
    with a separator (PHP `implode`, JavaScript `Array.prototype.join`), splitting on a
    literal separator (JavaScript `String.prototype.split`) and decimal rendering of
    integers (PHP `(string)` casts, JavaScript template literals). Strings are sequences
    of code points. */
module Text {

  /** `w` occurs in `s` starting at index `i`. */
  predicate OccursAt(s: string, i: int, w: string) {
    0 <= i && i + |w| <= |s| && s[i..i + |w|] == w
  }

  /** `w` is a substring of `s` (JavaScript `includes`). */
  predicate Contains(s: string, w: string) {
    exists i :: 0 <= i <= |s| - |w| && OccursAt(s, i, w)
  }

  /** `s` starts with `p` (JavaScript `startsWith`). */
  predicate StartsWith(s: string, p: string) {
    p <= s
  }

  /** The parts joined with `sep` between neighbours (PHP `implode`). */
  function Join(parts: seq<string>, sep: string): (r: string)
    ensures parts == [] ==> r == ""
    ensures |parts| == 1 ==> r == parts[0]
  {
    if parts == [] then ""
    else if |parts| == 1 then parts[0]
    else parts[0] + sep + Join(parts[1..], sep)
  }

  /** Joining two non-empty lists puts exactly one separator between their joins. */
  lemma {:induction false} JoinAppend(a: seq<string>, b: seq<string>, sep: string)
    requires a != [] && b != []
    ensures Join(a + b, sep) == Join(a, sep) + sep + Join(b, sep)
  {
    if |a| == 1 {
      assert (a + b)[1..] == b;
    } else {
      assert (a + b)[1..] == a[1..] + b;
      JoinAppend(a[1..], b, sep);
    }
  }

  /** A join starts with its first part, followed by the separator when more parts follow. */
  lemma JoinHead(parts: seq<string>, sep: string)
    requires parts != []
    ensures StartsWith(Join(parts, sep), parts[0])
    ensures |parts| > 1 ==> StartsWith(Join(parts, sep), parts[0] + sep)
  {
  }

  /** The decimal digit for `d`. */
  function Digit(d: int): (c: char)
    requires 0 <= d < 10
    ensures '0' <= c <= '9'
    ensures (c == '0') == (d == 0)
  {
    "0123456789"[d]
  }

  /** The decimal rendering of a natural number, without leading zeros. */
  function NatDecimal(n: nat): (r: string)
    ensures |r| > 0
    ensures forall k :: 0 <= k < |r| ==> '0' <= r[k] <= '9'
    ensures r[0] == '0' <==> n == 0
    ensures n >= 10 ==> |r| >= 2
  {
    if n < 10 then [Digit(n)] else NatDecimal(n / 10) + [Digit(n % 10)]
  }

  /** The decimal rendering of an integer, with a leading `-` for negative values
      (PHP's string form of an `int`, JavaScript's `String` of an integral number). */
  function Decimal(n: int): (r: string)
    ensures |r| > 0
    ensures r == "0" <==> n == 0
  {
    if n < 0 then "-" + NatDecimal(-n) else NatDecimal(n)
  }

  /** Value of a string of decimal digits; inverse of `NatDecimal`. */
  function DigitsValue(s: string): nat
    requires forall k :: 0 <= k < |s| ==> '0' <= s[k] <= '9'
  {
    if s == [] then 0 else 10 * DigitsValue(s[..|s| - 1]) + (s[|s| - 1] as int - '0' as int)
  }

  /** Reading back the decimal rendering of `n` gives `n`. */
  lemma {:induction false} NatDecimalRoundTrip(n: nat)
    ensures DigitsValue(NatDecimal(n)) == n
  {
    var r := NatDecimal(n);
    if n >= 10 {
      NatDecimalRoundTrip(n / 10);
      assert r[..|r| - 1] == NatDecimal(n / 10);
    }
  }

  /** The index of the first occurrence of `sep` in `s` at or after `from`, if any. */
  function FindFrom(s: string, sep: string, from: nat): (r: int)
    requires |sep| > 0
    requires from <= |s|
    ensures r == -1 || (from <= r && OccursAt(s, r, sep))
    ensures r == -1 ==> forall k :: from <= k <= |s| - |sep| ==> !OccursAt(s, k, sep)
    ensures r != -1 ==> forall k :: from <= k < r ==> !OccursAt(s, k, sep)
    decreases |s| - from
  {
    if from + |sep| > |s| then -1
    else if OccursAt(s, from, sep) then from
    else FindFrom(s, sep, from + 1)
  }

  /** The search finds the first occurrence. */
  lemma FindFromFirst(s: string, sep: string, p: nat)
    requires |sep| > 0 && OccursAt(s, p, sep)
    requires forall k :: 0 <= k < p ==> !OccursAt(s, k, sep)
    ensures FindFrom(s, sep, 0) == p
  {
    var r := FindFrom(s, sep, 0);
    assert r != -1;
  }

  /** JavaScript `s.split(sep)` for a non-empty literal separator: the pieces between
      successive leftmost non-overlapping occurrences of `sep`. */
  function Split(s: string, sep: string): (r: seq<string>)
    requires |sep| > 0
    ensures |r| > 0
    ensures forall k :: 0 <= k < |r| ==> !Contains(r[k], sep)
    decreases |s|
  {
    var i := FindFrom(s, sep, 0);
    if i == -1 then
      assert !Contains(s, sep) by {
        forall k | 0 <= k <= |s| - |sep| ensures !OccursAt(s, k, sep) { }
      }
      [s]
    else
      var head := s[..i];
      assert !Contains(head, sep) by {
        forall k | 0 <= k <= |head| - |sep| ensures !OccursAt(head, k, sep) {
          assert k < i;
          assert !OccursAt(s, k, sep);
          assert head[k..k + |sep|] == s[k..k + |sep|];
        }
      }
      [head] + Split(s[i + |sep|..], sep)
  }

  /** Splitting and joining back with the same separator restores the string. */
  lemma {:induction false} SplitJoin(s: string, sep: string)
    requires |sep| > 0
    ensures Join(Split(s, sep), sep) == s
    decreases |s|
  {
    var i := FindFrom(s, sep, 0);
    if i != -1 {
      var rest := s[i + |sep|..];
      SplitJoin(rest, sep);
      var tail := Split(rest, sep);
      assert Split(s, sep) == [s[..i]] + tail;
      assert s == s[..i] + sep + rest by {
        assert s[i..i + |sep|] == sep;
      }
    }
  }

  /** Sequence concatenation regroups freely. */
  lemma ConcatAssoc<T>(a: seq<T>, b: seq<T>, c: seq<T>)
    ensures (a + b) + c == a + (b + c)
  {
  }
}

=== FILE: translation.dfy ===
/** Locale resolution over the entry store, shared by the `translated_slug` and
    `accordion_for_content_type` template modifiers: given a `pages` entry and a target
    locale, find the entry of the same page in that locale. */
module Translation {
  import opened Optional
  import opened Text
  import opened Entries

  /** What a modifier call does: return a value (PHP `null` is `None`), or stop with a PHP
      error, which happens when an entry names an origin id that no entry carries
      (`$sourceEntry->origin()` is then `null` and `->locale()` is called on it). */
  datatype Outcome = Returns(value: Option<string>) | Fails

  /** The result of looking for the target-locale version of an entry. */
  datatype Resolution = Resolved(entry: Entry) | Unresolved | DanglingOrigin

  /** PHP's `empty()` on a string: `''` and `'0'` are empty. */
  predicate EmptyString(s: string) {
    s == "" || s == "0"
  }

  // ---------------------------------------------------------------------------
  // Store queries. A query returns its results in store order and `->first()` takes the
  // earliest, so each query is "the first index at or after `from` whose entry satisfies
  // the query's conditions".

  /** The first index at or after `from` whose entry satisfies `p`. */
  function FirstFrom(store: seq<Entry>, p: Entry -> bool, from: nat): (r: Option<nat>)
    requires from <= |store|
    ensures r.Some? ==> from <= r.value < |store| && p(store[r.value])
                        && forall k :: from <= k < r.value ==> !p(store[k])
    ensures r.None? <==> forall k :: from <= k < |store| ==> !p(store[k])
    decreases |store| - from
  {
    if from == |store| then None
    else if p(store[from]) then Some(from)
    else FirstFrom(store, p, from + 1)
  }

  /** The first entry of the store satisfying `p`. */
  function First(store: seq<Entry>, p: Entry -> bool): (r: Option<Entry>)
    ensures r.Some? ==> exists i :: 0 <= i < |store| && store[i] == r.value && p(r.value)
                                    && forall k :: 0 <= k < i ==> !p(store[k])
    ensures r.None? <==> forall e :: e in store ==> !p(e)
  {
    match FirstFrom(store, p, 0)
    case Some(i) => Some(store[i])
    case None => None
  }

  /** `where('collection', 'pages')->where('slug', $slug)`. */
  predicate PageWithSlug(e: Entry, slug: string) {
    e.collection == "pages" && e.slug == slug
  }

  /** `where('collection', 'pages')->where('origin', $root)->where('locale', $locale)`. */
  predicate TranslationOf(e: Entry, root: string, locale: string) {
    e.collection == "pages" && e.origin == Some(root) && e.locale == locale
  }

  /** The first `pages` entry with the given slug, in any locale. */
  function FindPage(store: seq<Entry>, slug: string): (r: Option<Entry>)
    ensures r.Some? ==> r.value in store && PageWithSlug(r.value, slug)
    ensures r.None? <==> forall e :: e in store ==> !PageWithSlug(e, slug)
  {
    First(store, (e: Entry) => PageWithSlug(e, slug))
  }

  /** `Entry::find($id)`, as `$entry->origin()` uses it: the entry with that id, in any
      collection. */
  function FindById(store: seq<Entry>, id: string): (r: Option<Entry>)
    ensures r.Some? ==> r.value in store && r.value.id == id
    ensures r.None? <==> forall e :: e in store ==> e.id != id
  {
    First(store, (e: Entry) => e.id == id)
  }

  /** The first translation of `root` into `locale`. */
  function FindTranslation(store: seq<Entry>, root: string, locale: string): (r: Option<Entry>)
    ensures r.Some? ==> exists i :: 0 <= i < |store| && store[i] == r.value
                                    && TranslationOf(r.value, root, locale)
                                    && forall k :: 0 <= k < i ==> !TranslationOf(store[k], root, locale)
    ensures r.None? <==> forall e :: e in store ==> !TranslationOf(e, root, locale)
  {
    First(store, (e: Entry) => TranslationOf(e, root, locale))
  }

  // ---------------------------------------------------------------------------
  // Target resolution

  /** The id whose translations are searched: the origin's for a translation, the entry's
      own for an origin entry. */
  function Root(source: Entry): string {
    match source.origin
    case Some(o) => o
    case None => source.id
  }

  /** `getTargetEntry($sourceEntry, $targetLocale)`: the source itself when it is already in
      the target locale; for a translation, its origin when that is in the target locale,
      otherwise the origin's first translation into it; for an origin entry, its first
      translation into the target locale.

      The contract: a source already in the target locale is returned as is; a resolved
      entry is in the target locale and belongs to the source's
      page (the source, its origin, or the first `pages` translation of the root); the
      call fails exactly when the source is not in the target locale and names an origin
      id no entry carries; and nothing is found exactly when neither the source, nor its
      origin, nor any translation of the root is in the target locale. */
  function TargetEntry(store: seq<Entry>, source: Entry, target: string): (r: Resolution)
    ensures source.locale == target ==> r == Resolved(source)
    ensures r.Resolved? ==> r.entry.locale == target
    ensures r.Resolved? ==> r.entry == source || r.entry in store
    ensures r.Resolved? ==>
              r.entry == source
              || (source.origin.Some? && r.entry.id == Root(source))
              || exists i :: 0 <= i < |store| && store[i] == r.entry
                             && TranslationOf(r.entry, Root(source), target)
                             && forall k :: 0 <= k < i ==> !TranslationOf(store[k], Root(source), target)
    ensures r.DanglingOrigin? <==>
              source.locale != target && source.origin.Some?
              && forall e :: e in store ==> e.id != source.origin.value
    ensures r.Unresolved? <==>
              source.locale != target
              && (source.origin.Some? ==>
                    FindById(store, Root(source)).Some?
                    && FindById(store, Root(source)).value.locale != target)
              && forall e :: e in store ==> !TranslationOf(e, Root(source), target)
  {
    if source.locale == target then Resolved(source)
    else
      match source.origin
      case Some(o) =>
        (match FindById(store, o)
         case None => DanglingOrigin
         case Some(origin) =>
           if origin.locale == target then Resolved(origin)
           else
             match FindTranslation(store, origin.id, target)
             case Some(t) => Resolved(t)
             case None => Unresolved)
      case None =>
        match FindTranslation(store, source.id, target)
        case Some(t) => Resolved(t)
        case None => Unresolved
  }

  /** The origin in the target locale is preferred to any translation in that locale. */
  lemma OriginPreferred(store: seq<Entry>, source: Entry, target: string, origin: Entry)
    requires source.locale != target && source.origin == Some(origin.id)
    requires FindById(store, origin.id) == Some(origin) && origin.locale == target
    ensures TargetEntry(store, source, target) == Resolved(origin)
  {
  }

  // ---------------------------------------------------------------------------
  // `translated_slug`

  /** `buildUrl($entry, $locale)`: the default locale `'de'` has no prefix, every other
      locale prefixes the slug with `locale/`. */
  function BuildUrl(e: Entry, locale: string): (r: string)
    ensures locale == "de" ==> r == e.slug
    ensures locale != "de" ==> StartsWith(r, locale + "/") && r[|locale| + 1..] == e.slug
  {
    if locale == "de" then e.slug else locale + "/" + e.slug
  }

  /** For one locale, distinct slugs give distinct URLs. */
  lemma BuildUrlInjective(a: Entry, b: Entry, locale: string)
    requires BuildUrl(a, locale) == BuildUrl(b, locale)
    ensures a.slug == b.slug
  {
    if locale != "de" {
      assert a.slug == BuildUrl(a, locale)[|locale| + 1..];
    }
  }

  /** `translated_slug`: the target-locale URL of the first `pages` entry with slug `value`,
      the target locale being the first parameter. */
  function TranslatedSlug(value: string, params: seq<string>, store: seq<Entry>): (r: Outcome)
    ensures EmptyString(value) || params == [] ==> r == Returns(None)
    ensures r.Returns? && r.value.Some? ==>
              exists t :: t in store && t.locale == params[0] && r.value.value == BuildUrl(t, params[0])
    ensures !EmptyString(value) && params != [] && FindPage(store, value).None? ==> r == Returns(None)
    ensures !EmptyString(value) && params != [] && FindPage(store, value).Some?
            && FindPage(store, value).value.locale == params[0] ==>
              r == Returns(Some(BuildUrl(FindPage(store, value).value, params[0])))
    ensures !EmptyString(value) && params != [] && FindPage(store, value).Some? ==>
              match TargetEntry(store, FindPage(store, value).value, params[0])
              case Resolved(t) => r == Returns(Some(BuildUrl(t, params[0])))
              case Unresolved => r == Returns(None)
              case DanglingOrigin => r == Fails
  {
    if EmptyString(value) || params == [] then Returns(None)
    else
      match FindPage(store, value)
      case None => Returns(None)
      case Some(source) =>
        match TargetEntry(store, source, params[0])
        case Resolved(t) => Returns(Some(BuildUrl(t, params[0])))
        case Unresolved => Returns(None)
        case DanglingOrigin => Fails
  }

  /** `translated_slug` follows the page into the target locale: for a page found by its
      slug, the URL is that of the page's translation into the locale when there is one
      (the first `pages` translation of the page's root, in store order), or of its origin
      when the origin is in that locale. */
  lemma TranslatedSlugFollowsTranslation(value: string, params: seq<string>, store: seq<Entry>, source: Entry, t: Entry)
    requires !EmptyString(value) && params != [] && FindPage(store, value) == Some(source)
    requires source.locale != params[0] && source.origin.None?
    requires FindTranslation(store, source.id, params[0]) == Some(t)
    ensures TranslatedSlug(value, params, store) == Returns(Some(BuildUrl(t, params[0])))
    ensures TranslationOf(t, source.id, params[0])
  {
    var i :| 0 <= i < |store| && store[i] == t && TranslationOf(t, source.id, params[0])
             && forall k :: 0 <= k < i ==> !TranslationOf(store[k], source.id, params[0]);
  }
}

=== FILE: update_index.dfy ===
/** The index command's per-entry computations: the searchable text (`getSearchableContent`)
    and the accordion anchors (`getAccordionAnchors`, `getAccordionContent`). Reading
    entries, saving fields, logging and rebuilding the search index are not modelled. */
module UpdateIndex {
  import opened Php
  import opened Text
  import opened Bard
  import opened Entries

  // ---------------------------------------------------------------------------
  // Collecting fragments

  /** `if (isset($v[$key])) $content[] = $v[$key];` */
  function AppendIfSet(v: Value, key: string, content: seq<Value>): (r: seq<Value>)
    ensures r == content || (IsSet(v, key) && r == content + [Get(v, key)])
  {
    if IsSet(v, key) then content + [Get(v, key)] else content
  }

  /** `if ($v) $content[] = $v;` */
  function AppendIfTruthy(v: Value, content: seq<Value>): (r: seq<Value>)
    ensures r == (if Truthy(v) then content + [v] else content)
  {
    if Truthy(v) then content + [v] else content
  }

  /** One tag: a string tag as it is, otherwise its `title` when set, otherwise `''`. */
  function TagLabel(tag: Value): (r: Value)
    ensures r != Null
    ensures r.Str? || (!tag.Str? && r == Get(tag, "title"))
  {
    if tag.Str? then tag else if IsSet(tag, "title") then Get(tag, "title") else Str("")
  }

  /** One label per tag, in order. */
  function TagLabels(tags: seq<Value>): (r: seq<Value>)
    ensures |r| == |tags|
    ensures forall k :: 0 <= k < |tags| ==> r[k] == TagLabel(tags[k])
  {
    seq(|tags|, k requires 0 <= k < |tags| => TagLabel(tags[k]))
  }

  /** The `foreach` over an accordion item's `accordion_element_contents`: each content
      block's `editor` field, when set, through `processBardField`. */
  function EditorFields(blocks: seq<Value>, content: seq<Value>): (r: seq<Value>)
    ensures content <= r
    ensures (forall k :: 0 <= k < |blocks| ==> !IsSet(blocks[k], "editor")) ==> r == content
  {
    if blocks == [] then content
    else
      var next := if IsSet(blocks[0], "editor") then ProcessBardField(Get(blocks[0], "editor"), content) else content;
      assert forall k :: 0 <= k < |blocks[1..]| ==> blocks[1..][k] == blocks[k + 1];
      EditorFields(blocks[1..], next)
  }

  /** The editors of one accordion item, when its `accordion_element_contents` is an array. */
  function ItemEditors(item: Value, content: seq<Value>): (r: seq<Value>)
    ensures content <= r
    ensures !Get(item, "accordion_element_contents").Arr? ==> r == content
  {
    var contents := Get(item, "accordion_element_contents");
    if contents.Arr? then EditorFields(Elements(contents), content) else content
  }

  /** The items of an accordion element: each item's title (when set) and then its
      editors, whether or not it has a title. */
  function AccordionItems(items: seq<Value>, content: seq<Value>): (r: seq<Value>)
    ensures content <= r
  {
    if items == [] then content
    else AccordionItems(items[1..], AccordionItem(items[0], content))
  }

  /** One accordion item: its title when set, then its editors. */
  function AccordionItem(item: Value, content: seq<Value>): (r: seq<Value>)
    ensures content <= r
    ensures IsSet(item, "accordion_title") ==> |content| < |r| && r[|content|] == Get(item, "accordion_title")
    ensures !IsSet(item, "accordion_title") && !Get(item, "accordion_element_contents").Arr? ==> r == content
  {
    ItemEditors(item, AppendIfSet(item, "accordion_title", content))
  }

  /** The images of a gallery: each image's caption and then its alt text, when set. */
  function GalleryImages(images: seq<Value>, content: seq<Value>): (r: seq<Value>)
    ensures content <= r
    ensures |r| <= |content| + 2 * |images|
  {
    if images == [] then content
    else GalleryImages(images[1..], AppendIfSet(images[0], "alt", AppendIfSet(images[0], "caption", content)))
  }

  /** The value a page element's `switch` compares: `$element['type'] ?? ''`. */
  function TypeOf(element: Value): (r: Value)
    ensures r != Null
  {
    GetOrEmpty(element, "type")
  }

  /** One page element: the `switch` on its type, the first matching `case` winning. */
  function PageElement(element: Value, content: seq<Value>): (r: seq<Value>)
    ensures content <= r
    ensures var t := TypeOf(element);
            (!SwitchMatches(t, "editor") && !SwitchMatches(t, "accordion") && !SwitchMatches(t, "single_image")
             && !SwitchMatches(t, "image_gallery") && !SwitchMatches(t, "contact_information")) ==> r == content
  {
    var t := TypeOf(element);
    if SwitchMatches(t, "editor") then
      if IsSet(element, "editor") then ProcessBardField(Get(element, "editor"), content)
      else if IsSet(element, "content") then ProcessBardField(Get(element, "content"), content)
      else content
    else if SwitchMatches(t, "accordion") then
      var items := Get(element, "accordion_elements");
      if items.Arr? then AccordionItems(Elements(items), content) else content
    else if SwitchMatches(t, "single_image") then
      AppendIfSet(element, "image_alt", AppendIfSet(element, "image_caption", content))
    else if SwitchMatches(t, "image_gallery") then
      var images := Get(element, "images");
      if images.Arr? then GalleryImages(Elements(images), content) else content
    else if SwitchMatches(t, "contact_information") then
      AppendIfSet(element, "contact_text", content)
    else content
  }

  /** The `foreach` over `page_elements`. */
  function PageElements(elements: seq<Value>, content: seq<Value>): (r: seq<Value>)
    ensures content <= r
  {
    if elements == [] then content
    else PageElements(elements[1..], PageElement(elements[0], content))
  }

  /** A field that may hold Bard content or a plain value (agenda `editor` and `summary`,
      `content`, `description`): nothing when falsy, `processBardField` for an array,
      and the value itself otherwise. */
  function BardOrValue(v: Value, content: seq<Value>): (r: seq<Value>)
    ensures !Truthy(v) ==> r == content
    ensures Truthy(v) && !v.Arr? ==> r == content + [v]
    ensures content <= r
  {
    if !Truthy(v) then content
    else if v.Arr? then ProcessBardField(v, content)
    else content + [v]
  }

  /** The fragment list of `getSearchableContent` before its post-pass, built in the
      source's order: title, SEO title and description, tags, page elements (pages only),
      agenda editor and summary (agenda only), content, description. */
  function SearchableFragments(e: Entry): (r: seq<Value>)
    ensures |r| >= 1 && r[0] == Field(e, "title")
  {
    var c0 := [Field(e, "title")];
    var c1 := AppendIfTruthy(Field(e, "open_graph_description"), AppendIfTruthy(Field(e, "open_graph_title"), c0));
    var tags := Field(e, "tags");
    var c2 := if Truthy(tags) && tags.Arr? then c1 + TagLabels(Elements(tags)) else c1;
    var elements := Field(e, "page_elements");
    var c3 := if e.collection == "pages" && elements.Arr? then PageElements(Elements(elements), c2) else c2;
    var c4 := if e.collection == "agenda" then BardOrValue(Field(e, "summary"), BardOrValue(Field(e, "editor"), c3)) else c3;
    var c5 := BardOrValue(Field(e, "content"), c4);
    BardOrValue(Field(e, "description"), c5)
  }

  // ---------------------------------------------------------------------------
  // Post-pass

  /** The post-pass cast: arrays become `''`, everything else its string form. */
  function Cast(v: Value): (r: string)
    ensures v.Arr? ==> r == ""
    ensures !v.Arr? ==> r == ToStr(v)
  {
    if v.Arr? then "" else ToStr(v)
  }

  /** What `array_filter` keeps of a string: everything except `''` and `'0'`. */
  predicate Kept(s: string) {
    s != "" && s != "0"
  }

  /** `array_filter` over strings: the kept strings, in order. */
  function Survivors(xs: seq<string>): (r: seq<string>)
    ensures |r| <= |xs|
    ensures forall s :: s in r <==> s in xs && Kept(s)
  {
    if xs == [] then []
    else if Kept(xs[0]) then [xs[0]] + Survivors(xs[1..])
    else Survivors(xs[1..])
  }

  /** The cast `is_array($item) ? '' : (string)$item` applied to every fragment. */
  function CastAll(vs: seq<Value>): (r: seq<string>)
    ensures |r| == |vs|
    ensures forall k :: 0 <= k < |vs| ==> r[k] == Cast(vs[k])
  {
    if vs == [] then [] else [Cast(vs[0])] + CastAll(vs[1..])
  }

  lemma CastAllConcat(a: seq<Value>, b: seq<Value>)
    ensures CastAll(a + b) == CastAll(a) + CastAll(b)
  {
    var l := CastAll(a + b);
    var r := CastAll(a) + CastAll(b);
    assert |l| == |r|;
    forall k | 0 <= k < |l| ensures l[k] == r[k] {
      if k < |a| { assert (a + b)[k] == a[k]; } else { assert (a + b)[k] == b[k - |a|]; }
    }
  }

  /** The post-pass of `getSearchableContent`: cast, filter and join with single spaces. */
  function PostPass(fragments: seq<Value>): (r: string)
    ensures r == "" <==> forall k :: 0 <= k < |fragments| ==> !Kept(Cast(fragments[k]))
  {
    var kept := Survivors(CastAll(fragments));
    JoinKeptEmpty(kept);
    assert kept != [] ==> kept[0] in kept;
    Join(kept, " ")
  }

  /** `getSearchableContent($entry)`: empty exactly when no fragment survives the cast and
      filter, and led by the title when that is a kept string. */
  function GetSearchableContent(e: Entry): (r: string)
    ensures r == "" <==>
              forall k :: 0 <= k < |SearchableFragments(e)| ==> !Kept(Cast(SearchableFragments(e)[k]))
    ensures Field(e, "title").Str? && Kept(Field(e, "title").s) ==> StartsWith(r, Field(e, "title").s)
  {
    var fragments := SearchableFragments(e);
    if Field(e, "title").Str? && Kept(Field(e, "title").s) then
      LeadingFragment(fragments);
      PostPass(fragments)
    else PostPass(fragments)
  }

  // ---------------------------------------------------------------------------
  // Accordion anchors

  /** One stored anchor record. */
  datatype Anchor = Anchor(title: Value, anchor: string, content: string)

  /** `array_filter` over PHP values: the truthy ones, in order. */
  function TruthyValues(vs: seq<Value>): (r: seq<Value>)
    ensures |r| <= |vs|
    ensures forall v :: v in r <==> v in vs && Truthy(v)
    ensures |vs| == 1 ==> r == (if Truthy(vs[0]) then vs else [])
  {
    if vs == [] then []
    else if Truthy(vs[0]) then [vs[0]] + TruthyValues(vs[1..])
    else TruthyValues(vs[1..])
  }

  /** `implode(' ', array_filter($values))`: no cast beforehand, so an array fragment is
      kept when it is non-empty and rendered as `"Array"`. */
  function ImplodeTruthy(vs: seq<Value>): (r: string)
    ensures r == "" <==> forall k :: 0 <= k < |vs| ==> !Truthy(vs[k])
  {
    var strs := StrAll(TruthyValues(vs));
    TruthyStringsKept(vs);
    JoinKeptEmpty(strs);
    assert TruthyValues(vs) != [] ==> TruthyValues(vs)[0] in TruthyValues(vs);
    Join(strs, " ")
  }

  /** A truthy value never converts to `''` or `'0'`. */
  lemma TruthyStringsKept(vs: seq<Value>)
    ensures forall s :: s in StrAll(TruthyValues(vs)) ==> Kept(s)
  {
    var tv := TruthyValues(vs);
    forall s | s in StrAll(tv)
      ensures Kept(s)
    {
      var k :| 0 <= k < |tv| && StrAll(tv)[k] == s;
      assert tv[k] in tv;
    }
  }

  /** PHP's string conversion applied to every value, as `implode` does. */
  function StrAll(vs: seq<Value>): (r: seq<string>)
    ensures |r| == |vs|
    ensures forall k :: 0 <= k < |vs| ==> r[k] == ToStr(vs[k])
  {
    if vs == [] then [] else [ToStr(vs[0])] + StrAll(vs[1..])
  }

  /** `getAccordionContent($item)`: the item's editors, filtered and space-joined. */
  function GetAccordionContent(item: Value): (r: string)
    ensures !Get(item, "accordion_element_contents").Arr? ==> r == ""
  {
    ImplodeTruthy(ItemEditors(item, []))
  }

  /** The anchor `"item-" + slug(title)`; `slug` is `Str::slug` applied to the title
      (including PHP's conversion of the title to a string). */
  function AnchorFor(title: Value, slug: Value -> string): (r: string)
    ensures StartsWith(r, "item-")
  {
    "item-" + slug(title)
  }

  /** The anchor record the index command stores for a titled item. */
  function AnchorOf(item: Value, slug: Value -> string): (r: Anchor)
    ensures r.title == Get(item, "accordion_title") && StartsWith(r.anchor, "item-")
    ensures !Get(item, "accordion_element_contents").Arr? ==> r.content == ""
  {
    var title := Get(item, "accordion_title");
    Anchor(title, AnchorFor(title, slug), GetAccordionContent(item))
  }

  /** The anchors of one accordion element's items: one per item with a title. */
  function ItemAnchors(items: seq<Value>, slug: Value -> string): (r: seq<Anchor>)
    ensures |r| <= |items|
    ensures forall k :: 0 <= k < |r| ==>
              r[k].title != Null && r[k].anchor == AnchorFor(r[k].title, slug)
  {
    if items == [] then []
    else
      var item := items[0];
      var rest := ItemAnchors(items[1..], slug);
      if IsSet(item, "accordion_title") then
        var a := AnchorOf(item, slug);
        assert a.title != Null && a.anchor == AnchorFor(a.title, slug);
        [a] + rest
      else rest
  }

  /** A page element whose items get anchors: its type is exactly `'accordion'` (a missing
      type reads as `''`) and its `accordion_elements` is an array. */
  predicate IsAccordion(element: Value) {
    GetOrEmpty(element, "type") == Str("accordion") && Get(element, "accordion_elements").Arr?
  }

  /** The items of an accordion element. */
  function ItemsOf(element: Value): seq<Value> {
    Elements(Get(element, "accordion_elements"))
  }

  /** The anchors of one page element: those of its items when it is an accordion, none
      otherwise; every titled item of an accordion has its anchor among them. */
  function ElementItemAnchors(element: Value, slug: Value -> string): (r: seq<Anchor>)
    ensures !IsAccordion(element) ==> r == []
    ensures forall k :: 0 <= k < |r| ==>
              r[k].title != Null && r[k].anchor == AnchorFor(r[k].title, slug)
    ensures forall a :: a in r ==> AnchoredIn(a, ItemsOf(element), slug)
    ensures IsAccordion(element) ==> r == ItemAnchors(ItemsOf(element), slug)
    ensures IsAccordion(element) ==>
              forall j :: 0 <= j < |ItemsOf(element)| && IsSet(ItemsOf(element)[j], "accordion_title") ==>
                AnchorOf(ItemsOf(element)[j], slug) in r
  {
    if IsAccordion(element) then
      ItemAnchorsComplete(ItemsOf(element), slug);
      ItemAnchors(ItemsOf(element), slug)
    else []
  }

  /** `a` is the anchor of some titled item of some accordion among `elements`. */
  ghost predicate AnchoredInElements(a: Anchor, elements: seq<Value>, slug: Value -> string) {
    exists i :: 0 <= i < |elements| && IsAccordion(elements[i]) && AnchoredIn(a, ItemsOf(elements[i]), slug)
  }

  /** The anchors of the page elements that are accordions, element by element. */
  function ElementAnchors(elements: seq<Value>, slug: Value -> string): (r: seq<Anchor>)
    ensures forall k :: 0 <= k < |r| ==>
              r[k].title != Null && r[k].anchor == AnchorFor(r[k].title, slug)
    ensures (forall i :: 0 <= i < |elements| ==> !IsAccordion(elements[i])) ==> r == []
    ensures |elements| == 1 ==> r == ElementItemAnchors(elements[0], slug)
  {
    if elements == [] then []
    else ElementItemAnchors(elements[0], slug) + ElementAnchors(elements[1..], slug)
  }

  /** `getAccordionAnchors($entry)`: nothing for an entry outside the `pages` collection or
      without an array of page elements; otherwise exactly the anchors of the titled items
      of its accordion elements. */
  function GetAccordionAnchors(e: Entry, slug: Value -> string): (r: seq<Anchor>)
    ensures e.collection != "pages" || !Field(e, "page_elements").Arr? ==> r == []
    ensures forall k :: 0 <= k < |r| ==>
              r[k].title != Null && StartsWith(r[k].anchor, "item-") && r[k].anchor == AnchorFor(r[k].title, slug)
    ensures e.collection == "pages" && Field(e, "page_elements").Arr? ==>
              forall a :: a in r <==> AnchoredInElements(a, Elements(Field(e, "page_elements")), slug)
  {
    var elements := Field(e, "page_elements");
    if e.collection == "pages" && elements.Arr? then
      ElementAnchorsComplete(Elements(elements), slug);
      ElementAnchors(Elements(elements), slug)
    else []
  }

  // ---------------------------------------------------------------------------
  // Properties of the searchable text

  lemma {:induction false} EditorFieldsAppendOnly(blocks: seq<Value>, content: seq<Value>)
    ensures EditorFields(blocks, content) == content + EditorFields(blocks, [])
  {
    if blocks != [] {
      var first := if IsSet(blocks[0], "editor") then ProcessBardField(Get(blocks[0], "editor"), []) else [];
      var next := if IsSet(blocks[0], "editor") then ProcessBardField(Get(blocks[0], "editor"), content) else content;
      if IsSet(blocks[0], "editor") {
        ProcessBardFieldAppendOnly(Get(blocks[0], "editor"), content);
      }
      assert next == content + first;
      assert EditorFields(blocks, content) == EditorFields(blocks[1..], next);
      assert EditorFields(blocks, []) == EditorFields(blocks[1..], first);
      EditorFieldsAppendOnly(blocks[1..], content + first);
      EditorFieldsAppendOnly(blocks[1..], first);
      ConcatAssoc(content, first, EditorFields(blocks[1..], []));
    }
  }

  lemma ItemEditorsAppendOnly(item: Value, content: seq<Value>)
    ensures ItemEditors(item, content) == content + ItemEditors(item, [])
  {
    var contents := Get(item, "accordion_element_contents");
    if contents.Arr? {
      EditorFieldsAppendOnly(Elements(contents), content);
    }
  }

  lemma AccordionItemAppendOnly(item: Value, content: seq<Value>)
    ensures AccordionItem(item, content) == content + AccordionItem(item, [])
  {
    var withTitle := AppendIfSet(item, "accordion_title", []);
    assert AppendIfSet(item, "accordion_title", content) == content + withTitle;
    var editors := ItemEditors(item, []);
    ItemEditorsAppendOnly(item, content + withTitle);
    ItemEditorsAppendOnly(item, withTitle);
    assert AccordionItem(item, content) == (content + withTitle) + editors;
    assert AccordionItem(item, []) == withTitle + editors;
    ConcatAssoc(content, withTitle, editors);
  }

  lemma {:induction false} AccordionItemsAppendOnly(items: seq<Value>, content: seq<Value>)
    ensures AccordionItems(items, content) == content + AccordionItems(items, [])
  {
    if items != [] {
      AccordionItemAppendOnly(items[0], content);
      var first := AccordionItem(items[0], []);
      assert AccordionItems(items, content) == AccordionItems(items[1..], content + first);
      assert AccordionItems(items, []) == AccordionItems(items[1..], first);
      var rest := AccordionItems(items[1..], []);
      AccordionItemsAppendOnly(items[1..], content + first);
      AccordionItemsAppendOnly(items[1..], first);
      ConcatAssoc(content, first, rest);
    }
  }

  lemma {:induction false} GalleryImagesAppendOnly(images: seq<Value>, content: seq<Value>)
    ensures GalleryImages(images, content) == content + GalleryImages(images, [])
  {
    if images != [] {
      var first := AppendIfSet(images[0], "alt", AppendIfSet(images[0], "caption", []));
      assert AppendIfSet(images[0], "alt", AppendIfSet(images[0], "caption", content)) == content + first;
      assert GalleryImages(images, content) == GalleryImages(images[1..], content + first);
      assert GalleryImages(images, []) == GalleryImages(images[1..], first);
      GalleryImagesAppendOnly(images[1..], content + first);
      GalleryImagesAppendOnly(images[1..], first);
      ConcatAssoc(content, first, GalleryImages(images[1..], []));
    }
  }

  lemma PageElementAppendOnly(element: Value, content: seq<Value>)
    ensures PageElement(element, content) == content + PageElement(element, [])
  {
    var t := TypeOf(element);
    if SwitchMatches(t, "editor") {
      EditorAppendOnly(element, content);
    } else if SwitchMatches(t, "accordion") {
      AccordionAppendOnly(element, content);
    } else if SwitchMatches(t, "single_image") {
      ImageAppendOnly(element, content);
    } else if SwitchMatches(t, "image_gallery") {
      GalleryAppendOnly(element, content);
    } else if SwitchMatches(t, "contact_information") {
      ContactAppendOnly(element, content);
    }
  }

  lemma EditorAppendOnly(element: Value, content: seq<Value>)
    requires SwitchMatches(TypeOf(element), "editor")
    ensures PageElement(element, content) == content + PageElement(element, [])
  {
    PageElementEditorCase(element, content);
    PageElementEditorCase(element, []);
  }

  lemma AccordionAppendOnly(element: Value, content: seq<Value>)
    requires !SwitchMatches(TypeOf(element), "editor") && SwitchMatches(TypeOf(element), "accordion")
    ensures PageElement(element, content) == content + PageElement(element, [])
  {
    PageElementAccordionCase(element, content);
    PageElementAccordionCase(element, []);
  }

  lemma ImageAppendOnly(element: Value, content: seq<Value>)
    requires !SwitchMatches(TypeOf(element), "editor") && !SwitchMatches(TypeOf(element), "accordion")
    requires SwitchMatches(TypeOf(element), "single_image")
    ensures PageElement(element, content) == content + PageElement(element, [])
  {
    PageElementImageCase(element, content);
    PageElementImageCase(element, []);
  }

  lemma GalleryAppendOnly(element: Value, content: seq<Value>)
    requires !SwitchMatches(TypeOf(element), "editor") && !SwitchMatches(TypeOf(element), "accordion")
    requires !SwitchMatches(TypeOf(element), "single_image") && SwitchMatches(TypeOf(element), "image_gallery")
    ensures PageElement(element, content) == content + PageElement(element, [])
  {
    PageElementGalleryCase(element, content);
    PageElementGalleryCase(element, []);
  }

  lemma ContactAppendOnly(element: Value, content: seq<Value>)
    requires !SwitchMatches(TypeOf(element), "editor") && !SwitchMatches(TypeOf(element), "accordion")
    requires !SwitchMatches(TypeOf(element), "single_image") && !SwitchMatches(TypeOf(element), "image_gallery")
    requires SwitchMatches(TypeOf(element), "contact_information")
    ensures PageElement(element, content) == content + PageElement(element, [])
  {
    PageElementContactCase(element, content);
    PageElementContactCase(element, []);
  }

  /** `case 'editor'`: the `editor` field through `processBardField` when set, otherwise
      the `content` field when set, otherwise nothing. */
  lemma PageElementEditorCase(element: Value, content: seq<Value>)
    requires SwitchMatches(TypeOf(element), "editor")
    ensures PageElement(element, content) ==
              content + (if IsSet(element, "editor") then ProcessBardField(Get(element, "editor"), [])
                         else if IsSet(element, "content") then ProcessBardField(Get(element, "content"), [])
                         else [])
  {
    if IsSet(element, "editor") {
      ProcessBardFieldAppendOnly(Get(element, "editor"), content);
    } else if IsSet(element, "content") {
      ProcessBardFieldAppendOnly(Get(element, "content"), content);
    }
  }

  /** `case 'accordion'`: the items of an `accordion_elements` array, each its title and
      then its editors (see `SingleItemFragments` and `AccordionItemsConcat`). */
  lemma PageElementAccordionCase(element: Value, content: seq<Value>)
    requires !SwitchMatches(TypeOf(element), "editor") && SwitchMatches(TypeOf(element), "accordion")
    ensures PageElement(element, content) ==
              content + (if Get(element, "accordion_elements").Arr?
                         then AccordionItems(ItemsOf(element), []) else [])
  {
    if Get(element, "accordion_elements").Arr? {
      AccordionItemsAppendOnly(ItemsOf(element), content);
    }
  }

  /** `case 'single_image'`: the caption and then the alt text, each when set. */
  lemma PageElementImageCase(element: Value, content: seq<Value>)
    requires !SwitchMatches(TypeOf(element), "editor") && !SwitchMatches(TypeOf(element), "accordion")
    requires SwitchMatches(TypeOf(element), "single_image")
    ensures PageElement(element, content) ==
              content + (if IsSet(element, "image_caption") then [Get(element, "image_caption")] else [])
              + (if IsSet(element, "image_alt") then [Get(element, "image_alt")] else [])
  {
  }

  /** `case 'image_gallery'`: for an `images` array, each image's caption and then its alt
      text (see `SingleImageFragments` and `GalleryImagesConcat`). */
  lemma PageElementGalleryCase(element: Value, content: seq<Value>)
    requires !SwitchMatches(TypeOf(element), "editor") && !SwitchMatches(TypeOf(element), "accordion")
    requires !SwitchMatches(TypeOf(element), "single_image") && SwitchMatches(TypeOf(element), "image_gallery")
    ensures PageElement(element, content) ==
              content + (if Get(element, "images").Arr? then GalleryImages(Elements(Get(element, "images")), []) else [])
  {
    if Get(element, "images").Arr? {
      GalleryImagesAppendOnly(Elements(Get(element, "images")), content);
    }
  }

  /** `case 'contact_information'`: the contact text when set. */
  lemma PageElementContactCase(element: Value, content: seq<Value>)
    requires !SwitchMatches(TypeOf(element), "editor") && !SwitchMatches(TypeOf(element), "accordion")
    requires !SwitchMatches(TypeOf(element), "single_image") && !SwitchMatches(TypeOf(element), "image_gallery")
    requires SwitchMatches(TypeOf(element), "contact_information")
    ensures PageElement(element, content) ==
              content + (if IsSet(element, "contact_text") then [Get(element, "contact_text")] else [])
  {
  }

  /** The `switch` compares loosely: a type of `true` equals every case name, so such an
      element takes the first case, `'editor'`. */
  lemma PageElementLooseTrue(element: Value, content: seq<Value>)
    requires TypeOf(element) == Bool(true)
    ensures SwitchMatches(TypeOf(element), "accordion") && SwitchMatches(TypeOf(element), "contact_information")
    ensures PageElement(element, content) ==
              content + (if IsSet(element, "editor") then ProcessBardField(Get(element, "editor"), [])
                         else if IsSet(element, "content") then ProcessBardField(Get(element, "content"), [])
                         else [])
  {
    PageElementEditorCase(element, content);
  }

  /** An accordion's items contribute one after another. */
  lemma {:induction false} AccordionItemsConcat(a: seq<Value>, b: seq<Value>)
    ensures AccordionItems(a + b, []) == AccordionItems(a, []) + AccordionItems(b, [])
  {
    if a == [] {
      assert a + b == b;
    } else {
      var first := AccordionItem(a[0], []);
      assert (a + b)[0] == a[0];
      assert (a + b)[1..] == a[1..] + b;
      assert AccordionItems(a + b, []) == AccordionItems(a[1..] + b, first);
      assert AccordionItems(a, []) == AccordionItems(a[1..], first);
      AccordionItemsAppendOnly(a[1..] + b, first);
      AccordionItemsAppendOnly(a[1..], first);
      AccordionItemsConcat(a[1..], b);
      ConcatAssoc(first, AccordionItems(a[1..], []), AccordionItems(b, []));
    }
  }

  /** One gallery image contributes its caption and then its alt text, each when set. */
  lemma SingleImageFragments(image: Value)
    ensures GalleryImages([image], []) ==
              (if IsSet(image, "caption") then [Get(image, "caption")] else [])
              + (if IsSet(image, "alt") then [Get(image, "alt")] else [])
  {
    assert [image][1..] == [];
  }

  /** A gallery's images contribute one after another. */
  lemma {:induction false} GalleryImagesConcat(a: seq<Value>, b: seq<Value>)
    ensures GalleryImages(a + b, []) == GalleryImages(a, []) + GalleryImages(b, [])
  {
    if a == [] {
      assert a + b == b;
    } else {
      var first := AppendIfSet(a[0], "alt", AppendIfSet(a[0], "caption", []));
      assert (a + b)[0] == a[0];
      assert (a + b)[1..] == a[1..] + b;
      assert GalleryImages(a + b, []) == GalleryImages(a[1..] + b, first);
      assert GalleryImages(a, []) == GalleryImages(a[1..], first);
      GalleryImagesAppendOnly(a[1..] + b, first);
      GalleryImagesAppendOnly(a[1..], first);
      GalleryImagesConcat(a[1..], b);
      ConcatAssoc(first, GalleryImages(a[1..], []), GalleryImages(b, []));
    }
  }

  /** Page elements contribute one after another. */
  lemma {:induction false} PageElementsConcat(a: seq<Value>, b: seq<Value>)
    ensures PageElements(a + b, []) == PageElements(a, []) + PageElements(b, [])
  {
    if a == [] {
      assert a + b == b;
    } else {
      var first := PageElement(a[0], []);
      assert (a + b)[0] == a[0];
      assert (a + b)[1..] == a[1..] + b;
      assert PageElements(a + b, []) == PageElements(a[1..] + b, first);
      assert PageElements(a, []) == PageElements(a[1..], first);
      PageElementsAppendOnly(a[1..] + b, first);
      PageElementsAppendOnly(a[1..], first);
      PageElementsConcat(a[1..], b);
      ConcatAssoc(first, PageElements(a[1..], []), PageElements(b, []));
    }
  }

  lemma {:induction false} PageElementsAppendOnly(elements: seq<Value>, content: seq<Value>)
    ensures PageElements(elements, content) == content + PageElements(elements, [])
  {
    if elements != [] {
      PageElementAppendOnly(elements[0], content);
      var first := PageElement(elements[0], []);
      assert PageElements(elements, content) == PageElements(elements[1..], content + first);
      assert PageElements(elements, []) == PageElements(elements[1..], first);
      PageElementsAppendOnly(elements[1..], content + first);
      PageElementsAppendOnly(elements[1..], first);
      ConcatAssoc(content, first, PageElements(elements[1..], []));
    }
  }

  lemma BardOrValueAppendOnly(v: Value, content: seq<Value>)
    ensures BardOrValue(v, content) == content + BardOrValue(v, [])
  {
    if Truthy(v) && v.Arr? {
      ProcessBardFieldAppendOnly(v, content);
    }
  }

  /** The SEO fragments: the Open Graph title, then the Open Graph description, each when truthy. */
  function SeoSection(e: Entry): seq<Value> {
    AppendIfTruthy(Field(e, "open_graph_description"), AppendIfTruthy(Field(e, "open_graph_title"), []))
  }

  /** The tag fragments: one per tag when `tags` is a non-empty array. */
  function TagSection(e: Entry): seq<Value> {
    var tags := Field(e, "tags");
    if Truthy(tags) && tags.Arr? then TagLabels(Elements(tags)) else []
  }

  /** The page-element fragments, only for the `pages` collection. */
  function PageSection(e: Entry): seq<Value> {
    var elements := Field(e, "page_elements");
    if e.collection == "pages" && elements.Arr? then PageElements(Elements(elements), []) else []
  }

  /** The agenda editor and then summary, only for the `agenda` collection. */
  function AgendaSection(e: Entry): seq<Value> {
    if e.collection == "agenda" then BardOrValue(Field(e, "summary"), BardOrValue(Field(e, "editor"), [])) else []
  }

  /** The searchable fragments are the sections in the source's order, each section
      computed on its own: title, SEO, tags, page elements, agenda, content, description. */
  lemma SearchableSections(e: Entry)
    ensures SearchableFragments(e) ==
              [Field(e, "title")] + SeoSection(e) + TagSection(e) + PageSection(e) + AgendaSection(e)
              + BardOrValue(Field(e, "content"), []) + BardOrValue(Field(e, "description"), [])
  {
    var c0 := [Field(e, "title")];
    var c1 := AppendIfTruthy(Field(e, "open_graph_description"), AppendIfTruthy(Field(e, "open_graph_title"), c0));
    assert c1 == c0 + SeoSection(e);
    var tags := Field(e, "tags");
    var c2 := if Truthy(tags) && tags.Arr? then c1 + TagLabels(Elements(tags)) else c1;
    assert c2 == c1 + TagSection(e);
    var elements := Field(e, "page_elements");
    var c3 := if e.collection == "pages" && elements.Arr? then PageElements(Elements(elements), c2) else c2;
    if e.collection == "pages" && elements.Arr? {
      PageElementsAppendOnly(Elements(elements), c2);
    }
    assert c3 == c2 + PageSection(e);
    var c4 := if e.collection == "agenda" then BardOrValue(Field(e, "summary"), BardOrValue(Field(e, "editor"), c3)) else c3;
    if e.collection == "agenda" {
      BardOrValueAppendOnly(Field(e, "editor"), c3);
      var withEditor := BardOrValue(Field(e, "editor"), []);
      BardOrValueAppendOnly(Field(e, "summary"), c3 + withEditor);
      BardOrValueAppendOnly(Field(e, "summary"), withEditor);
      var withSummary := BardOrValue(Field(e, "summary"), withEditor);
      assert AgendaSection(e) == withSummary;
      assert BardOrValue(Field(e, "editor"), c3) == c3 + withEditor;
      assert c4 == BardOrValue(Field(e, "summary"), c3 + withEditor);
      var summaryOnly := BardOrValue(Field(e, "summary"), []);
      assert c4 == (c3 + withEditor) + summaryOnly;
      assert withSummary == withEditor + summaryOnly;
      ConcatAssoc(c3, withEditor, summaryOnly);
    }
    assert c4 == c3 + AgendaSection(e);
    var c5 := BardOrValue(Field(e, "content"), c4);
    BardOrValueAppendOnly(Field(e, "content"), c4);
    BardOrValueAppendOnly(Field(e, "description"), c5);
    assert SearchableFragments(e) == BardOrValue(Field(e, "description"), c5);
  }

  /** `array_filter` distributes over concatenation. */
  lemma {:induction false} SurvivorsConcat(a: seq<string>, b: seq<string>)
    ensures Survivors(a + b) == Survivors(a) + Survivors(b)
  {
    if a != [] {
      assert (a + b)[0] == a[0];
      assert (a + b)[1..] == a[1..] + b;
      SurvivorsConcat(a[1..], b);
    } else {
      assert a + b == b;
    }
  }

  /** Two non-empty pieces of searchable text joined by one space, or whichever is non-empty. */
  function SpaceJoin(x: string, y: string): string {
    if x == "" then y else if y == "" then x else x + " " + y
  }

  /** A join of kept strings is empty exactly when there is nothing to join. */
  lemma JoinKeptEmpty(xs: seq<string>)
    requires forall s :: s in xs ==> Kept(s)
    ensures Join(xs, " ") == "" <==> xs == []
  {
    if xs != [] {
      JoinHead(xs, " ");
      assert Kept(xs[0]);
    }
  }

  /** The post-pass of a concatenation is the post-passes of the parts joined by a single
      space: fragments that are empty or `"0"` after the cast never leave a double space. */
  lemma PostPassConcat(a: seq<Value>, b: seq<Value>)
    ensures PostPass(a + b) == SpaceJoin(PostPass(a), PostPass(b))
  {
    var ca := CastAll(a);
    var cb := CastAll(b);
    CastAllConcat(a, b);
    SurvivorsConcat(ca, cb);
    var sa := Survivors(ca);
    var sb := Survivors(cb);
    JoinKeptEmpty(sa);
    JoinKeptEmpty(sb);
    if sa != [] && sb != [] {
      JoinAppend(sa, sb, " ");
    } else if sa == [] {
      assert sa + sb == sb;
    } else {
      assert sa + sb == sa;
    }
  }

  /** A title that is a string other than `''` and `'0'` leads the searchable text,
      followed by a space when anything else survives. */
  lemma TitleLeads(e: Entry)
    requires Field(e, "title").Str? && Kept(Field(e, "title").s)
    ensures var t := Field(e, "title").s;
            var text := GetSearchableContent(e);
            StartsWith(text, t) && (|text| == |t| || StartsWith(text, t + " "))
  {
    TitleFirst(e);
    LeadingFragment(SearchableFragments(e));
  }

  /** A leading kept string fragment leads the post-pass output. */
  lemma LeadingFragment(fs: seq<Value>)
    requires fs != [] && fs[0].Str? && Kept(fs[0].s)
    ensures var text := PostPass(fs);
            StartsWith(text, fs[0].s) && (|text| == |fs[0].s| || StartsWith(text, fs[0].s + " "))
  {
    assert fs == [fs[0]] + fs[1..];
    PostPassConcat([fs[0]], fs[1..]);
    PostPassSingle(fs[0]);
    SpaceJoinLeads(fs[0].s, PostPass(fs[1..]));
  }

  /** A single kept string fragment passes through the post-pass unchanged. */
  lemma PostPassSingle(v: Value)
    requires v.Str? && Kept(v.s)
    ensures PostPass([v]) == v.s
  {
    assert CastAll([v]) == [v.s];
  }

  /** A non-empty string leads its space-join with anything. */
  lemma SpaceJoinLeads(t: string, rest: string)
    requires t != ""
    ensures var j := SpaceJoin(t, rest);
            StartsWith(j, t) && (|j| == |t| || StartsWith(j, t + " "))
  {
    if rest != "" {
      assert SpaceJoin(t, rest) == (t + " ") + rest;
    }
  }

  /** The title is the first searchable fragment. */
  lemma TitleFirst(e: Entry)
    ensures |SearchableFragments(e)| >= 1 && SearchableFragments(e)[0] == Field(e, "title")
  {
    SearchableSections(e);
  }

  /** For fragments without arrays, the index command's two post-passes agree: casting
      then dropping `''`/`'0'` (searchable text) gives the same string as dropping falsy
      values then imploding (accordion content). They differ only on array fragments,
      which the first drops and the second renders as `"Array"`. */
  lemma PostPassesAgree(vs: seq<Value>)
    requires forall k :: 0 <= k < |vs| ==> !vs[k].Arr?
    ensures PostPass(vs) == ImplodeTruthy(vs)
  {
    CastFilterCommutes(vs);
  }

  /** Casting then dropping `''`/`'0'` equals dropping falsy values then converting. */
  lemma {:induction false} CastFilterCommutes(vs: seq<Value>)
    requires forall k :: 0 <= k < |vs| ==> !vs[k].Arr?
    ensures Survivors(CastAll(vs)) == StrAll(TruthyValues(vs))
  {
    if vs != [] {
      CastFilterCommutes(vs[1..]);
      assert CastAll(vs) == [Cast(vs[0])] + CastAll(vs[1..]);
      assert Cast(vs[0]) == ToStr(vs[0]);
      if Truthy(vs[0]) {
        assert TruthyValues(vs) == [vs[0]] + TruthyValues(vs[1..]);
        assert StrAll([vs[0]] + TruthyValues(vs[1..])) == [ToStr(vs[0])] + StrAll(TruthyValues(vs[1..]));
      } else {
        assert TruthyValues(vs) == TruthyValues(vs[1..]);
      }
    }
  }

  // ---------------------------------------------------------------------------
  // Properties of the accordion anchors

  /** An accordion item contributes its title (when set) and then its editors; the
      editors feed the searchable text whether or not the item has a title, while only
      a titled item gets an anchor. */
  lemma AccordionItemContribution(item: Value, slug: Value -> string)
    ensures AccordionItems([item], []) ==
              (if IsSet(item, "accordion_title") then [Get(item, "accordion_title")] else [])
              + ItemEditors(item, [])
    ensures ItemAnchors([item], slug) ==
              if IsSet(item, "accordion_title") then
                [Anchor(Get(item, "accordion_title"), AnchorFor(Get(item, "accordion_title"), slug), GetAccordionContent(item))]
              else []
  {
    SingleItemFragments(item);
    SingleItemAnchors(item, slug);
  }

  lemma SingleItemFragments(item: Value)
    ensures AccordionItems([item], []) ==
              (if IsSet(item, "accordion_title") then [Get(item, "accordion_title")] else [])
              + ItemEditors(item, [])
  {
    assert [item][1..] == [];
    assert AccordionItems([item], []) == AccordionItems([], AccordionItem(item, []));
    if IsSet(item, "accordion_title") {
      var title := [Get(item, "accordion_title")];
      assert AppendIfSet(item, "accordion_title", []) == [] + title == title;
      ItemEditorsAppendOnly(item, title);
    } else {
      assert AppendIfSet(item, "accordion_title", []) == [];
    }
  }

  lemma SingleItemAnchors(item: Value, slug: Value -> string)
    ensures ItemAnchors([item], slug) == (if IsSet(item, "accordion_title") then [AnchorOf(item, slug)] else [])
  {
    assert [item][1..] == [];
  }

  /** The anchors of an element list are exactly those of the titled items of its
      accordions. */
  lemma {:induction false} ElementAnchorsComplete(elements: seq<Value>, slug: Value -> string)
    ensures forall a :: a in ElementAnchors(elements, slug) <==> AnchoredInElements(a, elements, slug)
  {
    if elements != [] {
      var here := ElementItemAnchors(elements[0], slug);
      var rest := ElementAnchors(elements[1..], slug);
      ElementAnchorsComplete(elements[1..], slug);
      assert ElementAnchors(elements, slug) == here + rest;
      forall a
        ensures a in here + rest <==> AnchoredInElements(a, elements, slug)
      {
        if a in here {
          assert IsAccordion(elements[0]);
        } else if a in rest {
          var i :| 0 <= i < |elements[1..]| && IsAccordion(elements[1..][i]) && AnchoredIn(a, ItemsOf(elements[1..][i]), slug);
          assert elements[1..][i] == elements[i + 1];
        }
        if AnchoredInElements(a, elements, slug) {
          var i :| 0 <= i < |elements| && IsAccordion(elements[i]) && AnchoredIn(a, ItemsOf(elements[i]), slug);
          if i == 0 {
            var j :| 0 <= j < |ItemsOf(elements[0])| && IsSet(ItemsOf(elements[0])[j], "accordion_title")
                     && a == AnchorOf(ItemsOf(elements[0])[j], slug);
            assert a in here;
          } else {
            assert elements[i] == elements[1..][i - 1];
            assert AnchoredInElements(a, elements[1..], slug);
          }
        }
      }
    }
  }

  /** `a` is the anchor of some titled item among `items`. */
  ghost predicate AnchoredIn(a: Anchor, items: seq<Value>, slug: Value -> string) {
    exists j :: 0 <= j < |items| && IsSet(items[j], "accordion_title") && a == AnchorOf(items[j], slug)
  }

  /** Every anchor belongs to a titled item, and every titled item has its anchor, with
      the item's title, `"item-" + slug(title)` and the item's accordion content. */
  lemma ItemAnchorsComplete(items: seq<Value>, slug: Value -> string)
    ensures forall a :: a in ItemAnchors(items, slug) ==> AnchoredIn(a, items, slug)
    ensures forall j :: 0 <= j < |items| && IsSet(items[j], "accordion_title") ==>
              AnchorOf(items[j], slug) in ItemAnchors(items, slug)
  {
    ItemAnchorsSound(items, slug);
    ItemAnchorsCover(items, slug);
  }

  lemma {:induction false} ItemAnchorsSound(items: seq<Value>, slug: Value -> string)
    ensures forall a :: a in ItemAnchors(items, slug) ==> AnchoredIn(a, items, slug)
  {
    if items != [] {
      ItemAnchorsSound(items[1..], slug);
      var rest := ItemAnchors(items[1..], slug);
      var head := if IsSet(items[0], "accordion_title") then [AnchorOf(items[0], slug)] else [];
      assert ItemAnchors(items, slug) == head + rest;
      forall a | a in head + rest
        ensures AnchoredIn(a, items, slug)
      {
        if a in head {
          AnchoredInHead(items, slug);
        } else {
          AnchoredInTail(a, items, slug);
        }
      }
    }
  }

  lemma AnchoredInHead(items: seq<Value>, slug: Value -> string)
    requires items != [] && IsSet(items[0], "accordion_title")
    ensures AnchoredIn(AnchorOf(items[0], slug), items, slug)
  {
  }

  lemma AnchoredInTail(a: Anchor, items: seq<Value>, slug: Value -> string)
    requires items != [] && AnchoredIn(a, items[1..], slug)
    ensures AnchoredIn(a, items, slug)
  {
    var j :| 0 <= j < |items[1..]| && IsSet(items[1..][j], "accordion_title") && a == AnchorOf(items[1..][j], slug);
    assert items[1..][j] == items[j + 1];
  }

  lemma {:induction false} ItemAnchorsCover(items: seq<Value>, slug: Value -> string)
    ensures forall j :: 0 <= j < |items| && IsSet(items[j], "accordion_title") ==>
              AnchorOf(items[j], slug) in ItemAnchors(items, slug)
  {
    if items != [] {
      ItemAnchorsCover(items[1..], slug);
      var rest := ItemAnchors(items[1..], slug);
      var head := if IsSet(items[0], "accordion_title") then [AnchorOf(items[0], slug)] else [];
      assert ItemAnchors(items, slug) == head + rest;
      forall j | 0 <= j < |items| && IsSet(items[j], "accordion_title")
        ensures AnchorOf(items[j], slug) in head + rest
      {
        if j > 0 {
          assert items[j] == items[1..][j - 1];
          assert AnchorOf(items[1..][j - 1], slug) in rest;
        } else {
          assert (head + rest)[0] == AnchorOf(items[0], slug);
        }
      }
    }
  }

  /** The anchors of consecutive item lists follow one another: with `SingleItemAnchors`
      this fixes the order and multiplicity of the anchors, one per titled item in item
      order. */
  lemma {:induction false} ItemAnchorsConcat(a: seq<Value>, b: seq<Value>, slug: Value -> string)
    ensures ItemAnchors(a + b, slug) == ItemAnchors(a, slug) + ItemAnchors(b, slug)
  {
    if a == [] {
      assert a + b == b;
    } else {
      assert (a + b)[0] == a[0];
      assert (a + b)[1..] == a[1..] + b;
      ItemAnchorsConcat(a[1..], b, slug);
      var head := if IsSet(a[0], "accordion_title") then [AnchorOf(a[0], slug)] else [];
      assert ItemAnchors(a + b, slug) == head + ItemAnchors(a[1..] + b, slug);
      assert ItemAnchors(a, slug) == head + ItemAnchors(a[1..], slug);
      ConcatAssoc(head, ItemAnchors(a[1..], slug), ItemAnchors(b, slug));
    }
  }

  /** The anchors of consecutive page-element lists follow one another, each element
      giving `ElementItemAnchors`: accordions in page order, items in accordion order. */
  lemma {:induction false} ElementAnchorsConcat(a: seq<Value>, b: seq<Value>, slug: Value -> string)
    ensures ElementAnchors(a + b, slug) == ElementAnchors(a, slug) + ElementAnchors(b, slug)
  {
    if a == [] {
      assert a + b == b;
    } else {
      assert (a + b)[0] == a[0];
      assert (a + b)[1..] == a[1..] + b;
      ElementAnchorsConcat(a[1..], b, slug);
      var head := ElementItemAnchors(a[0], slug);
      assert ElementAnchors(a + b, slug) == head + ElementAnchors(a[1..] + b, slug);
      assert ElementAnchors(a, slug) == head + ElementAnchors(a[1..], slug);
      ConcatAssoc(head, ElementAnchors(a[1..], slug), ElementAnchors(b, slug));
    }
  }

  /** For a `pages` entry whose page elements split into `a` then `b`, the anchors of
      `a`'s accordions come first, then those of `b`'s. */
  lemma AccordionAnchorsInOrder(e: Entry, a: seq<Value>, b: seq<Value>, slug: Value -> string)
    requires e.collection == "pages" && Field(e, "page_elements").Arr?
    requires Elements(Field(e, "page_elements")) == a + b
    ensures GetAccordionAnchors(e, slug) == ElementAnchors(a, slug) + ElementAnchors(b, slug)
  {
    ElementAnchorsConcat(a, b, slug);
  }

  /** `array_filter` keeps values in order: the truthy values of a concatenation are
      those of the parts, one after the other. */
  lemma {:induction false} TruthyValuesConcat(a: seq<Value>, b: seq<Value>)
    ensures TruthyValues(a + b) == TruthyValues(a) + TruthyValues(b)
  {
    if a == [] {
      assert a + b == b;
    } else {
      assert (a + b)[0] == a[0];
      assert (a + b)[1..] == a[1..] + b;
      TruthyValuesConcat(a[1..], b);
      if Truthy(a[0]) {
        ConcatAssoc([a[0]], TruthyValues(a[1..]), TruthyValues(b));
      }
    }
  }
}
